=== FILE: README.md ===
# A Dafny model of the m3u8 C playlist parser

This project models `m3u8/_m3u8_parser.c`, the C extension behind
`m3u8.parse`. The extension reads an HLS playlist (RFC 8216) and returns the
Python dict that describes it. The model follows the extension's four layers:

- **Lines** (`Text`, `Lines`). The whole text is trimmed. The validator's
  list of lines is built from it. The main loop walks the text itself: it
  numbers physical lines from 1, treats `\r\n` as one break, strips each line
  and skips blank ones.
- **Attribute lists** (`AttrList`, `Tokenizer`). A dict is an insertion-ordered
  association list. A store under a present key replaces the value in place,
  as `PyDict_SetItem` does. The untyped scanner reads `KEY=VALUE` tokens with
  quoted or unquoted values. A token without `=` is stored under the empty
  name. It is given twice: as a function over the text, and as the
  pointer-walking loop of the source (`Tokenizer.ScanAttributes`), which is
  proved to compute the same dict.
- **Schema decoder** (`Decoder`, `Schemas`). Each value is converted by the
  kind its name has in the per-tag table. Numeric values fall back to the
  text when they do not parse or are 64 characters or longer.
- **State machine** (`Model`, `Handlers`, `Dispatch`, `Parser`). The result
  `data` dict is a `Document` record and the carry-over `state` dict is a
  `State` record. Every tag handler is a pure function of the line, the
  document and the state. `Dispatch.Step` handles one line, `Parser.Run`
  folds it over the lines, and `Parser.Parse` adds strict-mode validation and
  the final flush of a pending segment.

The Python runtime services are parameters in `Scalars.Numerics`,
`Handlers`' `Clock` and `Dispatch.Env`: number parsing, `fromisoformat`,
adding seconds to a datetime, the strict-mode validator and the custom tag
parser. Every property holds for every choice of them.

## Model

| member | source | states |
|---|---|---|
| Text.Strip | m3u8/_m3u8_parser.c:374-384 | `strip` never lengthens a text, and its result neither starts nor ends with whitespace |
| Text.StripIsMiddleSlice | m3u8/_m3u8_parser.c:374-384 | `strip` returns a contiguous slice of its input with only whitespace cut from either end, and the result neither starts nor ends with whitespace |
| Text.StripIdempotent | m3u8/_m3u8_parser.c:374-384 | stripping twice is the same as stripping once |
| Lines.SplitLines | m3u8/_m3u8_parser.c:454-504 | the validator's splitter yields at least one piece, and no piece holds a line break |
| Lines.SplitLinesKeepsContent | m3u8/_m3u8_parser.c:454-504 | joining the pieces gives back the text with exactly its line-break characters removed |
| Lines.SplitLinesAtBreak | m3u8/_m3u8_parser.c:465-500 | a text is cut at each `\n`, `\r\n` or lone `\r` and nowhere else: the piece before the break comes first, then the pieces of the rest, and `\r\n` is one break |
| Lines.SplitLinesOfNoBreak | m3u8/_m3u8_parser.c:489-503 | a text without a break is one piece, even when it is empty |
| Lines.WalkLines | m3u8/_m3u8_parser.c:2014-2049 | the lines the main loop hands on have strictly increasing numbers above the starting one, and each is non-empty, break-free and carries no surrounding whitespace |
| Lines.WalkLinesAtBreak | m3u8/_m3u8_parser.c:2014-2049 | the line before a `\n`, `\r\n` or lone `\r` gets the next number and is kept, stripped, unless blank; the walk goes on after the break with the following number |
| Lines.WalkLinesOfNoBreak | m3u8/_m3u8_parser.c:2014-2049 | a final line without a break gets the next number and ends the walk, and a blank one is dropped |
| Lines.WalkTwoLines | m3u8/_m3u8_parser.c:2014-2049 | two non-blank lines joined by one break are numbered one after the other |
| Lines.WalkCrLf | m3u8/_m3u8_parser.c:2037-2038 | `a\r\nb` is two lines, numbered 1 and 2 |
| Lines.WalkIsNumberedSplit | m3u8/_m3u8_parser.c:2014-2049 | the main loop's walk visits exactly the splitter's pieces, stripped, numbered from 1 in order, with the blank ones dropped but counted |
| Lines.SplitLinesAsWrittenBlankInput | m3u8/_m3u8_parser.c:489-503 | as written, a blank playlist gives the validator one empty line while the main loop sees no line (finding 2) |
| Lines.ValidatorLinesMatchLoop | m3u8/_m3u8_parser.c:1914-1953 | the corrected validator list is empty exactly for a blank text, and the line the loop numbers k is, once stripped, line k of that list |
| AttrList.PutSpec | m3u8/_m3u8_parser.c:803-808 | after a dict store the key maps to the new value and every other key keeps its lookup; a present key keeps its position and a new key goes last |
| AttrList.PutKeys | m3u8/_m3u8_parser.c:803-808 | a store appends the key to the key order only when the key is new |
| AttrList.PutUnique | m3u8/_m3u8_parser.c:803-808 | stores keep keys unique |
| AttrList.PutAllLastWins | m3u8/_m3u8_parser.c:725-812 | after a run of stores a key looks up the value of its last store: a repeated name overwrites the earlier value |
| AttrList.PutAllKeyOrder | m3u8/_m3u8_parser.c:725-812 | after a run of stores the keys are the distinct names in order of first appearance |
| AttrList.PutAllOfTwo | m3u8/_m3u8_parser.c:803 | two stores under different names give a dict of those two entries in that order |
| AttrList.Remove | m3u8/_m3u8_parser.c:2225-2227 | a deleted key looks up nothing, every other key keeps its lookup, and no entry is added |
| Tokenizer.NormalizeKey | m3u8/_m3u8_parser.c:644-690 | a dict name is never longer than the key text, and has no `-`, no upper-case letter and no whitespace at either end |
| Tokenizer.NormalizeKeyOfCapitals | m3u8/_m3u8_parser.c:644-690 | a name written in capitals is stored under its lower-case form |
| Tokenizer.KeyChars | m3u8/_m3u8_parser.c:667-676 | each character of a name becomes `_` for `-` and its lower-case form otherwise |
| Tokenizer.NormalizeKeyShape | m3u8/_m3u8_parser.c:644-690 | a normalised name has no `-`, no upper-case letter, no whitespace at either end, and normalising it again changes nothing |
| Tokenizer.NormalKeyFixed | m3u8/_m3u8_parser.c:644-690 | a name already in normal form is left unchanged |
| Tokenizer.RemoveQuotes | m3u8/_m3u8_parser.c:693-702 | the result is the text itself, or the text is the result wrapped in one pair of the same quote character |
| Tokenizer.RemoveQuotesInverse | m3u8/_m3u8_parser.c:693-702 | removing quotes undoes quoting with `"` or `'`, and leaves a text unchanged unless it has at least two characters and both ends hold the same quote |
| Tokenizer.ScanValueShape | m3u8/_m3u8_parser.c:750-778 | a quoted value runs from its quote to the next copy of that quote, commas included, or to the end when unclosed; an unquoted value holds no comma, has no trailing whitespace, and is followed by a comma or the end |
| Tokenizer.NextToken | m3u8/_m3u8_parser.c:734-795 | a token's key text is the longest prefix without `=` or `,`; the token is bare exactly when that prefix ends at a comma or the end, and then the rest starts there; the rest is always shorter |
| Tokenizer.Tokens | m3u8/_m3u8_parser.c:725-812 | a payload gives at most one token per character, and no key text holds `=` or `,` |
| Tokenizer.RawAttributes | m3u8/_m3u8_parser.c:716-815 | the untyped dict has each name once, in order of first appearance |
| Tokenizer.TokensRender | m3u8/_m3u8_parser.c:725-812 | scanning a comma-joined rendering of well-formed tokens gives back exactly those tokens |
| Tokenizer.TokensOfBare | m3u8/_m3u8_parser.c:779-795 | a payload of one bare word is one token without a value |
| Tokenizer.TokensOfLastUnquoted | m3u8/_m3u8_parser.c:734-795 | a final `key=value` with an unquoted value and no comma after it is read as that one token |
| Tokenizer.TokensOfPair | m3u8/_m3u8_parser.c:725-812 | a well-formed keyed token, a comma and a final unquoted pair are read back as those two tokens |
| Tokenizer.TokensOfQuotedPair | m3u8/_m3u8_parser.c:725-812 | `k1="u",k2=d` is read as a closed double-quoted token and a final unquoted token |
| Tokenizer.RawAttributesShape | m3u8/_m3u8_parser.c:716-815 | the scanned dict has unique keys, each either empty or a normalised name, and each key maps to the value of its last token |
| Tokenizer.ScanAttributes | m3u8/_m3u8_parser.c:716-815 | the pointer loop, skipping separators and reading one token per pass, builds exactly the dict of the functional scanner |
| Tokenizer.ReadToken | m3u8/_m3u8_parser.c:734-795 | one pass of the loop reads exactly the next token, moves the pointer past it, and yields its dict name and raw value |
| Tokenizer.ReadValue | m3u8/_m3u8_parser.c:750-778 | reading after `=` yields the next value and stops where the functional scanner stops |
| Tokenizer.AfterPrefix | m3u8/_m3u8_parser.c:828-842 | the payload exists exactly when the line starts with the prefix, and is then the suffix after it |
| Tokenizer.AttributeList | m3u8/_m3u8_parser.c:825-845 | a line that does not start with the prefix gives an empty dict |
| Scalars.Truncate | m3u8/_m3u8_parser.c:966 | a finite double truncates toward zero to an integer within 1 of it, and infinities and NaN give none |
| Scalars.TruncateProperties | m3u8/_m3u8_parser.c:966 | truncation keeps integers and is symmetric about zero |
| Decoder.KindOf | m3u8/_m3u8_parser.c:912-921 | a name's kind is that of the first schema entry with the name, and string when no entry has it |
| Decoder.Number | m3u8/_m3u8_parser.c:955-1053 | a numeric reading exists only for texts under 64 characters; integers come from the integer parser, floats from the double parser, and bandwidths from a truncated double |
| Decoder.DecodeValue | m3u8/_m3u8_parser.c:925-1073 | a bare token or a string kind keeps the raw token, quotes included; a quoted-string kind keeps the inside; a number is stored only when it reads, otherwise the text is kept |
| Decoder.TypedEntries | m3u8/_m3u8_parser.c:889-1090 | each token is stored under its dict name with its value decoded by its name's kind |
| Decoder.TypedAttributes | m3u8/_m3u8_parser.c:879-1093 | the typed dict has each name once |
| Decoder.TypedAttributeList | m3u8/_m3u8_parser.c:1099-1119 | a line that does not start with the prefix gives an empty dict |
| Decoder.UntypedAgreement | m3u8/_m3u8_parser.c:879-1093 | with only string kinds in the schema, the typed decoder stores exactly the untyped scanner's dict |
| Decoder.TypedKeysAgree | m3u8/_m3u8_parser.c:879-1093 | the typed dict has the same keys in the same order as the untyped one |
| Decoder.QuotedKindRemovesQuotes | m3u8/_m3u8_parser.c:943-949 | a closed quoted value of quoted-string kind decodes to what `remove_quotes` makes of the raw token |
| Decoder.TypedValueKind | m3u8/_m3u8_parser.c:955-1053 | a stored integer comes from a name of integer or bandwidth kind, and a stored float from a name of float kind |
| Decoder.TypedAttributesOfBare | m3u8/_m3u8_parser.c:1059-1073 | a payload of one bare word decodes to that word under the empty name |
| Handlers.Payload | m3u8/_m3u8_parser.c:2121 | the corrected payload of a tag line is the text after the tag and its colon, and empty for a bare tag (finding 1) |
| Handlers.PayloadOfTagLine | m3u8/_m3u8_parser.c:2121 | writing `tag:v` and taking the payload gives back `v` |
| Handlers.CopyLine | m3u8/_m3u8_parser.c:2064-2067 | the reused buffer holds the new line and its terminator at the start, and keeps the bytes of a longer earlier line behind it |
| Handlers.PayloadAsWrittenWithColon | m3u8/_m3u8_parser.c:2121 | when the tag is followed by a colon, the payload pointer as written reads exactly the payload |
| Handlers.PayloadAsWrittenReadsStaleLine | m3u8/_m3u8_parser.c:2279 | as written, a bare `#EXT-X-VERSION` after `#EXT-X-BITRATE:12345` reads `12345` from the old line (finding 1) |
| Handlers.KeyAttributes | m3u8/_m3u8_parser.c:1300-1321 | a key dict has the scanned keys in order, each value with its quotes removed |
| Handlers.AddKey | m3u8/_m3u8_parser.c:1327-1341 | the key list then holds the key, and grows by exactly it iff no equal dict was listed, keeping earlier entries |
| Handlers.AddKeyLoop | m3u8/_m3u8_parser.c:1327-1341 | the source's search loop with early exit computes the same list |
| Handlers.AddKeyDistinct | m3u8/_m3u8_parser.c:1327-1341 | adding a key keeps the key list free of duplicates |
| Handlers.AddNone | m3u8/_m3u8_parser.c:1549-1569 | an unencrypted segment leaves `None` in the key list, adding it only when absent |
| Handlers.AddNoneDistinct | m3u8/_m3u8_parser.c:1549-1569 | adding `None` keeps the key list free of duplicates |
| Handlers.ParseKey | m3u8/_m3u8_parser.c:1299-1345 | `#EXT-X-KEY` makes the decoded key current, lists it once, grows the list by at most one, and changes nothing else |
| Handlers.ParseSessionKey | m3u8/_m3u8_parser.c:2428-2449 | `#EXT-X-SESSION-KEY` appends the quote-stripped key to the session keys and changes nothing else |
| Handlers.ParseExtinf | m3u8/_m3u8_parser.c:1351-1421 | with the corrected payload (finding 1), `#EXTINF` fails exactly in strict mode when the payload has no comma; otherwise it drafts a segment with a duration and with the title after the first comma (empty without one), sets the segment expectation, and changes nothing else |
| Handlers.ExtinfAsWrittenReadsStaleLine | m3u8/_m3u8_parser.c:1355 | as written, a bare `#EXTINF` after `#EXTINF:10,title` reads `10,title` and finds a comma, while with the corrected empty payload strict mode raises a parse error for it (finding 1) |
| Handlers.ExtinfRoundTrip | m3u8/_m3u8_parser.c:1351-1421 | `#EXTINF:d,t` gives title `t` and the double read from the first 63 characters of `d`, or 0 |
| Handlers.Advance | m3u8/_m3u8_parser.c:1470-1487 | advancing the running date raises exactly when the date addition fails |
| Handlers.InitSection | m3u8/_m3u8_parser.c:1571-1576 | a segment gets an init section exactly when the current map is a non-empty dict |
| Handlers.Consume | m3u8/_m3u8_parser.c:1491-1547 | after a segment the one-shot values are cleared; the cue-out values survive only when a cue-out was active; key, map and stream info stay |
| Handlers.RecordSegment | m3u8/_m3u8_parser.c:1549-1612 | one segment with the draft and the pending values is appended after the earlier ones; `None` joins the key list once when no key is current; nothing else changes |
| Handlers.FinishSegment | m3u8/_m3u8_parser.c:1427-1621 | a URI line appends exactly one segment carrying the draft, the URI and every pending value: the date as it was before this segment, the cue values, the key, the init section, the date ranges, the gap and the blackout. It keeps earlier segments and clears the pending state. With a running date and a duration, the date advances by the duration and the line fails exactly when that addition fails; otherwise the date is kept |
| Handlers.FinishSegmentConsumes | m3u8/_m3u8_parser.c:1427-1621 | a second URI right after a first finds nothing pending: an empty draft, no flags, the same key, cue values copied only when a cue-out was active |
| Handlers.AddVariantPlaylist | m3u8/_m3u8_parser.c:1624-1657 | a URI after `#EXT-X-STREAM-INF` appends one playlist with the pending stream info (or an empty one), clears the expectation and the info, and changes nothing else |
| Handlers.ParseProgramDateTime | m3u8/_m3u8_parser.c:1663-1688 | the date after the colon becomes the current and pending date, becomes the document's date only if none was set, and an unreadable date raises |
| Handlers.FirstDateWins | m3u8/_m3u8_parser.c:1663-1688 | after two date tags the document keeps the first date and the state runs on from the second |
| Handlers.AddPart | m3u8/_m3u8_parser.c:1725-1769 | a part goes at the end of the draft's parts, creating the draft and list when absent; earlier parts and the rest of the draft stay; the pending date ranges and gap are cleared |
| Handlers.PartDate | m3u8/_m3u8_parser.c:1703-1723 | with a running date and a part duration the date advances by it; a duration that is not a float, or a failed addition, raises |
| Handlers.MakePart | m3u8/_m3u8_parser.c:1703-1741 | the part carries the running date, the pending date ranges and the gap, and a decoded attribute named `dateranges`, `gap_tag` or (while a date runs) `program_date_time` is replaced by them; every other attribute is kept |
| Handlers.ParsePart | m3u8/_m3u8_parser.c:1694-1772 | `#EXT-X-PART` appends the decoded part, built by `MakePart` from the running date, date ranges and gap, clears the pending date ranges and gap, and fails exactly when the date advance fails |
| Handlers.ParsePartOverwrites | m3u8/_m3u8_parser.c:1725-1741 | the appended part's gap and date ranges are the pending ones whatever attributes of those names the line carried, and so is its date while one runs |
| Handlers.PartAttributesOf | m3u8/_m3u8_parser.c:1697-1698 | `#EXT-X-PART:URI="u",DURATION=d` decodes to exactly `uri` = `u` without its quotes and `duration` = `d` read as a float, or the text when it does not read |
| Handlers.PartRoundTrip | m3u8/_m3u8_parser.c:1694-1772 | writing `#EXT-X-PART:URI="u",DURATION=d` and parsing it appends a part holding `u` and the duration. Without a running date it cannot fail. With one, it fails exactly when `d` does not read as a float or the date cannot advance, and otherwise the date advances by the duration |
| Handlers.PartDurationNotInt | m3u8/_m3u8_parser.c:1155-1163 | a part duration is decoded as a float or kept as text, never as an integer |
| Handlers.ParseCueOut | m3u8/_m3u8_parser.c:1775-1822 | `#EXT-X-CUE-OUT` sets cue-out and cue-out-start; the explicit flag stays set once set and is set when `DURATION` occurs in the first 1023 characters upper-cased; the duration comes from `duration`, else the bare token, else stays; the SCTE value changes only when `cue` is given; nothing else changes |
| Handlers.CueOutBareDuration | m3u8/_m3u8_parser.c:1803-1816 | `#EXT-X-CUE-OUT:d` for a bare word `d` sets the duration to `d` and keeps the SCTE value |
| Handlers.Progress | m3u8/_m3u8_parser.c:1837-1864 | a progress text without a slash becomes the duration with the elapsed time kept; with a slash it is split at the first one into elapsed (first 63 characters) and duration; nothing else changes |
| Handlers.ApplyProgress | m3u8/_m3u8_parser.c:1837-1864 | without a progress value nothing changes, a text one always leaves a duration, and only duration and elapsed time can change |
| Handlers.Override | m3u8/_m3u8_parser.c:1866-1879 | the explicit `duration`, `scte35` and `elapsedtime` attributes overwrite their state values only when present |
| Handlers.ParseCueOutCont | m3u8/_m3u8_parser.c:1825-1883 | `#EXT-X-CUE-OUT-CONT` sets cue-out only, leaves cue-out-start alone, and without a payload changes nothing else; explicit attributes override the bare progress value |
| Handlers.ProgressOfSlash | m3u8/_m3u8_parser.c:1842-1857 | a progress `e/d` splits at the first slash into elapsed `e` (first 63 characters) and duration `d` |
| Handlers.CueOutContProgressIsText | m3u8/_m3u8_parser.c:1838-1841 | the bare progress value is always text |
| Handlers.CueOutContProgress | m3u8/_m3u8_parser.c:1825-1864 | `#EXT-X-CUE-OUT-CONT:e/d` stores elapsed `e` and duration `d` and keeps the SCTE value |
| Dispatch.TagOf | m3u8/_m3u8_parser.c:2101-2114 | the tag is the prefix of the line up to, not including, its first colon |
| Dispatch.TagOfUnique | m3u8/_m3u8_parser.c:2101-2114 | any colon-free prefix followed by a colon or the end of the line is the tag |
| Dispatch.TagOfTagLine | m3u8/_m3u8_parser.c:2101-2114 | the tag of `tag:v`, and of a bare `tag`, is `tag` |
| Dispatch.NumberTagOfLine | m3u8/_m3u8_parser.c:2120-2149 | a line `tag:v` for an integer tag is a document tag line whose effect is `NumberTag` on `v` |
| Dispatch.NumberTag | m3u8/_m3u8_parser.c:2120-2149 | an integer tag sets its field to the parsed payload, a payload that does not parse changes nothing, and no other part of the document changes |
| Dispatch.Normalized | m3u8/_m3u8_parser.c:2266-2299 | the stored playlist type or allow-cache text has under 64 characters, no upper-case letter and no whitespace at either end |
| Dispatch.NormalizedForm | m3u8/_m3u8_parser.c:2266-2277 | a normalised playlist type has under 64 characters, no upper case, no surrounding whitespace, and is a fixed point of normalising |
| Dispatch.StreamPlaylists | m3u8/_m3u8_parser.c:2219-2237 | an I-frame or image stream gives a playlist exactly when it has a `uri`, moved out of its info with every other key kept |
| Dispatch.DocumentTag | m3u8/_m3u8_parser.c:2117-2491 | the document-only tags never touch segments, keys, variant playlists or the first date |
| Dispatch.SetByterange | m3u8/_m3u8_parser.c:2175-2189 | `#EXT-X-BYTERANGE` stores its payload in the draft, sets the segment expectation, and changes nothing else |
| Dispatch.SetBitrate | m3u8/_m3u8_parser.c:2190-2206 | `#EXT-X-BITRATE` creates the draft, stores a parsed bitrate, and does not set the segment expectation |
| Dispatch.Oatcls | m3u8/_m3u8_parser.c:2340-2352 | `#EXT-OATCLS-SCTE35` stores the text after the colon, also as the SCTE value when none is set, and does nothing without a colon |
| Dispatch.BlackoutOf | m3u8/_m3u8_parser.c:2492-2501 | `#EXT-X-BLACKOUT` stores the non-empty text after the first colon, or a flag when there is none |
| Dispatch.AddDaterange | m3u8/_m3u8_parser.c:2458-2474 | a date range is appended to the pending list, which is created when absent |
| Dispatch.StateTag | m3u8/_m3u8_parser.c:2175-2501 | the state-only tags never touch the current key, map, dates, stream info or playlist expectation |
| Dispatch.StreamInfTag | m3u8/_m3u8_parser.c:2207-2218 | `#EXT-X-STREAM-INF` marks the document variant, sets its media sequence to `None`, stores the decoded info and expects a playlist |
| Dispatch.MapTag | m3u8/_m3u8_parser.c:2360-2369 | `#EXT-X-MAP` makes the decoded map current and appends it to the document's maps |
| Dispatch.Classify | m3u8/_m3u8_parser.c:2117-2511 | each branch taken by a single tag is taken only by that tag |
| Dispatch.ClassifyUnknown | m3u8/_m3u8_parser.c:2117-2511 | a tag falls to the unknown branch exactly when it is none of the known tags |
| Dispatch.ClassifyMixed | m3u8/_m3u8_parser.c:2166-2218 | `#EXTINF` and `#EXT-X-STREAM-INF` reach their own handlers |
| Dispatch.TagLine | m3u8/_m3u8_parser.c:2101-2511 | a tag line never changes the segments and keeps keys distinct; its errors are that line's; an unknown tag is an error in strict mode and ignored otherwise |
| Dispatch.TagLineOfDocumentTag | m3u8/_m3u8_parser.c:2117-2491 | a document-only tag changes only the document |
| Dispatch.TagLineOfExtinf | m3u8/_m3u8_parser.c:2166-2174 | an `#EXTINF` line is handled by the `#EXTINF` handler alone |
| Dispatch.TagLineOfStreamInf | m3u8/_m3u8_parser.c:2207-2218 | an `#EXT-X-STREAM-INF` line is handled by its own branch |
| Dispatch.UriLine | m3u8/_m3u8_parser.c:2512-2538 | a URI finishes a segment when one is expected, else appends a playlist when one is expected, else is a strict error or ignored; only the first case adds a segment |
| Dispatch.Dispatch | m3u8/_m3u8_parser.c:2101-2538 | one line adds at most one segment, keeps earlier ones, keeps keys distinct, and its errors are that line's |
| Dispatch.Step | m3u8/_m3u8_parser.c:2069-2099 | without a custom parser, or for a URI line, a line goes straight to the dispatcher; errors are that line's |
| Dispatch.StepOfTagLine | m3u8/_m3u8_parser.c:2069-2101 | without a custom parser a tag line goes to the tag dispatcher |
| Parser.Run | m3u8/_m3u8_parser.c:2014-2539 | the loop stops at the first error, and that error belongs to one of the lines |
| Parser.Flush | m3u8/_m3u8_parser.c:2544-2549 | a pending draft is appended as one unfinished segment after the loop, and nothing else changes |
| Parser.Validation | m3u8/_m3u8_parser.c:1934-1968 | validator errors count in strict mode only; for a non-blank text they are the validator's verdict on the list the source builds, and for a blank text on no lines (finding 2) |
| Parser.ParseLines | m3u8/_m3u8_parser.c:1969-2553 | a failed run fails at one of the loop's numbered lines |
| Parser.Parse | m3u8/_m3u8_parser.c:1899-2553 | validation fails exactly in strict mode with validator errors, which are returned; any other failure is raised or strict; the validator sees the corrected list of lines (finding 2) |
| Parser.RunExtends | m3u8/_m3u8_parser.c:2014-2539 | without a custom parser, segments are only appended, every appended one is finished, and keys stay distinct |
| Parser.ParseShape | m3u8/_m3u8_parser.c:1899-2553 | without a custom parser, a parsed document lists each key once and every segment but the last has its URI |
| Parser.FlushKeepsFinished | m3u8/_m3u8_parser.c:2544-2549 | the flush leaves keys alone and adds at most one unfinished segment, at the end |
| Parser.ParseErrorLocated | m3u8/_m3u8_parser.c:1914-1921 | a strict parse error names line k of the validator's list and carries it stripped; a raised error's line number is in range |
| Parser.ParseLinesErrorLocated | m3u8/_m3u8_parser.c:2014-2049 | an error of the loop is located in the validator's list of lines |
| Parser.LoopErrorLocated | m3u8/_m3u8_parser.c:2014-2049 | an error belonging to one of the loop's lines is located in the validator's list |
| Parser.BlankPlaylist | m3u8/_m3u8_parser.c:1921-1929 | with the corrected validator list, a blank playlist gives the initial document unless strict validation of no lines fails; as written the validator sees one empty line instead (finding 2) |
| Parser.NumberTagLine | m3u8/_m3u8_parser.c:2120-2149 | a line `tag:v` for an integer tag sets that field to the parsed `v`, or changes nothing when it does not parse |
| Parser.ExtinfLine | m3u8/_m3u8_parser.c:2166-2174 | an `#EXTINF:d,t` line drafts a segment titled `t` with the duration read from `d` and expects a URI |
| Parser.ExtinfThenUri | m3u8/_m3u8_parser.c:2166-2522 | with no running date, `#EXTINF:d,t` then a URI append exactly one finished segment with that title, duration and URI |
| Parser.StreamInfThenUri | m3u8/_m3u8_parser.c:2207-2530 | `#EXT-X-STREAM-INF:a` then a URI append one playlist with that URI and the info decoded from `a`, mark the document variant, and add no segment |

## Left out

- Bytes outside ASCII and NUL bytes inside the text. Characters stand for bytes, and `isspace`, `tolower` and `toupper` are the ASCII ones. A NUL, which the C strings would stop at, is not modelled.
- `Decoder.Number`: `PyLong_FromDouble` on an infinite or NaN bandwidth raises, and the error is never cleared. The model stores the text as for any other failure, so the pending exception is not modelled.
- The custom tag parser is a function of the line, line number, document and state. It returns `HookRaised` or `Returned(handled, document, state)`. It stands for arbitrary Python code that mutates the two dicts. A `PyObject_IsTrue` failure on its result counts as raising. An object that is not callable is modelled as no parser.
- Typed records collapse Python dicts with fixed keys. Arbitrary keys a custom parser might add, and the key order of a segment dict, are not modelled. A key that is absent and a key set to `None` are both `None` where the source never tells them apart.
- Number parsing, `fromisoformat` and adding seconds to a datetime are uninterpreted functions. `PyOS_string_to_double` with its `-1.0` error convention is a function that returns `None` on failure.
- The strict-mode validator `m3u8.version_matching.validate` is an uninterpreted function from the list of lines to a list of errors. A failure to import or call it is not modelled.
- The 128-byte tag buffer is not modelled. Every known tag is shorter, and a longer tag is unknown whether or not it is cut.
- Failures to allocate memory, to create Python objects or to store into dicts are not modelled.
- CPython plumbing is not modelled: reference counts, interned strings, module state, and the shadow copies of the two expectation flags. The model keeps one field per flag, which the source keeps in sync.
- `setup.py` is not part of this model.
- `Parser.Parse`: the strict-mode validator gets the corrected list of lines (finding 2), not the one `build_stripped_splitlines` builds. The two differ only for a blank text, where the source passes `[""]` and the model passes `[]`; `Parser.Validation` states both.
- `Parser.BlankPlaylist`: holds for the corrected validator list (finding 2). As written, strict mode hands the validator one empty line, so the result for a blank playlist depends on what the validator says about `[""]`.
- `Dispatch.DocumentTag`: a bare tag line such as `#EXT-X-VERSION` reads the corrected empty payload (finding 1), not the stale bytes of an earlier, longer line that the source reads.
- `Handlers.ParseExtinf`: a bare `#EXTINF` reads the corrected empty payload (finding 1). As written it reads the stale buffer, so strict mode raises only when those bytes hold no comma, and the duration and title come from the earlier line; `Handlers.ExtinfAsWrittenReadsStaleLine` shows one such input.
- `Dispatch.StateTag`: a bare state tag that reads a payload, such as `#EXT-X-BITRATE`, gets the corrected empty payload (finding 1), not the stale bytes of an earlier, longer line.
- `Handlers.ParsePart`: the key order of the part dict is not modelled. The source stores `program_date_time` (when a date runs), `dateranges` and `gap_tag` after the decoded attributes; `Handlers.MakePart` states that these replace same-named attributes, not where they sit in the dict.

## Findings

| source | as written | input that shows it | evidently intended | confidence | as-written member | corrected member |
|---|---|---|---|---|---|---|
| m3u8/_m3u8_parser.c:2121 | payload pointer `stripped + strlen(TAG) + 1` is used even when the line is the bare tag, so it points past the terminator into the reused line buffer; the same pointer is formed in `parse_extinf` for `#EXTINF` (1355, where `Handlers.ExtinfAsWrittenReadsStaleLine` shows a bare `#EXTINF` reading `10,title`), for `#EXT-X-MEDIA-SEQUENCE` (2131), `#EXT-X-DISCONTINUITY-SEQUENCE` (2141), `#EXT-X-BYTERANGE` (2176), `#EXT-X-BITRATE` (2191), `#EXT-X-PLAYLIST-TYPE` (2267), `#EXT-X-VERSION` (2279) and `#EXT-X-ALLOW-CACHE` (2289) | `#EXT-X-BITRATE:12345` then `#EXT-X-VERSION`: the version reads `12345` from the previous line | a bare tag has an empty payload | not executed; high for the stale read, the buffer contents follow from the copy at 2064-2067 | Handlers.PayloadAsWrittenReadsStaleLine | Handlers.Payload |
| m3u8/_m3u8_parser.c:489-503 | the last piece is always appended, so a blank playlist gives the validator `[""]` | `""` in strict mode: the validator sees one empty line while the loop sees none | `content.strip().splitlines()`, which the comment at 1914-1920 names, gives `[]` | not executed; high | Lines.SplitLinesAsWrittenBlankInput | Lines.ValidatorLinesMatchLoop |

=== FILE: attrlist.dfy ===
/** Insertion-ordered string-keyed dictionaries, the shape of every Python
    dict the parser builds (attribute lists, keys, stream info).

    A dict is an association list. Storing under a key that is already
    present replaces the value in place, as `PyDict_SetItem` does, so the
    order of the keys is the order of their first insertion.
 */
module AttrList {
  import opened Text

  type Assoc<V> = seq<(string, V)>

  function Keys<V>(a: Assoc<V>): (r: seq<string>)
    ensures |r| == |a| && forall i | 0 <= i < |a| :: r[i] == a[i].0
  {
    seq(|a|, i requires 0 <= i < |a| => a[i].0)
  }

  predicate HasKey<V>(a: Assoc<V>, k: string) {
    exists i | 0 <= i < |a| :: a[i].0 == k
  }

  predicate UniqueKeys<V>(a: Assoc<V>) {
    forall i, j | 0 <= i < j < |a| :: a[i].0 != a[j].0
  }

  /** `PyDict_GetItem`: the value stored under `k`, if any. */
  function Get<V>(a: Assoc<V>, k: string): (r: Option<V>)
    ensures r.None? <==> !HasKey(a, k)
    ensures r.Some? ==> (k, r.value) in a
  {
    if a == [] then None
    else if a[0].0 == k then Some(a[0].1)
    else
      var r := Get(a[1..], k);
      assert forall i | 1 <= i < |a| :: a[i] == a[1..][i - 1];
      r
  }

  /** `PyDict_SetItem`: replace the value of an existing key where it stands,
      or append a new key at the end. Its properties are stated by `PutSpec`,
      so that folds over many stores stay cheap to reason about. */
  function Put<V>(a: Assoc<V>, k: string, v: V): Assoc<V> {
    if a == [] then [(k, v)]
    else if a[0].0 == k then [(k, v)] + a[1..]
    else [a[0]] + Put(a[1..], k, v)
  }

  /** After a store, `k` looks up the new value and every other key looks up
      what it did before; a present key keeps its position, a new one goes at
      the end, and no existing key moves. */
  lemma {:induction false} PutSpec<V>(a: Assoc<V>, k: string, v: V)
    ensures var r := Put(a, k, v);
      && Get(r, k) == Some(v)
      && (forall k' | k' != k :: Get(r, k') == Get(a, k'))
      && (HasKey(a, k) ==> |r| == |a|)
      && (!HasKey(a, k) ==> |r| == |a| + 1 && r[|a|] == (k, v))
      && (forall i | 0 <= i < |a| :: r[i].0 == a[i].0)
  {
    PutLookup(a, k, v);
    PutShape(a, k, v);
  }

  /** The lookups after a store. */
  lemma {:induction false} PutLookup<V>(a: Assoc<V>, k: string, v: V)
    ensures var r := Put(a, k, v);
      Get(r, k) == Some(v) && forall k' | k' != k :: Get(r, k') == Get(a, k')
    decreases |a|
  {
    if a != [] {
      var r := Put(a, k, v);
      if a[0].0 == k {
        assert r[1..] == a[1..];
      } else {
        PutLookup(a[1..], k, v);
        assert r[1..] == Put(a[1..], k, v);
      }
    }
  }

  /** The key order after a store. */
  lemma {:induction false} PutShape<V>(a: Assoc<V>, k: string, v: V)
    ensures var r := Put(a, k, v);
      && (HasKey(a, k) ==> |r| == |a|)
      && (!HasKey(a, k) ==> |r| == |a| + 1 && r[|a|] == (k, v))
      && (forall i | 0 <= i < |a| :: r[i].0 == a[i].0)
    decreases |a|
  {
    if a != [] {
      var r := Put(a, k, v);
      if a[0].0 == k {
        assert r[1..] == a[1..];
      } else {
        var t := Put(a[1..], k, v);
        PutShape(a[1..], k, v);
        assert r[1..] == t;
        assert HasKey(a, k) <==> HasKey(a[1..], k) by {
          assert forall i | 1 <= i < |a| :: a[i] == a[1..][i - 1];
        }
      }
    }
  }

  lemma KeysHasKey<V>(a: Assoc<V>, k: string)
    ensures k in Keys(a) <==> HasKey(a, k)
  {
    if k in Keys(a) {
      var i :| 0 <= i < |a| && Keys(a)[i] == k;
      assert a[i].0 == k;
    }
    if HasKey(a, k) {
      var i :| 0 <= i < |a| && a[i].0 == k;
      assert Keys(a)[i] == k;
    }
  }

  /** Storing under a new key appends it to the key order; storing under a
      present key leaves the order alone. */
  lemma {:induction false} PutKeys<V>(a: Assoc<V>, k: string, v: V)
    ensures Keys(Put(a, k, v)) == if k in Keys(a) then Keys(a) else Keys(a) + [k]
  {
    KeysHasKey(a, k);
    PutSpec(a, k, v);
    var r := Put(a, k, v);
    if k in Keys(a) {
      assert Keys(r) == Keys(a);
    } else {
      assert Keys(r) == Keys(a) + [k];
    }
  }

  /** Keys stay unique under `Put`. */
  lemma PutUnique<V>(a: Assoc<V>, k: string, v: V)
    requires UniqueKeys(a)
    ensures UniqueKeys(Put(a, k, v))
  {
    PutSpec(a, k, v);
    var r := Put(a, k, v);
    var ka, kr := Keys(a), Keys(r);
    assert forall i, j | 0 <= i < j < |ka| :: ka[i] != ka[j];
    if k !in ka {
      forall i, j | 0 <= i < j < |r| ensures r[i].0 != r[j].0 {
        assert kr[i] == r[i].0 && kr[j] == r[j].0;
        if j == |a| {
          assert kr[j] == k && kr[i] == ka[i];
        } else {
          assert kr[i] == ka[i] && kr[j] == ka[j];
        }
      }
    } else {
      forall i, j | 0 <= i < j < |r| ensures r[i].0 != r[j].0 {
        assert kr[i] == r[i].0 && kr[j] == r[j].0;
      }
    }
  }

  /** `PyDict_DelItem`: drop the entries stored under `k`. */
  function Remove<V>(a: Assoc<V>, k: string): (r: Assoc<V>)
    ensures Get(r, k).None?
    ensures forall k' | k' != k :: Get(r, k') == Get(a, k')
    ensures forall e | e in r :: e in a && e.0 != k
  {
    if a == [] then []
    else if a[0].0 == k then Remove(a[1..], k)
    else
      var t := Remove(a[1..], k);
      var r := [a[0]] + t;
      assert r[1..] == t;
      r
  }

  /** The same keys, in the same order, with every value passed through `f`. */
  function MapValues<V, W>(a: Assoc<V>, f: V -> W): (r: Assoc<W>)
    ensures Keys(r) == Keys(a)
    ensures forall i | 0 <= i < |a| :: r[i].1 == f(a[i].1)
  {
    seq(|a|, i requires 0 <= i < |a| => (a[i].0, f(a[i].1)))
  }

  lemma MapValuesGet<V, W>(a: Assoc<V>, f: V -> W, k: string)
    ensures Get(MapValues(a, f), k) == match Get(a, k) case None => None case Some(v) => Some(f(v))
  {
    if a != [] {
      assert MapValues(a, f)[1..] == MapValues(a[1..], f);
      MapValuesGet(a[1..], f, k);
    }
  }

  /** Converting values commutes with a store. */
  lemma {:induction false} PutMapValues<V, W>(a: Assoc<V>, k: string, v: V, f: V -> W)
    ensures Put(MapValues(a, f), k, f(v)) == MapValues(Put(a, k, v), f)
    decreases |a|
  {
    if a != [] {
      assert MapValues(a, f)[1..] == MapValues(a[1..], f);
      PutMapValues(a[1..], k, v, f);
      if a[0].0 != k {
        assert MapValues(Put(a, k, v), f) == [(a[0].0, f(a[0].1))] + MapValues(Put(a[1..], k, v), f);
      } else {
        assert MapValues(Put(a, k, v), f) == [(k, f(v))] + MapValues(a[1..], f);
      }
    }
  }

  /** Converting the values of the entries before storing them gives the
      dict of the unconverted entries with its values converted. */
  lemma {:induction false} PutAllMapValues<V, W>(entries: Assoc<V>, f: V -> W)
    ensures PutAll(MapValues(entries, f)) == MapValues(PutAll(entries), f)
    decreases |entries|
  {
    if entries != [] {
      var init := entries[..|entries| - 1];
      var last := entries[|entries| - 1];
      var me := MapValues(entries, f);
      assert me[..|me| - 1] == MapValues(init, f);
      assert me[|me| - 1] == (last.0, f(last.1));
      PutAllMapValues(init, f);
      PutMapValues(PutAll(init), last.0, last.1, f);
    }
  }

  /** The mapping a dict denotes, forgetting the order: Python's `==` on dicts. */
  function ToMap<V>(a: Assoc<V>): (m: map<string, V>)
    ensures forall k :: k in m <==> HasKey(a, k)
    ensures forall k | k in m :: Get(a, k) == Some(m[k])
  {
    map k | k in Keys(a) :: Get(a, k).value
  }

  predicate SameMapping<V(==)>(a: Assoc<V>, b: Assoc<V>) {
    ToMap(a) == ToMap(b)
  }

  /** Two dicts compare equal exactly when every key looks up the same. */
  lemma SameMappingIffSameLookups<V>(a: Assoc<V>, b: Assoc<V>)
    ensures SameMapping(a, b) <==> forall k :: Get(a, k) == Get(b, k)
  {
    var ma, mb := ToMap(a), ToMap(b);
    if forall k :: Get(a, k) == Get(b, k) {
      forall k ensures k in ma <==> k in mb {
        assert Get(a, k) == Get(b, k);
      }
      forall k | k in ma ensures ma[k] == mb[k] {
        assert Get(a, k) == Get(b, k);
      }
      assert ma == mb;
    }
    if ma == mb {
      forall k ensures Get(a, k) == Get(b, k) {
        if k in ma {
          assert k in mb;
          assert Get(a, k) == Some(ma[k]) && Get(b, k) == Some(mb[k]);
        } else {
          assert !HasKey(a, k) && !HasKey(b, k);
        }
      }
    } else {
      assert exists k :: Get(a, k) != Get(b, k);
    }
  }

  /** A dict built by storing `entries` one after the other into an empty one. */
  function PutAll<V>(entries: Assoc<V>): Assoc<V> {
    if entries == [] then []
    else
      var last := entries[|entries| - 1];
      Put(PutAll(entries[..|entries| - 1]), last.0, last.1)
  }

  /** Store `entries` into `acc` front to back, as a loop over them does. */
  function PutEach<V>(acc: Assoc<V>, entries: Assoc<V>): Assoc<V>
    decreases |entries|
  {
    if entries == [] then acc else PutEach(Put(acc, entries[0].0, entries[0].1), entries[1..])
  }

  /** Storing front to back from an empty dict builds `PutAll`: the loop
      and the fold agree. */
  lemma {:induction false} PutEachIsPutAll<V>(pre: Assoc<V>, entries: Assoc<V>)
    ensures PutEach(PutAll(pre), entries) == PutAll(pre + entries)
    decreases |entries|
  {
    if entries == [] {
      assert pre + entries == pre;
    } else {
      var d := pre + [entries[0]];
      assert d[..|pre|] == pre;
      PutEachIsPutAll(d, entries[1..]);
      assert d + entries[1..] == pre + entries;
    }
  }

  /** The value of the last entry stored under `k`. */
  function LastValue<V>(entries: Assoc<V>, k: string): Option<V> {
    if entries == [] then None
    else if entries[|entries| - 1].0 == k then Some(entries[|entries| - 1].1)
    else LastValue(entries[..|entries| - 1], k)
  }

  /** Two stores under different names give the two entries in order. */
  lemma PutAllOfTwo<V>(a: (string, V), b: (string, V))
    requires a.0 != b.0
    ensures PutAll([a, b]) == [a, b]
  {
    var es := [a, b];
    assert es[..1] == [a] && [a][..0] == [];
    assert PutAll([a]) == Put([], a.0, a.1) == [a];
    assert Put([a], b.0, b.1) == [a] + Put([], b.0, b.1);
  }

  /** Each key keeps the value it was given last: a repeated name overwrites. */
  lemma {:induction false} PutAllLastWins<V>(entries: Assoc<V>, k: string)
    ensures Get(PutAll(entries), k) == LastValue(entries, k)
    decreases |entries|
  {
    if entries != [] {
      var init := entries[..|entries| - 1];
      var last := entries[|entries| - 1];
      PutSpec(PutAll(init), last.0, last.1);
      PutAllLastWins(init, k);
    }
  }

  /** Names in order of first occurrence, repeats dropped. */
  function FirstOccurrences(names: seq<string>): seq<string> {
    if names == [] then []
    else
      var p := FirstOccurrences(names[..|names| - 1]);
      var last := names[|names| - 1];
      if last in p then p else p + [last]
  }

  /** The dict's key order is the order in which names first appeared. */
  lemma {:induction false} PutAllKeyOrder<V>(entries: Assoc<V>)
    ensures Keys(PutAll(entries)) == FirstOccurrences(Keys(entries))
    decreases |entries|
  {
    if entries != [] {
      var init := entries[..|entries| - 1];
      var last := entries[|entries| - 1];
      PutAllKeyOrder(init);
      PutKeys(PutAll(init), last.0, last.1);
      assert Keys(entries)[..|entries| - 1] == Keys(init);
      assert Keys(entries)[|entries| - 1] == last.0;
    }
  }

  /** A dict built by `PutAll` never holds a key twice. */
  lemma {:induction false} PutAllUnique<V>(entries: Assoc<V>)
    ensures UniqueKeys(PutAll(entries))
    decreases |entries|
  {
    if entries != [] {
      var init := entries[..|entries| - 1];
      var last := entries[|entries| - 1];
      PutAllUnique(init);
      PutUnique(PutAll(init), last.0, last.1);
    }
  }

  /** The value stored last under `k` is one of the entries under `k`. */
  lemma {:induction false} LastValueIn<V>(entries: Assoc<V>, k: string)
    ensures LastValue(entries, k).Some? ==>
      exists i | 0 <= i < |entries| :: entries[i] == (k, LastValue(entries, k).value)
    decreases |entries|
  {
    if entries != [] && entries[|entries| - 1].0 != k {
      var init := entries[..|entries| - 1];
      LastValueIn(init, k);
      if LastValue(init, k).Some? {
        var i :| 0 <= i < |init| && init[i] == (k, LastValue(init, k).value);
        assert entries[i] == init[i];
      }
    }
  }
}

=== FILE: decoder.dfy ===
/** The schema-aware attribute decoder (`parse_attributes_with_schema`,
    m3u8/_m3u8_parser.c:879-1093, and its prefix wrapper at 1099-1119).

    It reads the same tokens as the untyped tokenizer and converts each value
    by the kind its name has in a per-tag schema: quoted strings lose their
    quotes, integers and floats are parsed, and anything that fails to parse
    is kept as text.
 */
module Decoder {
  import opened Text
  import opened AttrList
  import opened Tokenizer
  import opened Scalars

  datatype Kind = StringKind | IntKind | FloatKind | QuotedKind | BandwidthKind

  type Schema = seq<(string, Kind)>

  /** A decoded attribute value: a Python `str`, `int` or `float`. */
  datatype Value = Str(s: string) | Int(i: int) | Flt(d: Double)

  function StrValue(s: string): Value {
    Str(s)
  }

  /** The kind of the first schema entry with this name; unknown names are
      strings. */
  function KindOf(schema: Schema, name: string): (k: Kind)
    ensures (forall i | 0 <= i < |schema| :: schema[i].0 != name) ==> k == StringKind
    ensures forall i | 0 <= i < |schema| && schema[i].0 == name ::
      (k == schema[i].1 || exists j | 0 <= j < i :: schema[j].0 == name && k == schema[j].1)
  {
    if schema == [] then StringKind
    else if schema[0].0 == name then schema[0].1
    else
      var k := KindOf(schema[1..], name);
      assert forall i | 1 <= i < |schema| :: schema[i] == schema[1..][i - 1];
      k
  }

  /** Numbers are parsed from a copy into a 64-byte buffer, so only texts of
      at most 63 characters are tried. */
  const NumberBuffer: nat := 64

  /** The numeric reading of `text` for a numeric kind, or `None` when the
      text is too long or the runtime rejects it. A bandwidth is parsed as a
      double and truncated toward zero. */
  function Number(kind: Kind, text: string, n: Numerics): (r: Option<Value>)
    ensures r.Some? ==> |text| < NumberBuffer
    ensures r.Some? && r.value.Int? ==> kind == IntKind || kind == BandwidthKind
    ensures r.Some? && r.value.Flt? ==> kind == FloatKind
    ensures kind == IntKind && |text| < NumberBuffer ==>
      r == (match n.parseInt(text) case Some(i) => Some(Int(i)) case None => None)
    ensures kind == FloatKind && |text| < NumberBuffer ==>
      r == (match n.parseDouble(text) case Some(d) => Some(Flt(d)) case None => None)
    ensures r.Some? && kind == BandwidthKind ==>
      r.value.Int? && exists d :: n.parseDouble(text) == Some(d) && Truncate(d) == Some(r.value.i)
    ensures r.None? && kind == BandwidthKind && |text| < NumberBuffer ==>
      match n.parseDouble(text) case None => true case Some(d) => Truncate(d).None?
  {
    if |text| >= NumberBuffer then None
    else match kind
      case IntKind =>
        (match n.parseInt(text) case Some(i) => Some(Int(i)) case None => None)
      case BandwidthKind =>
        (match n.parseDouble(text)
         case None => None
         case Some(d) => match Truncate(d) case Some(i) => Some(Int(i)) case None => None)
      case FloatKind =>
        (match n.parseDouble(text) case Some(d) => Some(Flt(d)) case None => None)
      case _ => None
  }

  /** The text a value is read from: inside the quotes of a quoted value,
      the trimmed text of an unquoted one. */
  function ValueText(t: Token): string {
    match t.value
    case Quoted(_, inner, _) => inner
    case Unquoted(text) => text
    case Bare => TrimRight(t.keyText)
  }

  /** The decoded value of one token whose name has kind `kind`. */
  function DecodeValue(kind: Kind, t: Token, n: Numerics): (v: Value)
    ensures t.value.Bare? ==> v == Str(RawValue(t))
    ensures kind == StringKind ==> v == Str(RawValue(t))
    ensures kind == QuotedKind ==> v == Str(ValueText(t))
    ensures v.Str? && kind != StringKind ==> v == Str(ValueText(t))
    ensures !v.Str? ==> !t.value.Bare? && Number(kind, ValueText(t), n) == Some(v)
  {
    if t.value.Bare? || kind == StringKind then Str(RawValue(t))
    else match Number(kind, ValueText(t), n)
      case Some(v) => v
      case None => Str(ValueText(t))
  }

  function TypedEntries(schema: Schema, n: Numerics, ts: seq<Token>): (r: Assoc<Value>)
    ensures |r| == |ts|
    ensures forall i | 0 <= i < |ts| ::
      r[i] == (Name(ts[i]), DecodeValue(KindOf(schema, NormalizeKey(ts[i].keyText)), ts[i], n))
  {
    seq(|ts|, i requires 0 <= i < |ts| =>
      (Name(ts[i]), DecodeValue(KindOf(schema, NormalizeKey(ts[i].keyText)), ts[i], n)))
  }

  /** `parse_attributes_with_schema` on a whole payload. */
  function TypedAttributes(schema: Schema, n: Numerics, s: string): (r: Assoc<Value>)
    ensures UniqueKeys(r)
  {
    var es := TypedEntries(schema, n, Tokens(s));
    PutAllUnique(es);
    PutAllKeyOrder(es);
    PutAll(es)
  }

  /** `parse_typed_attribute_list`: an empty dict when the prefix does not
      match. */
  function TypedAttributeList(line: string, prefix: string, schema: Schema, n: Numerics): (r: Assoc<Value>)
    ensures !StartsWith(line, prefix) ==> r == []
  {
    match AfterPrefix(line, prefix)
    case None => []
    case Some(c) => TypedAttributes(schema, n, c)
  }

  // ---------------------------------------------------------------------
  // Properties of the decoder

  /** Without a schema entry for any name, the typed decoder stores exactly
      what the untyped tokenizer stores, as strings. */
  lemma UntypedAgreement(schema: Schema, n: Numerics, s: string)
    requires forall i | 0 <= i < |schema| :: schema[i].1 == StringKind
    ensures TypedAttributes(schema, n, s) == MapValues(RawAttributes(s), StrValue)
  {
    var ts := Tokens(s);
    var te := TypedEntries(schema, n, ts);
    var re := Entries(ts);
    forall i | 0 <= i < |ts| ensures te[i] == (re[i].0, Str(re[i].1)) {
      var k := KindOf(schema, NormalizeKey(ts[i].keyText));
      assert k == StringKind;
    }
    assert te == MapValues(re, StrValue);
    PutAllMapValues(re, StrValue);
  }

  /** A decoded dict has the same keys, in the same order, as the untyped
      one: only values are converted. */
  lemma TypedKeysAgree(schema: Schema, n: Numerics, s: string)
    ensures Keys(TypedAttributes(schema, n, s)) == Keys(RawAttributes(s))
  {
    var ts := Tokens(s);
    var te := TypedEntries(schema, n, ts);
    var re := Entries(ts);
    PutAllKeyOrder(te);
    PutAllKeyOrder(re);
    assert Keys(te) == Keys(re);
  }

  /** A value of quoted-string kind written with both quotes decodes to what
      `remove_quotes` makes of the raw value. */
  lemma QuotedKindRemovesQuotes(t: Token, n: Numerics)
    requires t.value.Quoted? && IsQuote(t.value.quote) && t.value.closed
    ensures DecodeValue(QuotedKind, t, n) == Str(RemoveQuotes(RawValue(t)))
  {
    RemoveQuotesInverse(t.value.quote, t.value.inner, "");
  }

  /** A stored integer comes from a name of integer or bandwidth kind, and a
      stored float from a name of float kind. */
  lemma TypedValueKind(schema: Schema, n: Numerics, s: string, k: string)
    ensures var v := Get(TypedAttributes(schema, n, s), k);
      v.Some? && !v.value.Str? ==>
        (v.value.Int? ==> KindOf(schema, k) == IntKind || KindOf(schema, k) == BandwidthKind)
        && (v.value.Flt? ==> KindOf(schema, k) == FloatKind)
  {
    var ts := Tokens(s);
    var te := TypedEntries(schema, n, ts);
    PutAllLastWins(te, k);
    LastValueIn(te, k);
    var v := Get(TypedAttributes(schema, n, s), k);
    if v.Some? && !v.value.Str? {
      var i :| 0 <= i < |te| && te[i] == (k, v.value);
      assert !ts[i].value.Bare?;
      assert NormalizeKey(ts[i].keyText) == k;
    }
  }

  /** A payload of one bare word decodes to that word, as a string under the
      empty name. */
  lemma TypedAttributesOfBare(schema: Schema, n: Numerics, k: string)
    requires WellFormed(Token(k, Bare))
    ensures TypedAttributes(schema, n, k) == [("", Str(TrimRight(k)))]
  {
    TokensOfBare(k);
    var te := TypedEntries(schema, n, [Token(k, Bare)]);
    assert te == [("", Str(TrimRight(k)))];
    assert te[..0] == [];
    assert PutAll(te) == Put([], "", Str(TrimRight(k)));
  }
}

=== FILE: dispatch.dfy ===
/** The body of the main loop of `m3u8_parse` (m3u8/_m3u8_parser.c:2101-2538):
    one stripped, non-blank line of the playlist, either a tag line or a URI
    line, applied to the result document and the parser state.

    The tags fall into four groups: those that change only the document,
    those that change only the state, those with a handler of their own, and
    the unknown ones, which strict mode rejects.
 */
module Dispatch {
  import opened Text
  import opened AttrList
  import opened Tokenizer
  import opened Scalars
  import opened Decoder
  import opened Model
  import opened Handlers
  import Schemas

  /** The services of the runtime and the options of one `parse` call. */
  datatype Env = Env(
    strict: bool,
    numerics: Numerics,
    clock: Clock,
    validate: seq<string> -> seq<string>,  // m3u8.version_matching.validate
    hook: Option<Hook>)                    // custom_tags_parser, when callable

  /** What the custom tag parser did with a line. Python hands it the live
      dicts; here it returns the document and the state it leaves behind. */
  datatype HookOutcome =
    | HookRaised                                           // it raised, or its result has no truth value
    | Returned(handled: bool, doc: Document, st: State)    // handled is the truth of its result

  type Hook = (string, nat, Document, State) -> HookOutcome

  // ---------------------------------------------------------------------
  // Tags

  /** The tag of a line: everything before its first ':'. The source copies
      at most 127 characters of it, which is longer than every known tag, so
      the cut never turns an unknown tag into a known one. */
  function TagOf(line: string): (tag: string)
    ensures StartsWith(line, tag) && ':' !in tag
    ensures |tag| < |line| ==> line[|tag|] == ':'
  {
    match IndexOf(line, ':')
    case Some(i) => line[..i]
    case None => line
  }

  /** The tag is the only prefix of the line that has no ':' and ends where
      the line ends or at a ':'. */
  lemma TagOfUnique(line: string, t: string)
    requires StartsWith(line, t) && ':' !in t
    requires |t| == |line| || line[|t|] == ':'
    ensures TagOf(line) == t
  {
    var tag := TagOf(line);
    assert tag == line[..|tag|];
  }

  /** A tag written alone or followed by ':' and a payload is read back. */
  lemma TagOfTagLine(tag: string, v: string)
    requires ':' !in tag
    ensures TagOf(tag + ":" + v) == tag && TagOf(tag) == tag
  {
    var line := tag + ":" + v;
    assert line[..|tag|] == tag && line[|tag|] == ':';
    TagOfUnique(line, tag);
    TagOfUnique(tag, tag);
  }

  /** Tags that change only the document. */
  const DocumentTags: set<string> := {
    Schemas.ExtM3U, Schemas.TargetDuration, Schemas.MediaSequence,
    Schemas.DiscontinuitySequence, Schemas.Version, Schemas.IFrameStreamInf,
    Schemas.ImageStreamInf, Schemas.Media, Schemas.PlaylistType, Schemas.AllowCache,
    Schemas.IFramesOnly, Schemas.IndependentSegments, Schemas.Endlist, Schemas.ImagesOnly,
    Schemas.Start, Schemas.ServerControl, Schemas.PartInf, Schemas.Skip,
    Schemas.RenditionReport, Schemas.SessionData, Schemas.SessionKey, Schemas.PreloadHint,
    Schemas.ContentSteering, Schemas.Tiles}

  /** Tags that change only the state. */
  const StateTags: set<string> := {
    Schemas.Byterange, Schemas.Bitrate, Schemas.Discontinuity, Schemas.CueIn,
    Schemas.CueSpan, Schemas.Gap, Schemas.CueOut, Schemas.CueOutCont,
    Schemas.OatclsScte35, Schemas.Asset, Schemas.DateRange, Schemas.Blackout}

  /** Tags that change both, or can raise. */
  const MixedTags: set<string> := {
    Schemas.ProgramDateTime, Schemas.Key, Schemas.ExtInf, Schemas.Part,
    Schemas.StreamInf, Schemas.Map}

  const KnownTags: set<string> := DocumentTags + StateTags + MixedTags

  // ---------------------------------------------------------------------
  // Tags that change only the document

  const NumberTags: set<string> := {
    Schemas.TargetDuration, Schemas.MediaSequence, Schemas.DiscontinuitySequence, Schemas.Version}

  /** The document field an integer tag sets. */
  function NumberField(doc: Document, tag: string): Option<int> {
    if tag == Schemas.TargetDuration then doc.targetDuration
    else if tag == Schemas.MediaSequence then doc.mediaSequence
    else if tag == Schemas.DiscontinuitySequence then doc.discontinuitySequence
    else doc.version
  }

  /** An integer tag (m3u8/_m3u8_parser.c:2120-2149, 2278-2287): the
      payload read as a decimal integer; a payload that does not parse leaves
      the document as it was. */
  function NumberTag(tag: string, v: string, doc: Document, n: Numerics): (r: Document)
    requires tag in NumberTags
    ensures n.parseInt(v).None? ==> r == doc
    ensures n.parseInt(v).Some? ==> NumberField(r, tag) == n.parseInt(v)
    ensures r.segments == doc.segments && r.keys == doc.keys && r.playlists == doc.playlists
    ensures r.isVariant == doc.isVariant && r.programDateTime == doc.programDateTime
  {
    match n.parseInt(v)
    case None => doc
    case Some(i) =>
      if tag == Schemas.TargetDuration then doc.(targetDuration := Some(i))
      else if tag == Schemas.MediaSequence then doc.(mediaSequence := Some(i))
      else if tag == Schemas.DiscontinuitySequence then doc.(discontinuitySequence := Some(i))
      else doc.(version := Some(i))
  }

  /** `#EXT-X-PLAYLIST-TYPE` and `#EXT-X-ALLOW-CACHE` copy at most 63
      characters of the payload into a buffer, lower-cased. */
  const NormalizeBuffer: nat := 64

  /** The stored text of `#EXT-X-PLAYLIST-TYPE` and `#EXT-X-ALLOW-CACHE`
      (m3u8/_m3u8_parser.c:2266-2277, 2288-2299). */
  function Normalized(v: string): (r: string)
    ensures |r| < NormalizeBuffer && NoUpper(r)
    ensures r == [] || (!IsSpace(r[0]) && !IsSpace(r[|r| - 1]))
  {
    var l := Lower(Take(v, NormalizeBuffer - 1));
    var r := Strip(l);
    StripIsMiddleSlice(l);
    var i, j :| 0 <= i <= j <= |l| && r == l[i..j];
    assert NoUpper(l);
    NoUpperSlice(l, i, j);
    r
  }

  /** Normalizing a normalized text changes nothing. */
  lemma NormalizedForm(v: string)
    ensures var r := Normalized(v);
      |r| < NormalizeBuffer && NoUpper(r)
      && (r == [] || (!IsSpace(r[0]) && !IsSpace(r[|r| - 1])))
      && Normalized(r) == r
  {
    var l := Lower(Take(v, NormalizeBuffer - 1));
    var r := Normalized(v);
    LowerOfNoUpper(r);
    assert Take(r, NormalizeBuffer - 1) == r;
    StripIdempotent(l);
  }

  predicate NoUpper(s: string) {
    forall i | 0 <= i < |s| :: !IsUpperAscii(s[i])
  }

  lemma NoUpperSlice(s: string, i: nat, j: nat)
    requires i <= j <= |s| && NoUpper(s)
    ensures NoUpper(s[i..j])
  {
    assert forall k | i <= k < j :: s[i..j][k - i] == s[k];
  }

  lemma LowerOfNoUpper(s: string)
    requires NoUpper(s)
    ensures Lower(s) == s
  {
  }

  /** A URI-carrying stream entry (`#EXT-X-I-FRAME-STREAM-INF`,
      `#EXT-X-IMAGE-STREAM-INF`, m3u8/_m3u8_parser.c:2219-2256): listed only
      when the decoded attributes have a `uri`, which moves out of them. */
  function StreamPlaylists(info: Attrs): (r: seq<StreamPlaylist>)
    ensures |r| <= 1 && (|r| == 1 <==> HasKey(info, "uri"))
    ensures |r| == 1 ==>
      Get(info, "uri") == Some(r[0].uri) && !HasKey(r[0].info, "uri")
      && forall k | k != "uri" :: Get(r[0].info, k) == Get(info, k)
  {
    match Get(info, "uri")
    case None => []
    case Some(u) => [StreamPlaylist(u, Remove(info, "uri"))]
  }

  /** The tags that change only the document (m3u8/_m3u8_parser.c:2117-2149,
      2219-2311, 2370-2393, 2402-2457, 2475-2491). None of them touches the segments,
      the keys, the variant playlists or the first date. */
  function DocumentTag(tag: string, line: string, doc: Document, n: Numerics): (r: Document)
    ensures r.segments == doc.segments && r.keys == doc.keys && r.playlists == doc.playlists
    ensures r.programDateTime == doc.programDateTime
  {
    var v := Payload(line, tag);
    if tag in NumberTags then NumberTag(tag, v, doc, n)
    else if tag == Schemas.IFrameStreamInf then
      doc.(iframePlaylists := doc.iframePlaylists
             + StreamPlaylists(TypedAttributeList(line, tag, Schemas.IFrameStreamInfSchema, n)))
    else if tag == Schemas.ImageStreamInf then
      doc.(imagePlaylists := doc.imagePlaylists
             + StreamPlaylists(TypedAttributeList(line, tag, Schemas.ImageStreamInfSchema, n)))
    else if tag == Schemas.Media then
      doc.(media := doc.media + [TypedAttributeList(line, tag, Schemas.MediaSchema, n)])
    else if tag == Schemas.PlaylistType then doc.(playlistType := Some(Normalized(v)))
    else if tag == Schemas.AllowCache then doc.(allowCache := Some(Normalized(v)))
    else if tag == Schemas.IFramesOnly then doc.(isIFramesOnly := true)
    else if tag == Schemas.IndependentSegments then doc.(isIndependentSegments := true)
    else if tag == Schemas.Endlist then doc.(isEndlist := true)
    else if tag == Schemas.ImagesOnly then doc.(isImagesOnly := true)
    else if tag == Schemas.Start then doc.(start := Some(TypedAttributeList(line, tag, Schemas.StartSchema, n)))
    else if tag == Schemas.ServerControl then
      doc.(serverControl := Some(TypedAttributeList(line, tag, Schemas.ServerControlSchema, n)))
    else if tag == Schemas.PartInf then doc.(partInf := TypedAttributeList(line, tag, Schemas.PartInfSchema, n))
    else if tag == Schemas.Skip then doc.(skip := TypedAttributeList(line, tag, Schemas.SkipSchema, n))
    else if tag == Schemas.RenditionReport then
      doc.(renditionReports := doc.renditionReports + [TypedAttributeList(line, tag, Schemas.RenditionReportSchema, n)])
    else if tag == Schemas.SessionData then
      doc.(sessionData := doc.sessionData + [TypedAttributeList(line, tag, Schemas.SessionDataSchema, n)])
    else if tag == Schemas.SessionKey then ParseSessionKey(line, doc)
    else if tag == Schemas.PreloadHint then
      doc.(preloadHint := Some(TypedAttributeList(line, tag, Schemas.PreloadHintSchema, n)))
    else if tag == Schemas.ContentSteering then
      doc.(contentSteering := Some(TypedAttributeList(line, tag, Schemas.ContentSteeringSchema, n)))
    else if tag == Schemas.Tiles then
      doc.(tiles := doc.tiles + [TypedAttributeList(line, tag, Schemas.TilesSchema, n)])
    else doc  // #EXTM3U
  }

  // ---------------------------------------------------------------------
  // Tags that change only the state

  /** `#EXT-X-BYTERANGE` (m3u8/_m3u8_parser.c:2175-2189): the payload goes
      into the segment being drafted, and a URI is now expected. */
  function SetByterange(st: State, v: string): (r: State)
    ensures r.expectSegment && r.segment.Some? && r.segment.value.byterange == Some(v)
    ensures r.segment.value.(byterange := CurrentDraft(st).byterange) == CurrentDraft(st)
    ensures r.(segment := st.segment, expectSegment := st.expectSegment) == st
  {
    st.(segment := Some(CurrentDraft(st).(byterange := Some(v))), expectSegment := true)
  }

  /** `#EXT-X-BITRATE` (m3u8/_m3u8_parser.c:2190-2206): the segment being
      drafted is created even when the payload is not an integer, which then
      leaves its bitrate as it was; no URI becomes expected. */
  function SetBitrate(st: State, b: Option<int>): (r: State)
    ensures r.segment.Some?
    ensures b.Some? ==> r.segment.value.bitrate == b
    ensures b.None? ==> r.segment.value == CurrentDraft(st)
    ensures r.segment.value.(bitrate := CurrentDraft(st).bitrate) == CurrentDraft(st)
    ensures r.(segment := st.segment) == st
  {
    var draft := CurrentDraft(st);
    st.(segment := Some(draft.(bitrate := OrElse(b, draft.bitrate))))
  }

  /** `#EXT-OATCLS-SCTE35` (m3u8/_m3u8_parser.c:2340-2352): the text after
      the first ':' is the OATCLS value, and the SCTE-35 value too unless one
      is already pending; without a ':' nothing changes. */
  function Oatcls(line: string, st: State): (r: State)
    ensures ':' !in line ==> r == st
    ensures ':' in line ==>
      var v := Str(line[IndexOf(line, ':').value + 1..]);
      r.cueOutOatclsScte35 == Some(v)
      && (st.cueOutScte35.None? ==> r.cueOutScte35 == Some(v))
      && (st.cueOutScte35.Some? ==> r.cueOutScte35 == st.cueOutScte35)
    ensures r.(cueOutOatclsScte35 := st.cueOutOatclsScte35, cueOutScte35 := st.cueOutScte35) == st
  {
    match IndexOf(line, ':')
    case None => st
    case Some(i) =>
      var v := Some(Str(line[i + 1..]));
      st.(cueOutOatclsScte35 := v, cueOutScte35 := OrElse(st.cueOutScte35, v))
  }

  /** `#EXT-X-BLACKOUT` (m3u8/_m3u8_parser.c:2492-2501): the text after the
      first ':' when there is any, otherwise a flag. */
  function BlackoutOf(line: string): (r: Blackout)
    ensures r.BlackoutData? <==> HasAttributes(line)
    ensures r.BlackoutData? ==>
      r.text != [] && |r.text| < |line| && r.text == line[|line| - |r.text|..] && line[|line| - |r.text| - 1] == ':'
      && ':' !in line[..|line| - |r.text| - 1]
  {
    match IndexOf(line, ':')
    case Some(i) =>
      if i + 1 < |line| then
        var t := line[i + 1..];
        assert line[..|line| - |t| - 1] == line[..i];
        BlackoutData(t)
      else BlackoutFlag
    case None => BlackoutFlag
  }

  /** `#EXT-X-DATERANGE` (m3u8/_m3u8_parser.c:2458-2474): the range joins
      the pending ones, starting a list when none is pending. */
  function AddDaterange(st: State, d: Attrs): (r: State)
    ensures r.dateranges.Some?
    ensures st.dateranges.None? ==> r.dateranges.value == [d]
    ensures st.dateranges.Some? ==> r.dateranges.value == st.dateranges.value + [d]
    ensures r.(dateranges := st.dateranges) == st
  {
    st.(dateranges := Some(ValueOr(st.dateranges, []) + [d]))
  }

  /** The tags that change only the state (m3u8/_m3u8_parser.c:2175-2206,
      2312-2359, 2458-2474, 2492-2501). None of them touches the current key,
      the current map, the dates or the variant stream information. */
  function StateTag(tag: string, line: string, st: State, n: Numerics): (r: State)
    ensures r.currentKey == st.currentKey && r.currentSegmentMap == st.currentSegmentMap
    ensures r.currentProgramDateTime == st.currentProgramDateTime && r.programDateTime == st.programDateTime
    ensures r.streamInfo == st.streamInfo && r.expectPlaylist == st.expectPlaylist
  {
    var v := Payload(line, tag);
    if tag == Schemas.Byterange then SetByterange(st, v)
    else if tag == Schemas.Bitrate then SetBitrate(st, n.parseInt(v))
    else if tag == Schemas.Discontinuity then st.(discontinuity := true)
    else if tag == Schemas.CueIn then st.(cueIn := true)
    else if tag == Schemas.CueSpan then st.(cueOut := true)
    else if tag == Schemas.Gap then st.(gap := true)
    else if tag == Schemas.CueOut then ParseCueOut(line, st, n)
    else if tag == Schemas.CueOutCont then ParseCueOutCont(line, st, n)
    else if tag == Schemas.OatclsScte35 then Oatcls(line, st)
    else if tag == Schemas.Asset then st.(assetMetadata := Some(AttributeList(line, Schemas.Asset)))
    else if tag == Schemas.DateRange then AddDaterange(st, TypedAttributeList(line, tag, Schemas.DateRangeSchema, n))
    else if tag == Schemas.Blackout then st.(blackout := Some(BlackoutOf(line)))
    else st
  }

  // ---------------------------------------------------------------------
  // Tags that change both

  /** `#EXT-X-STREAM-INF` (m3u8/_m3u8_parser.c:2207-2218): the playlist is a
      variant stream without a media sequence, and the next URI is a variant
      playlist carrying these attributes. */
  function StreamInfTag(line: string, doc: Document, st: State, n: Numerics): (r: (Document, State))
    ensures r.0.isVariant && r.0.mediaSequence.None?
    ensures r.0.(isVariant := doc.isVariant, mediaSequence := doc.mediaSequence) == doc
    ensures r.1.expectPlaylist
    ensures r.1.streamInfo == Some(TypedAttributeList(line, Schemas.StreamInf, Schemas.StreamInfSchema, n))
    ensures r.1.(expectPlaylist := st.expectPlaylist, streamInfo := st.streamInfo) == st
  {
    (doc.(isVariant := true, mediaSequence := None),
     st.(expectPlaylist := true, streamInfo := Some(TypedAttributeList(line, Schemas.StreamInf, Schemas.StreamInfSchema, n))))
  }

  /** `#EXT-X-MAP` (m3u8/_m3u8_parser.c:2360-2369): the map becomes the
      current one and is listed. */
  function MapTag(line: string, doc: Document, st: State, n: Numerics): (r: (Document, State))
    ensures var m := TypedAttributeList(line, Schemas.Map, Schemas.MapSchema, n);
      r.1.currentSegmentMap == Some(m)
      && r.0.segmentMap == doc.segmentMap + [m]
    ensures r.0.(segmentMap := doc.segmentMap) == doc
    ensures r.1.(currentSegmentMap := st.currentSegmentMap) == st
  {
    var m := TypedAttributeList(line, Schemas.Map, Schemas.MapSchema, n);
    (doc.(segmentMap := doc.segmentMap + [m]), st.(currentSegmentMap := Some(m)))
  }

  /** A state handler's result paired with the unchanged document. */
  function WithDocument(doc: Document, r: Result<State, Error>): (p: Result<(Document, State), Error>)
    ensures p.Ok? <==> r.Ok?
    ensures p.Ok? ==> p.value == (doc, r.value)
    ensures p.Err? ==> p.error == r.error
  {
    match r
    case Ok(s) => Ok((doc, s))
    case Err(e) => Err(e)
  }

  // ---------------------------------------------------------------------
  // Lines

  /** An error a line can end the run with: a parse error for exactly that
      line, in strict mode only, or an exception raised at that line. */
  predicate LineError(e: Error, strict: bool, lineno: nat, line: string) {
    (e == ParseError(lineno, line) && strict) || (e.Raised? && e.lineno == lineno)
  }

  /** Which branch of the dispatcher a tag takes. */
  datatype TagClass =
    | DocumentOnly | StateOnly
    | ProgramDate | EncryptionKey | SegmentInfo | PartialSegment | VariantStream | InitMap
    | UnknownTag

  function Classify(tag: string): (r: TagClass)
    ensures r == ProgramDate ==> tag == Schemas.ProgramDateTime
    ensures r == EncryptionKey ==> tag == Schemas.Key
    ensures r == SegmentInfo ==> tag == Schemas.ExtInf
    ensures r == PartialSegment ==> tag == Schemas.Part
    ensures r == VariantStream ==> tag == Schemas.StreamInf
    ensures r == InitMap ==> tag == Schemas.Map
  {
    if tag in DocumentTags then DocumentOnly
    else if tag in StateTags then StateOnly
    else if tag == Schemas.ProgramDateTime then ProgramDate
    else if tag == Schemas.Key then EncryptionKey
    else if tag == Schemas.ExtInf then SegmentInfo
    else if tag == Schemas.Part then PartialSegment
    else if tag == Schemas.StreamInf then VariantStream
    else if tag == Schemas.Map then InitMap
    else UnknownTag
  }

  /** The unknown tags are exactly those outside the three groups. */
  lemma ClassifyUnknown(tag: string)
    ensures Classify(tag) == UnknownTag <==> tag !in KnownTags
  {
  }

  /** The handlers' tags fall in their own branches. */
  lemma ClassifyMixed()
    ensures Classify(Schemas.ExtInf) == SegmentInfo
    ensures Classify(Schemas.StreamInf) == VariantStream
  {
    assert Schemas.ExtInf !in DocumentTags && Schemas.ExtInf !in StateTags;
    assert Schemas.StreamInf !in DocumentTags && Schemas.StreamInf !in StateTags;
  }

  /** A tag line (m3u8/_m3u8_parser.c:2101-2511). */
  function TagLine(env: Env, doc: Document, st: State, lineno: nat, line: string)
    : (r: Result<(Document, State), Error>)
    ensures r.Ok? ==> r.value.0.segments == doc.segments
    ensures r.Ok? && DistinctKeys(doc.keys) ==> DistinctKeys(r.value.0.keys)
    ensures r.Err? ==> LineError(r.error, env.strict, lineno, line)
    ensures Classify(TagOf(line)) == UnknownTag ==>
      r == if env.strict then Err(ParseError(lineno, line)) else Ok((doc, st))
  {
    var tag := TagOf(line);
    match Classify(tag)
    case DocumentOnly => Ok((DocumentTag(tag, line, doc, env.numerics), st))
    case StateOnly => Ok((doc, StateTag(tag, line, st, env.numerics)))
    case ProgramDate => ParseProgramDateTime(line, doc, st, env.clock, lineno)
    case EncryptionKey => Ok(ParseKey(line, doc, st))
    case SegmentInfo => WithDocument(doc, ParseExtinf(line, st, env.numerics, env.strict, lineno))
    case PartialSegment => WithDocument(doc, ParsePart(line, st, env.numerics, env.clock, lineno))
    case VariantStream => Ok(StreamInfTag(line, doc, st, env.numerics))
    case InitMap => Ok(MapTag(line, doc, st, env.numerics))
    case UnknownTag => if env.strict then Err(ParseError(lineno, line)) else Ok((doc, st))
  }

  /** A tag of the document group goes to `DocumentTag`. */
  lemma TagLineOfDocumentTag(env: Env, doc: Document, st: State, lineno: nat, line: string)
    requires TagOf(line) in DocumentTags
    ensures TagLine(env, doc, st, lineno, line) == Ok((DocumentTag(TagOf(line), line, doc, env.numerics), st))
  {
  }

  /** An integer tag line `tag:v` is a document tag whose work is `NumberTag`. */
  lemma NumberTagOfLine(tag: string, v: string, doc: Document, n: Numerics)
    requires tag in NumberTags
    ensures var line := tag + ":" + v;
      line[0] == '#' && TagOf(line) == tag && tag in DocumentTags
      && DocumentTag(tag, line, doc, n) == NumberTag(tag, v, doc, n)
  {
    NumberTagsAreDocumentTags(tag);
    TagOfTagLine(tag, v);
    PayloadOfTagLine(tag, v);
  }

  lemma NumberTagsAreDocumentTags(tag: string)
    requires tag in NumberTags
    ensures tag != [] && tag[0] == '#' && ':' !in tag && tag in DocumentTags
  {
  }

  /** `#EXTINF` goes to its handler and leaves the document alone. */
  lemma TagLineOfExtinf(env: Env, doc: Document, st: State, lineno: nat, line: string)
    requires TagOf(line) == Schemas.ExtInf
    ensures TagLine(env, doc, st, lineno, line)
      == WithDocument(doc, ParseExtinf(line, st, env.numerics, env.strict, lineno))
  {
    ClassifyMixed();
  }

  /** `#EXT-X-STREAM-INF` goes to its handler. */
  lemma TagLineOfStreamInf(env: Env, doc: Document, st: State, lineno: nat, line: string)
    requires TagOf(line) == Schemas.StreamInf
    ensures TagLine(env, doc, st, lineno, line) == Ok(StreamInfTag(line, doc, st, env.numerics))
  {
    ClassifyMixed();
  }

  /** Every segment in the list is complete: it has its finishing keys. */
  predicate Finished(segs: seq<Segment>) {
    forall i | 0 <= i < |segs| :: segs[i].finish.Some?
  }

  /** `b` is `a` followed by finished segments only. */
  predicate Extends(a: seq<Segment>, b: seq<Segment>) {
    |a| <= |b| && b[..|a|] == a && Finished(b[|a|..])
  }

  /** A URI line (m3u8/_m3u8_parser.c:2512-2538): a segment when one is
      expected, otherwise a variant playlist when one is expected, otherwise
      an error in strict mode and nothing at all in lenient mode. */
  function UriLine(env: Env, doc: Document, st: State, lineno: nat, line: string)
    : (r: Result<(Document, State), Error>)
    ensures r.Ok? ==> Extends(doc.segments, r.value.0.segments)
    ensures r.Ok? && |r.value.0.segments| > |doc.segments| ==>
      st.expectSegment && |r.value.0.segments| == |doc.segments| + 1
      && r.value.0.segments[|doc.segments|].finish.value.uri == line
    ensures st.expectSegment && r.Ok? ==>
      |r.value.0.segments| == |doc.segments| + 1 && r.value.0.playlists == doc.playlists
      && !r.value.1.expectSegment && r.value.1.expectPlaylist == st.expectPlaylist
    ensures !st.expectSegment && st.expectPlaylist ==>
      r.Ok? && r.value.0.segments == doc.segments
      && |r.value.0.playlists| == |doc.playlists| + 1
      && r.value.0.playlists[|doc.playlists|].uri == line && !r.value.1.expectPlaylist
    ensures !st.expectSegment && !st.expectPlaylist ==>
      r == if env.strict then Err(ParseError(lineno, line)) else Ok((doc, st))
    ensures r.Ok? && DistinctKeys(doc.keys) ==> DistinctKeys(r.value.0.keys)
    ensures r.Err? ==> LineError(r.error, env.strict, lineno, line)
  {
    if st.expectSegment then
      var r := FinishSegment(line, doc, st, env.clock, lineno);
      assert r.Ok? ==> r.value.0.segments[|doc.segments|..] == [r.value.0.segments[|doc.segments|]];
      r
    else if st.expectPlaylist then
      var r := AddVariantPlaylist(line, doc, st);
      assert r.0.segments[|doc.segments|..] == [];
      Ok(r)
    else if env.strict then Err(ParseError(lineno, line))
    else Ok((doc, st))
  }

  /** One line without the custom tag parser. */
  function Dispatch(env: Env, doc: Document, st: State, lineno: nat, line: string)
    : (r: Result<(Document, State), Error>)
    requires line != []
    ensures r.Ok? ==>
      Extends(doc.segments, r.value.0.segments) && |r.value.0.segments| <= |doc.segments| + 1
    ensures r.Ok? && DistinctKeys(doc.keys) ==> DistinctKeys(r.value.0.keys)
    ensures r.Err? ==> LineError(r.error, env.strict, lineno, line)
  {
    if line[0] == '#' then
      var r := TagLine(env, doc, st, lineno, line);
      assert r.Ok? ==> r.value.0.segments[|doc.segments|..] == [];
      r
    else UriLine(env, doc, st, lineno, line)
  }

  /** One line (m3u8/_m3u8_parser.c:2069-2099, then the dispatch): a tag
      line goes to the custom tag parser first, when there is one; if it
      raises the run stops, if it handles the line the dispatcher never sees
      it, and otherwise the dispatcher works on what it left behind. */
  function Step(env: Env, doc: Document, st: State, lineno: nat, line: string)
    : (r: Result<(Document, State), Error>)
    requires line != []
    ensures r.Err? ==> LineError(r.error, env.strict, lineno, line)
    ensures env.hook.None? || line[0] != '#' ==> r == Dispatch(env, doc, st, lineno, line)
  {
    if line[0] == '#' && env.hook.Some? then
      match env.hook.value(line, lineno, doc, st)
      case HookRaised => Err(Raised(lineno, CustomParserRaised))
      case Returned(handled, d, s) =>
        if handled then Ok((d, s)) else Dispatch(env, d, s, lineno, line)
    else Dispatch(env, doc, st, lineno, line)
  }

  /** Without a custom tag parser a tag line goes straight to the tag
      dispatcher. */
  lemma StepOfTagLine(env: Env, doc: Document, st: State, lineno: nat, line: string)
    requires env.hook.None? && line != [] && line[0] == '#'
    ensures Step(env, doc, st, lineno, line) == TagLine(env, doc, st, lineno, line)
  {
  }
}

=== FILE: handlers.dfy ===
/** The tag handlers of m3u8/_m3u8_parser.c. Each turns one stripped line
    into changes of the result document and of the parser state; the ones
    that can raise return a `Result`.
 */
module Handlers {
  import opened Text
  import opened AttrList
  import opened Tokenizer
  import opened Scalars
  import opened Decoder
  import opened Model
  import Schemas

  // ---------------------------------------------------------------------
  // The payload of a tag line

  /** The text after the tag and the ':' that follows it; empty for a bare
      tag. The dispatcher only hands a handler a line that is its tag, or its
      tag followed by ':' and more. */
  function Payload(line: string, tag: string): (r: string)
    ensures |r| == if |line| > |tag| then |line| - |tag| - 1 else 0
    ensures r == line[|line| - |r|..]
  {
    if |line| > |tag| then line[|tag| + 1..] else []
  }

  /** Writing a tag line and taking its payload gives back the value. */
  lemma PayloadOfTagLine(tag: string, v: string)
    ensures Payload(tag + ":" + v, tag) == v
    ensures Payload(tag, tag) == []
  {
    var line := tag + ":" + v;
    assert line[|tag| + 1..] == v;
  }

  /** The reused line buffer of the main loop after a line and its NUL
      terminator are copied to its start (m3u8/_m3u8_parser.c:2064-2067):
      the bytes of longer earlier lines stay behind the terminator. Bytes
      never written are not part of the sequence. */
  function CopyLine(buf: seq<char>, line: string): (r: seq<char>)
    ensures |r| == if |buf| > |line| + 1 then |buf| else |line| + 1
    ensures r[..|line|] == line && r[|line|] == '\0'
    ensures forall i | |line| < i < |buf| :: r[i] == buf[i]
  {
    line + ['\0'] + (if |buf| > |line| + 1 then buf[|line| + 1..] else [])
  }

  /** Reading a C string at offset `i`: the characters before the next NUL,
      or `None` when no NUL is written before the end of the written bytes,
      so that the read runs into memory never written. */
  function CStringAt(buf: seq<char>, i: nat): (r: Option<string>)
    ensures r.Some? ==>
      i + |r.value| < |buf| && buf[i + |r.value|] == '\0' && r.value == buf[i..i + |r.value|]
      && NoChar(r.value, '\0')
    ensures r.None? ==> forall j | i <= j < |buf| :: buf[j] != '\0'
    decreases |buf| - i
  {
    if i >= |buf| then None
    else if buf[i] == '\0' then Some([])
    else match CStringAt(buf, i + 1)
      case None => None
      case Some(t) =>
        assert [buf[i]] + t == buf[i..i + 1 + |t|];
        Some([buf[i]] + t)
  }

  /** A NUL-free run ending in a terminator reads back as itself. */
  lemma {:induction false} CStringAtTerminated(s: seq<char>, t: seq<char>, i: nat)
    requires i <= |s| && forall j | i <= j < |s| :: s[j] != '\0'
    ensures CStringAt(s + ['\0'] + t, i) == Some(s[i..])
    decreases |s| - i
  {
    var buf := s + ['\0'] + t;
    if i < |s| {
      CStringAtTerminated(s, t, i + 1);
      assert [buf[i]] + s[i + 1..] == s[i..];
    }
  }

  /** `stripped + strlen(TAG) + 1`, the payload pointer as written
      (for instance m3u8/_m3u8_parser.c:2121). */
  function PayloadAsWritten(buf: seq<char>, tag: string): Option<string> {
    CStringAt(buf, |tag| + 1)
  }

  /** When the tag is followed by ':', the pointer as written reads exactly
      the payload. */
  lemma PayloadAsWrittenWithColon(buf: seq<char>, line: string, tag: string)
    requires |line| > |tag| && NoChar(line, '\0')
    ensures PayloadAsWritten(CopyLine(buf, line), tag) == Some(Payload(line, tag))
  {
    var rest := if |buf| > |line| + 1 then buf[|line| + 1..] else [];
    CStringAtTerminated(line, rest, |tag| + 1);
  }

  /** For a bare tag the pointer as written starts past the terminator and
      reads what an earlier, longer line left in the buffer: after
      "#EXT-X-BITRATE:12345", a line "#EXT-X-VERSION" reads "12345" where it
      has no payload at all. */
  lemma PayloadAsWrittenReadsStaleLine()
    ensures var buf := CopyLine(CopyLine([], "#EXT-X-BITRATE:12345"), Schemas.Version);
      PayloadAsWritten(buf, Schemas.Version) == Some("12345")
      && Payload(Schemas.Version, Schemas.Version) == []
  {
    var first := CopyLine([], "#EXT-X-BITRATE:12345");
    var buf := CopyLine(first, Schemas.Version);
    var s := Schemas.Version + "\0" + "12345";
    assert buf == s + ['\0'] + [];
    CStringAtTerminated(s, [], |Schemas.Version| + 1);
    assert s[|Schemas.Version| + 1..] == "12345";
  }

  // ---------------------------------------------------------------------
  // Keys (parse_key, m3u8/_m3u8_parser.c:1299-1345, and EXT-X-SESSION-KEY)

  /** The attribute list of a key tag with quotes removed from every value. */
  function KeyAttributes(line: string, prefix: string): (r: RawAttrs)
    ensures Keys(r) == Keys(AttributeList(line, prefix))
    ensures forall k ::
      Get(r, k) == (match Get(AttributeList(line, prefix), k) case None => None case Some(v) => Some(RemoveQuotes(v)))
  {
    var raw := AttributeList(line, prefix);
    forall k ensures Get(MapValues(raw, RemoveQuotes), k) ==
      match Get(raw, k) case None => None case Some(v) => Some(RemoveQuotes(v))
    {
      MapValuesGet(raw, RemoveQuotes, k);
    }
    MapValues(raw, RemoveQuotes)
  }

  /** Python `==` between two entries of `data["keys"]`. */
  predicate SameEntry(a: Option<RawAttrs>, b: Option<RawAttrs>) {
    (a.None? && b.None?) || (a.Some? && b.Some? && SameMapping(a.value, b.value))
  }

  /** `data["keys"]` holds a dict equal to `key`. */
  predicate HasKeyEntry(keys: seq<Option<RawAttrs>>, key: RawAttrs) {
    exists i | 0 <= i < |keys| :: SameEntry(keys[i], Some(key))
  }

  /** No two entries of `data["keys"]` are equal. */
  predicate DistinctKeys(keys: seq<Option<RawAttrs>>) {
    forall i, j | 0 <= i < j < |keys| :: !SameEntry(keys[i], keys[j])
  }

  /** Append `key` unless an equal dict is already listed. */
  function AddKey(keys: seq<Option<RawAttrs>>, key: RawAttrs): (r: seq<Option<RawAttrs>>)
    ensures HasKeyEntry(r, key)
    ensures r == keys || r == keys + [Some(key)]
    ensures r == keys + [Some(key)] <==> !HasKeyEntry(keys, key)
  {
    if HasKeyEntry(keys, key) then keys
    else
      var r := keys + [Some(key)];
      assert SameEntry(r[|keys|], Some(key));
      r
  }

  /** The search loop of m3u8/_m3u8_parser.c:1329-1341. */
  method AddKeyLoop(keys: seq<Option<RawAttrs>>, key: RawAttrs) returns (r: seq<Option<RawAttrs>>)
    ensures r == AddKey(keys, key)
  {
    var found := false;
    var i := 0;
    while i < |keys| && !found
      invariant 0 <= i <= |keys|
      invariant !found ==> forall j | 0 <= j < i :: !SameEntry(keys[j], Some(key))
      invariant found ==> HasKeyEntry(keys, key)
      decreases |keys| - i, if found then 0 else 1
    {
      if keys[i].Some? && SameMapping(keys[i].value, key) {
        assert SameEntry(keys[i], Some(key));
        found := true;
      } else {
        i := i + 1;
      }
    }
    if !found {
      r := keys + [Some(key)];
    } else {
      r := keys;
    }
  }

  /** For an unencrypted segment: append `None` unless it is listed
      (m3u8/_m3u8_parser.c:1549-1569). */
  function AddNone(keys: seq<Option<RawAttrs>>): (r: seq<Option<RawAttrs>>)
    ensures None in r
    ensures r == keys || r == keys + [None]
    ensures r == keys + [None] <==> None !in keys
  {
    if None in keys then keys else keys + [None]
  }

  lemma AddKeyDistinct(keys: seq<Option<RawAttrs>>, key: RawAttrs)
    ensures DistinctKeys(keys) ==> DistinctKeys(AddKey(keys, key))
  {
    var r := AddKey(keys, key);
    if r != keys && DistinctKeys(keys) {
      forall i, j | 0 <= i < j < |r| ensures !SameEntry(r[i], r[j]) {
        if j == |keys| {
          assert !SameEntry(keys[i], Some(key));
        }
      }
    }
  }

  lemma AddNoneDistinct(keys: seq<Option<RawAttrs>>)
    ensures DistinctKeys(keys) ==> DistinctKeys(AddNone(keys))
  {
    var r := AddNone(keys);
    if r != keys && DistinctKeys(keys) {
      forall i, j | 0 <= i < j < |r| ensures !SameEntry(r[i], r[j]) {
        if j == |keys| {
          assert keys[i] != None;
        }
      }
    }
  }

  /** `#EXT-X-KEY`: the key becomes the current one and is listed once. */
  function ParseKey(line: string, doc: Document, st: State): (r: (Document, State))
    ensures var key := KeyAttributes(line, Schemas.Key);
      r.1.currentKey == Some(key) && r.1.(currentKey := st.currentKey) == st
      && HasKeyEntry(r.0.keys, key)
      && (r.0.keys == doc.keys || r.0.keys == doc.keys + [Some(key)])
      && r.0.(keys := doc.keys) == doc
    ensures DistinctKeys(doc.keys) ==> DistinctKeys(r.0.keys)
  {
    var key := KeyAttributes(line, Schemas.Key);
    AddKeyDistinct(doc.keys, key);
    (doc.(keys := AddKey(doc.keys, key)), st.(currentKey := Some(key)))
  }

  /** `#EXT-X-SESSION-KEY` (m3u8/_m3u8_parser.c:2428-2449): the same key
      dict, always appended, and the current key is not touched. */
  function ParseSessionKey(line: string, doc: Document): (r: Document)
    ensures |r.sessionKeys| == |doc.sessionKeys| + 1
    ensures r.sessionKeys[..|doc.sessionKeys|] == doc.sessionKeys
    ensures r.sessionKeys[|doc.sessionKeys|] == KeyAttributes(line, Schemas.SessionKey)
    ensures r.(sessionKeys := doc.sessionKeys) == doc
  {
    doc.(sessionKeys := doc.sessionKeys + [KeyAttributes(line, Schemas.SessionKey)])
  }

  // ---------------------------------------------------------------------
  // Segments

  /** The segment being drafted, or a new empty one (`get_or_create_segment`). */
  function CurrentDraft(st: State): (d: Draft)
    ensures st.segment.Some? ==> d == st.segment.value
    ensures st.segment.None? ==> d == EmptyDraft
  {
    if st.segment.Some? then st.segment.value else EmptyDraft
  }

  /** The same pointer in `parse_extinf` (m3u8/_m3u8_parser.c:1355): after
      "#EXTINF:10,title", a bare "#EXTINF" reads "10,title" and so finds a
      comma, while its corrected payload is empty and strict mode rejects it. */
  lemma ExtinfAsWrittenReadsStaleLine(st: State, n: Numerics, lineno: nat)
    ensures var buf := CopyLine(CopyLine([], "#EXTINF:10,title"), Schemas.ExtInf);
      PayloadAsWritten(buf, Schemas.ExtInf) == Some("10,title")
      && ParseExtinf(Schemas.ExtInf, st, n, true, lineno) == Err(ParseError(lineno, Schemas.ExtInf))
  {
    var first := CopyLine([], "#EXTINF:10,title");
    var buf := CopyLine(first, Schemas.ExtInf);
    var s := Schemas.ExtInf + "\0" + "10,title";
    assert buf == s + ['\0'] + [];
    CStringAtTerminated(s, [], |Schemas.ExtInf| + 1);
    assert s[|Schemas.ExtInf| + 1..] == "10,title";
  }

  /** The duration buffer of `parse_extinf` holds 63 characters. */
  const DurationBuffer: nat := 64

  /** A failed parse counts as 0.0. */
  function OrZero(d: Option<Double>): Double {
    match d case Some(x) => x case None => Finite(0.0)
  }

  /** `#EXTINF:<duration>,<title>` (m3u8/_m3u8_parser.c:1351-1421). */
  function ParseExtinf(line: string, st: State, n: Numerics, strict: bool, lineno: nat): (r: Result<State, Error>)
    ensures var c := Payload(line, Schemas.ExtInf);
      r.Err? <==> strict && ',' !in c
    ensures r.Err? ==> r.error == ParseError(lineno, line)
    ensures r.Ok? ==>
      r.value.expectSegment && r.value.segment.Some?
      && r.value.(segment := st.segment, expectSegment := st.expectSegment) == st
      && r.value.segment.value.(duration := CurrentDraft(st).duration, title := CurrentDraft(st).title)
         == CurrentDraft(st)
      && r.value.segment.value.duration.Some? && r.value.segment.value.title.Some?
    ensures r.Ok? ==>
      var c := Payload(line, Schemas.ExtInf);
      var t := r.value.segment.value.title.value;
      if ',' in c then
        |t| < |c| && t == c[|c| - |t|..] && c[|c| - |t| - 1] == ',' && ',' !in c[..|c| - |t| - 1]
      else t == []
  {
    var c := Payload(line, Schemas.ExtInf);
    var draft := CurrentDraft(st);
    match IndexOf(c, ',')
    case Some(i) =>
      var duration := OrZero(n.parseDouble(Take(c[..i], DurationBuffer - 1)));
      assert c[|c| - |c[i + 1..]| - 1] == ',';
      Ok(st.(segment := Some(draft.(duration := Some(duration), title := Some(c[i + 1..]))),
             expectSegment := true))
    case None =>
      if strict then Err(ParseError(lineno, line))
      else
        var duration := OrZero(n.parseDouble(c));
        Ok(st.(segment := Some(draft.(duration := Some(duration), title := Some(""))),
               expectSegment := true))
  }

  /** Writing an `#EXTINF` line and parsing it gives back the title, and the
      duration read from the first 63 characters of its text. */
  lemma ExtinfRoundTrip(duration: string, title: string, st: State, n: Numerics, strict: bool, lineno: nat)
    requires ',' !in duration
    ensures var r := ParseExtinf(Schemas.ExtInf + ":" + duration + "," + title, st, n, strict, lineno);
      r.Ok? && r.value.segment.value.title == Some(title)
      && r.value.segment.value.duration == Some(OrZero(n.parseDouble(Take(duration, DurationBuffer - 1))))
  {
    var line := Schemas.ExtInf + ":" + duration + "," + title;
    var c := duration + "," + title;
    assert line == Schemas.ExtInf + ":" + c;
    PayloadOfTagLine(Schemas.ExtInf, c);
    assert c[|duration|] == ',';
    assert c[..|duration|] == duration;
    assert c[|duration| + 1..] == title;
    assert IndexOf(c, ',') == Some(|duration|);
  }

  /** Advance the running date by a duration; failure raises
      (m3u8/_m3u8_parser.c:1470-1487 and 1703-1723). */
  function Advance(clock: Clock, now: DateTime, seconds: Double, lineno: nat): (r: Result<DateTime, Error>)
    ensures r.Err? <==> clock.addSeconds(now, seconds).None?
    ensures r.Err? ==> r.error == Raised(lineno, DateOverflow)
    ensures r.Ok? ==> clock.addSeconds(now, seconds) == Some(r.value)
  {
    match clock.addSeconds(now, seconds)
    case Some(t) => Ok(t)
    case None => Err(Raised(lineno, DateOverflow))
  }

  /** The current map, when it is not empty (m3u8/_m3u8_parser.c:1571-1576). */
  function InitSection(segmentMap: Option<Attrs>): (r: Option<Attrs>)
    ensures r.Some? <==> segmentMap.Some? && segmentMap.value != []
    ensures r.Some? ==> r == segmentMap
  {
    if segmentMap.Some? && segmentMap.value != [] then segmentMap else None
  }

  /** The keys a segment takes from the state when its URI line arrives. */
  function PendingFinish(uri: string, st: State): Finish {
    Finish(
      uri, st.programDateTime, st.currentProgramDateTime,
      st.cueIn, st.cueOut, st.cueOutStart, st.cueOutExplicitlyDuration,
      st.cueOutScte35, st.cueOutOatclsScte35, st.cueOutDuration, st.cueOutElapsedtime,
      st.assetMetadata, st.discontinuity, st.currentKey,
      InitSection(st.currentSegmentMap),
      st.dateranges, st.gap, st.blackout)
  }

  /** The state holds no value waiting for the next segment, apart from the
      cue-out values and the running date, key and map. */
  predicate NothingPending(st: State) {
    !st.expectSegment && st.segment.None? && st.programDateTime.None?
    && !st.cueIn && !st.cueOut && !st.cueOutStart && !st.cueOutExplicitlyDuration
    && !st.discontinuity && st.dateranges.None? && !st.gap && st.blackout.None?
  }

  /** The cue-out values of two states agree. */
  predicate SameCue(a: State, b: State) {
    a.cueOutScte35 == b.cueOutScte35 && a.cueOutOatclsScte35 == b.cueOutOatclsScte35
    && a.cueOutDuration == b.cueOutDuration && a.cueOutElapsedtime == b.cueOutElapsedtime
    && a.assetMetadata == b.assetMetadata
  }

  predicate NoCue(a: State) {
    a.cueOutScte35.None? && a.cueOutOatclsScte35.None? && a.cueOutDuration.None?
    && a.cueOutElapsedtime.None? && a.assetMetadata.None?
  }

  /** The state after a segment took its values: one-shot values are
      cleared, and the cue-out values survive only while a cue-out is active. */
  function Consume(st: State, date: Option<DateTime>): (r: State)
    ensures NothingPending(r)
    ensures st.cueOut ==> SameCue(r, st)
    ensures !st.cueOut ==> NoCue(r)
    ensures r.currentKey == st.currentKey && r.currentSegmentMap == st.currentSegmentMap
    ensures r.streamInfo == st.streamInfo && r.expectPlaylist == st.expectPlaylist
    ensures r.currentProgramDateTime == date
  {
    var keep := st.cueOut;
    st.(expectSegment := false, segment := None, programDateTime := None,
        currentProgramDateTime := date,
        cueIn := false, cueOut := false, cueOutStart := false, cueOutExplicitlyDuration := false,
        cueOutScte35 := KeepIf(keep, st.cueOutScte35),
        cueOutOatclsScte35 := KeepIf(keep, st.cueOutOatclsScte35),
        cueOutDuration := KeepIf(keep, st.cueOutDuration),
        cueOutElapsedtime := KeepIf(keep, st.cueOutElapsedtime),
        assetMetadata := KeepIf(keep, st.assetMetadata),
        discontinuity := false, dateranges := None, gap := false, blackout := None)
  }

  /** The document with the finished segment appended, and `None` listed
      among the keys when the segment is not encrypted. */
  function RecordSegment(uri: string, doc: Document, st: State): (d: Document)
    ensures |d.segments| == |doc.segments| + 1 && d.segments[..|doc.segments|] == doc.segments
    ensures d.segments[|doc.segments|] == Segment(CurrentDraft(st), Some(PendingFinish(uri, st)))
    ensures d.(segments := doc.segments, keys := doc.keys) == doc
    ensures d.keys == doc.keys || d.keys == doc.keys + [None]
    ensures st.currentKey.None? ==> None in d.keys
    ensures DistinctKeys(doc.keys) ==> DistinctKeys(d.keys)
  {
    AddNoneDistinct(doc.keys);
    var keys := if st.currentKey.None? then AddNone(doc.keys) else doc.keys;
    doc.(segments := doc.segments + [Segment(CurrentDraft(st), Some(PendingFinish(uri, st)))], keys := keys)
  }

  /** A URI line while a segment is expected: `parse_ts_chunk`
      (m3u8/_m3u8_parser.c:1428-1621). */
  function FinishSegment(uri: string, doc: Document, st: State, clock: Clock, lineno: nat): (r: Result<(Document, State), Error>)
    ensures var draft := CurrentDraft(st);
      r.Err? <==> st.currentProgramDateTime.Some? && draft.duration.Some?
                  && clock.addSeconds(st.currentProgramDateTime.value, draft.duration.value).None?
    ensures r.Err? ==> r.error == Raised(lineno, DateOverflow)
    ensures r.Ok? ==>
      var d := r.value.0;
      |d.segments| == |doc.segments| + 1 && d.segments[..|doc.segments|] == doc.segments
      && d.segments[|doc.segments|].draft == CurrentDraft(st)
      && d.segments[|doc.segments|].finish.Some?
      && d.segments[|doc.segments|].finish.value.uri == uri
      && d.(segments := doc.segments, keys := doc.keys) == doc
      && (d.keys == doc.keys || d.keys == doc.keys + [None])
      && (st.currentKey.None? ==> None in d.keys)
      && (DistinctKeys(doc.keys) ==> DistinctKeys(d.keys))
    ensures r.Ok? ==>
      var s := r.value.1;
      NothingPending(s)
      && (st.cueOut ==> SameCue(s, st)) && (!st.cueOut ==> NoCue(s))
      && s.currentKey == st.currentKey && s.currentSegmentMap == st.currentSegmentMap
      && s.streamInfo == st.streamInfo && s.expectPlaylist == st.expectPlaylist
      && (st.currentProgramDateTime.None? ==> s.currentProgramDateTime.None?)
    ensures r.Ok? && st.currentProgramDateTime.Some? && CurrentDraft(st).duration.Some? ==>
      r.value.1.currentProgramDateTime == clock.addSeconds(st.currentProgramDateTime.value, CurrentDraft(st).duration.value)
    ensures r.Ok? && !(st.currentProgramDateTime.Some? && CurrentDraft(st).duration.Some?) ==>
      r.value.1.currentProgramDateTime == st.currentProgramDateTime
    ensures r.Ok? ==>
      var f := r.value.0.segments[|doc.segments|].finish.value;
      f == PendingFinish(uri, st)
      && f.currentProgramDateTime == st.currentProgramDateTime
      && f.key == st.currentKey && f.initSection == InitSection(st.currentSegmentMap)
      && f.dateranges == st.dateranges && f.gapTag == st.gap && f.blackout == st.blackout
  {
    var draft := CurrentDraft(st);
    var d := RecordSegment(uri, doc, st);
    if st.currentProgramDateTime.Some? && draft.duration.Some? then
      match Advance(clock, st.currentProgramDateTime.value, draft.duration.value, lineno)
      case Err(e) => Err(e)
      case Ok(t) => Ok((d, Consume(st, Some(t))))
    else Ok((d, Consume(st, st.currentProgramDateTime)))
  }

  /** What a segment takes from the state it takes once: the next segment
      finds no value pending but the key, the map and the cue-out values, and
      it carries the cue-out values again only while the cue-out that set
      them was active. Being empty, the next draft cannot make it raise. */
  lemma FinishSegmentConsumes(uri1: string, uri2: string, doc: Document, st: State, clock: Clock, l1: nat, l2: nat)
    requires FinishSegment(uri1, doc, st, clock, l1).Ok?
    ensures var first := FinishSegment(uri1, doc, st, clock, l1).value;
      var second := FinishSegment(uri2, first.0, first.1, clock, l2);
      second.Ok?
      && var d := second.value.0;
      var seg := d.segments[|d.segments| - 1];
      var f := seg.finish.value;
      seg.draft == EmptyDraft && f.uri == uri2
      && f.programDateTime.None? && !f.cueIn && !f.cueOut && !f.cueOutStart
      && !f.cueOutExplicitlyDuration && !f.discontinuity && f.dateranges.None? && !f.gapTag
      && f.blackout.None? && f.key == st.currentKey
      && (st.cueOut ==> f.scte35 == st.cueOutScte35 && f.oatclsScte35 == st.cueOutOatclsScte35
                        && f.scte35Duration == st.cueOutDuration
                        && f.scte35Elapsedtime == st.cueOutElapsedtime
                        && f.assetMetadata == st.assetMetadata)
      && (!st.cueOut ==> f.scte35.None? && f.oatclsScte35.None? && f.scte35Duration.None?
                         && f.scte35Elapsedtime.None? && f.assetMetadata.None?)
      && second.value.1.currentProgramDateTime == first.1.currentProgramDateTime
  {
    var first := FinishSegment(uri1, doc, st, clock, l1).value;
    assert CurrentDraft(first.1) == EmptyDraft;
  }

  /** A URI line while a variant stream is expected: `parse_variant_playlist`
      (m3u8/_m3u8_parser.c:1624-1657). */
  function AddVariantPlaylist(uri: string, doc: Document, st: State): (r: (Document, State))
    ensures |r.0.playlists| == |doc.playlists| + 1 && r.0.playlists[..|doc.playlists|] == doc.playlists
    ensures r.0.playlists[|doc.playlists|].uri == uri
    ensures st.streamInfo.Some? ==> r.0.playlists[|doc.playlists|].streamInfo == st.streamInfo.value
    ensures st.streamInfo.None? ==> r.0.playlists[|doc.playlists|].streamInfo == []
    ensures r.0.(playlists := doc.playlists) == doc
    ensures !r.1.expectPlaylist && r.1.streamInfo.None?
    ensures r.1.(expectPlaylist := st.expectPlaylist, streamInfo := st.streamInfo) == st
  {
    var info := ValueOr(st.streamInfo, []);
    (doc.(playlists := doc.playlists + [VariantPlaylist(uri, info)]),
     st.(streamInfo := None, expectPlaylist := false))
  }

  // ---------------------------------------------------------------------
  // Dates

  /** `#EXT-X-PROGRAM-DATE-TIME` (m3u8/_m3u8_parser.c:1663-1688): the text
      after the first ':' becomes the running date and the pending date of
      the next segment; the document keeps the first date it sees. */
  function ParseProgramDateTime(line: string, doc: Document, st: State, clock: Clock, lineno: nat)
    : (r: Result<(Document, State), Error>)
    ensures ':' !in line ==> r == Ok((doc, st))
    ensures ':' in line ==>
      var text := line[IndexOf(line, ':').value + 1..];
      match clock.fromIsoFormat(text)
      case None => r == Err(Raised(lineno, InvalidDateTime))
      case Some(t) =>
        r.Ok?
        && r.value.1.currentProgramDateTime == Some(t) && r.value.1.programDateTime == Some(t)
        && r.value.1.(currentProgramDateTime := st.currentProgramDateTime,
                      programDateTime := st.programDateTime) == st
        && r.value.0.programDateTime == (if doc.programDateTime.None? then Some(t) else doc.programDateTime)
        && r.value.0.(programDateTime := doc.programDateTime) == doc
  {
    match IndexOf(line, ':')
    case None => Ok((doc, st))
    case Some(i) =>
      match clock.fromIsoFormat(line[i + 1..])
      case None => Err(Raised(lineno, InvalidDateTime))
      case Some(t) =>
        Ok((doc.(programDateTime := OrElse(doc.programDateTime, Some(t))),
            st.(currentProgramDateTime := Some(t), programDateTime := Some(t))))
  }

  /** Of two dates, the document keeps the first and the state the second. */
  lemma FirstDateWins(l1: string, l2: string, doc: Document, st: State, clock: Clock, n1: nat, n2: nat)
    requires doc.programDateTime.None?
    requires ParseProgramDateTime(l1, doc, st, clock, n1).Ok? && ':' in l1
    requires var r := ParseProgramDateTime(l1, doc, st, clock, n1).value;
      ParseProgramDateTime(l2, r.0, r.1, clock, n2).Ok? && ':' in l2
    ensures var r1 := ParseProgramDateTime(l1, doc, st, clock, n1).value;
      var r2 := ParseProgramDateTime(l2, r1.0, r1.1, clock, n2).value;
      r2.0.programDateTime == r1.1.currentProgramDateTime
      && r2.1.currentProgramDateTime == clock.fromIsoFormat(l2[IndexOf(l2, ':').value + 1..])
  {
  }

  // ---------------------------------------------------------------------
  // Partial segments

  /** The parts of a draft so far. */
  function PartsOf(d: Draft): seq<Part> {
    ValueOr(d.parts, [])
  }

  /** The state after `part` joined the segment being drafted, taking the
      pending date ranges and gap with it. */
  function AddPart(st: State, part: Part): (r: State)
    ensures r.segment.Some? && r.segment.value.parts == Some(PartsOf(CurrentDraft(st)) + [part])
    ensures r.segment.value.(parts := CurrentDraft(st).parts) == CurrentDraft(st)
    ensures r.dateranges.None? && !r.gap
    ensures r.(segment := st.segment, dateranges := st.dateranges, gap := st.gap) == st
  {
    var draft := CurrentDraft(st);
    st.(dateranges := None, gap := false, segment := Some(draft.(parts := Some(PartsOf(draft) + [part]))))
  }

  /** The running date after a part: advanced by the part's duration when
      both are known (m3u8/_m3u8_parser.c:1703-1723). */
  function PartDate(attrs: Attrs, now: Option<DateTime>, clock: Clock, lineno: nat): (r: Result<Option<DateTime>, Error>)
    ensures r.Err? <==>
      now.Some?
      && match Get<Value>(attrs, "duration")
         case None => false
         case Some(Flt(d)) => clock.addSeconds(now.value, d).None?
         case Some(_) => true
    ensures r.Err? ==> r.error.Raised? && r.error.lineno == lineno
    ensures r.Ok? && (now.None? || Get(attrs, "duration").None?) ==> r.value == now
    ensures r.Ok? && now.Some? && Get(attrs, "duration").Some? ==>
      Get(attrs, "duration").value.Flt?
      && clock.addSeconds(now.value, Get(attrs, "duration").value.d) == r.value
  {
    match now
    case None => Ok(None)
    case Some(t) =>
      match Get<Value>(attrs, "duration")
      case None => Ok(now)
      case Some(Flt(d)) =>
        (match Advance(clock, t, d, lineno)
         case Err(e) => Err(e)
         case Ok(next) => Ok(Some(next)))
      // A string that did not parse as a float: `PyFloat_AsDouble` raises.
      // An integer cannot be stored under this name (`PartDurationNotInt`).
      case Some(_) => Err(Raised(lineno, DurationNotFloat))
  }

  /** The part dict of m3u8/_m3u8_parser.c:1703-1741. The stores under
      `program_date_time` (only while a date is running), `dateranges` and
      `gap_tag` replace an attribute of the same name, so those names leave
      the decoded attributes and are carried by the part's own fields. */
  function MakePart(attrs: Attrs, now: Option<DateTime>, dateranges: Option<seq<Attrs>>, gap: bool): (p: Part)
    ensures p.programDateTime == now && p.dateranges == dateranges && p.gapTag == gap
    ensures Get(p.attrs, "dateranges").None? && Get(p.attrs, "gap_tag").None?
    ensures now.Some? ==> Get(p.attrs, "program_date_time").None?
    ensures now.None? ==> Get(p.attrs, "program_date_time") == Get(attrs, "program_date_time")
    ensures forall k | k != "program_date_time" && k != "dateranges" && k != "gap_tag" ::
      Get(p.attrs, k) == Get(attrs, k)
  {
    var a := Remove(Remove(attrs, "dateranges"), "gap_tag");
    Part(if now.Some? then Remove(a, "program_date_time") else a, now, dateranges, gap)
  }

  /** `#EXT-X-PART` (m3u8/_m3u8_parser.c:1694-1772): the decoded attributes,
      with the running date, the pending date ranges and gap, go into the
      parts of the segment being drafted; the part's duration advances the
      running date. */
  function ParsePart(line: string, st: State, n: Numerics, clock: Clock, lineno: nat): (r: Result<State, Error>)
    ensures var attrs := TypedAttributeList(line, Schemas.Part, Schemas.PartSchema, n);
      var date := PartDate(attrs, st.currentProgramDateTime, clock, lineno);
      (r.Err? <==> date.Err?) && (r.Err? ==> r.error == date.error)
      && (r.Ok? ==>
            var s := r.value;
            s.segment.Some?
            && s.segment.value.parts
               == Some(PartsOf(CurrentDraft(st)) + [MakePart(attrs, st.currentProgramDateTime, st.dateranges, st.gap)])
            && s.segment.value.(parts := CurrentDraft(st).parts) == CurrentDraft(st)
            && s.dateranges.None? && !s.gap
            && s.currentProgramDateTime == date.value
            && s.(segment := st.segment, dateranges := st.dateranges, gap := st.gap,
                  currentProgramDateTime := st.currentProgramDateTime) == st)
  {
    var attrs := TypedAttributeList(line, Schemas.Part, Schemas.PartSchema, n);
    var s := AddPart(st, MakePart(attrs, st.currentProgramDateTime, st.dateranges, st.gap));
    match PartDate(attrs, st.currentProgramDateTime, clock, lineno)
    case Err(e) => Err(e)
    case Ok(date) => Ok(s.(currentProgramDateTime := date))
  }

  /** The part `#EXT-X-PART` appends holds the pending gap and date ranges
      under `gap_tag` and `dateranges`, whatever attributes of those names
      the line carried: `#EXT-X-PART:URI="a",GAP-TAG=YES` without a pending
      `#EXT-X-GAP` gives a part whose gap is unset. */
  lemma ParsePartOverwrites(line: string, st: State, n: Numerics, clock: Clock, lineno: nat)
    requires ParsePart(line, st, n, clock, lineno).Ok?
    ensures var parts := ParsePart(line, st, n, clock, lineno).value.segment.value.parts.value;
      var p := parts[|parts| - 1];
      p.gapTag == st.gap && Get(p.attrs, "gap_tag").None?
      && p.dateranges == st.dateranges && Get(p.attrs, "dateranges").None?
      && (st.currentProgramDateTime.Some? ==>
            p.programDateTime == st.currentProgramDateTime && Get(p.attrs, "program_date_time").None?)
  {
  }

  /** The value a `DURATION` text decodes to under a float kind: the double
      it reads as, or the text itself when it is too long or does not read. */
  function DurationValue(d: string, n: Numerics): Value {
    if |d| < NumberBuffer && n.parseDouble(d).Some? then Flt(n.parseDouble(d).value) else Str(d)
  }

  /** The payload of `#EXT-X-PART:URI="u",DURATION=d`. */
  function PartPayload(u: string, d: string): string {
    "URI=\"" + u + "\",DURATION=" + d
  }

  predicate PartTextsWellFormed(u: string, d: string) {
    NoChar(u, '"') && NoChar(d, ',') && (d == [] || (!IsQuote(d[0]) && !IsSpace(d[|d| - 1])))
  }

  lemma PartPayloadAfterPrefix(payload: string)
    ensures AfterPrefix(Schemas.Part + ":" + payload, Schemas.Part) == Some(payload)
  {
    var line := Schemas.Part + ":" + payload;
    assert line[..|Schemas.Part|] == Schemas.Part;
    assert line[|Schemas.Part|..] == ":" + payload;
  }

  lemma PartPayloadTokens(u: string, d: string)
    requires PartTextsWellFormed(u, d)
    ensures Tokens(PartPayload(u, d)) == [Token("URI", Quoted('"', u, true)), Token("DURATION", Unquoted(d))]
  {
    assert PartPayload(u, d) == "URI" + "=\"" + u + "\"," + "DURATION" + "=" + d;
    assert WellFormed(Token("URI", Quoted('"', u, true)));
    assert WellFormed(Token("DURATION", Unquoted(d)));
    TokensOfQuotedPair("URI", u, "DURATION", d);
  }

  lemma PartEntries(u: string, d: string, n: Numerics)
    ensures TypedEntries(Schemas.PartSchema, n, [Token("URI", Quoted('"', u, true)), Token("DURATION", Unquoted(d))])
            == [("uri", Str(u)), ("duration", DurationValue(d, n))]
  {
    NormalizeKeyOfCapitals("URI");
    NormalizeKeyOfCapitals("DURATION");
    assert Lower("URI") == "uri";
    assert Lower("DURATION") == "duration";
  }

  /** `#EXT-X-PART:URI="u",DURATION=d` decodes to exactly the two attributes
      written, the URI without its quotes and the duration read as a float. */
  lemma PartAttributesOf(u: string, d: string, n: Numerics)
    requires PartTextsWellFormed(u, d)
    ensures TypedAttributeList(Schemas.Part + ":" + PartPayload(u, d), Schemas.Part, Schemas.PartSchema, n)
            == [("uri", Str(u)), ("duration", DurationValue(d, n))]
  {
    PartPayloadAfterPrefix(PartPayload(u, d));
    PartPayloadTokens(u, d);
    PartEntries(u, d, n);
    PutAllOfTwo(("uri", Str(u)), ("duration", DurationValue(d, n)));
  }

  /** Writing `#EXT-X-PART:URI="u",DURATION=d` and parsing it appends a part
      whose `uri` is `u` and whose `duration` is `d` read as a float. Without
      a running date it cannot fail; with one, it fails exactly when `d` does
      not read as a float or the date cannot advance by it, and otherwise the
      date advances by it. */
  lemma PartRoundTrip(u: string, d: string, st: State, n: Numerics, clock: Clock, lineno: nat)
    requires PartTextsWellFormed(u, d)
    ensures var r := ParsePart(Schemas.Part + ":" + PartPayload(u, d), st, n, clock, lineno);
      var v := DurationValue(d, n);
      (r.Err? <==> st.currentProgramDateTime.Some?
                   && (v.Str? || (v.Flt? && clock.addSeconds(st.currentProgramDateTime.value, v.d).None?)))
      && (r.Ok? ==>
            var parts := r.value.segment.value.parts.value;
            var p := parts[|parts| - 1];
            Get(p.attrs, "uri") == Some(Str(u)) && Get(p.attrs, "duration") == Some(v))
      && (r.Ok? && st.currentProgramDateTime.Some? ==>
            v.Flt? && r.value.currentProgramDateTime == clock.addSeconds(st.currentProgramDateTime.value, v.d))
  {
    PartAttributesOf(u, d, n);
    var attrs: Attrs := [("uri", Str(u)), ("duration", DurationValue(d, n))];
    assert Get(attrs, "uri") == Some(Str(u));
    assert Get(attrs, "duration") == Some(DurationValue(d, n));
  }

  /** A part's duration is a float, or the text that did not parse as one;
      never an integer. */
  lemma PartDurationNotInt(line: string, n: Numerics)
    ensures var v := Get(TypedAttributeList(line, Schemas.Part, Schemas.PartSchema, n), "duration");
      v.Some? ==> v.value.Flt? || v.value.Str?
  {
    match AfterPrefix(line, Schemas.Part)
    case None =>
    case Some(c) =>
      TypedValueKind(Schemas.PartSchema, n, c, "duration");
      assert KindOf(Schemas.PartSchema, "duration") == FloatKind;
  }

  // ---------------------------------------------------------------------
  // Cue-out

  /** There is text after the first ':' of the line. */
  predicate HasAttributes(line: string) {
    match IndexOf(line, ':') case None => false case Some(i) => i + 1 < |line|
  }

  /** The upper-cased copy in `parse_cueout` holds 1023 characters. */
  const UpperBuffer: nat := 1024

  /** `#EXT-X-CUE-OUT` (m3u8/_m3u8_parser.c:1775-1822). */
  function ParseCueOut(line: string, st: State, n: Numerics): (r: State)
    ensures r.cueOut && r.cueOutStart
    ensures r.cueOutExplicitlyDuration <==>
      st.cueOutExplicitlyDuration || Contains(Upper(Take(line, UpperBuffer - 1)), "DURATION")
    ensures r.(cueOut := st.cueOut, cueOutStart := st.cueOutStart,
               cueOutExplicitlyDuration := st.cueOutExplicitlyDuration,
               cueOutScte35 := st.cueOutScte35, cueOutDuration := st.cueOutDuration) == st
    ensures !HasAttributes(line) ==> r.cueOutScte35 == st.cueOutScte35 && r.cueOutDuration == st.cueOutDuration
    ensures HasAttributes(line) ==>
      var info := TypedAttributeList(line, Schemas.CueOut, Schemas.CueOutSchema, n);
      r.cueOutScte35 == (if HasKey(info, "cue") then Get(info, "cue") else st.cueOutScte35)
      && r.cueOutDuration ==
         (if HasKey(info, "duration") then Get(info, "duration")
          else if HasKey(info, "") then Get(info, "") else st.cueOutDuration)
  {
    var explicit := st.cueOutExplicitlyDuration || Contains(Upper(Take(line, UpperBuffer - 1)), "DURATION");
    var s := st.(cueOutStart := true, cueOut := true, cueOutExplicitlyDuration := explicit);
    if !HasAttributes(line) then s
    else
      var info := TypedAttributeList(line, Schemas.CueOut, Schemas.CueOutSchema, n);
      var cue := Get(info, "cue");
      var duration := OrElse(Get(info, "duration"), Get(info, ""));
      s.(cueOutScte35 := OrElse(cue, s.cueOutScte35), cueOutDuration := OrElse(duration, s.cueOutDuration))
  }

  /** A tag without ':' followed by ':' and a value: the first ':' is the one
      after the tag, and the prefix is followed by the value. */
  lemma ColonAfterTag(tag: string, v: string)
    requires ':' !in tag
    ensures IndexOf(tag + ":" + v, ':') == Some(|tag|)
    ensures AfterPrefix(tag + ":" + v, tag) == Some(v)
  {
    var line := tag + ":" + v;
    assert line[|tag|] == ':';
    assert line[..|tag|] == tag;
    assert line[|tag|..][1..] == v;
  }

  /** A word after `#EXT-X-CUE-OUT:` is the duration of the break. */
  lemma CueOutBareDuration(d: string, st: State, n: Numerics)
    requires WellFormed(Token(d, Bare)) && !IsSpace(d[|d| - 1])
    ensures var r := ParseCueOut(Schemas.CueOut + ":" + d, st, n);
      r.cueOutDuration == Some(Str(d)) && r.cueOutScte35 == st.cueOutScte35
  {
    var line := Schemas.CueOut + ":" + d;
    ColonAfterTag(Schemas.CueOut, d);
    TypedAttributesOfBare(Schemas.CueOutSchema, n, d);
    var info := TypedAttributeList(line, Schemas.CueOut, Schemas.CueOutSchema, n);
    assert info == [("", Str(d))];
    assert Get(info, "cue").None? && Get(info, "duration").None? && Get(info, "") == Some(Str(d));
  }

  /** The elapsed-time copy in `parse_cueout_cont` holds 63 characters. */
  const ElapsedBuffer: nat := 64

  /** The progress value `elapsed/duration`, or a lone duration
      (m3u8/_m3u8_parser.c:1837-1864). */
  function Progress(st: State, progress: Value): (r: State)
    ensures r.(cueOutDuration := st.cueOutDuration, cueOutElapsedtime := st.cueOutElapsedtime) == st
    ensures progress.Str? && '/' !in progress.s ==>
      r.cueOutDuration == Some(progress) && r.cueOutElapsedtime == st.cueOutElapsedtime
    ensures progress.Str? && '/' in progress.s ==>
      var p := progress.s;
      r.cueOutDuration.Some? && r.cueOutDuration.value.Str?
      && |r.cueOutDuration.value.s| < |p|
      && var d := r.cueOutDuration.value.s;
      var e := p[..|p| - |d| - 1];
      p == e + "/" + d && '/' !in e
      && r.cueOutElapsedtime == Some(Str(Take(e, ElapsedBuffer - 1)))
  {
    match progress
    case Str(p) =>
      (match IndexOf(p, '/')
       case Some(k) =>
         st.(cueOutElapsedtime := Some(Str(Take(p[..k], ElapsedBuffer - 1))),
             cueOutDuration := Some(Str(p[k + 1..])))
       case None => st.(cueOutDuration := Some(progress)))
    // Not reached: the value of the empty name is a string (`CueOutContProgressIsText`).
    case _ => st
  }

  /** Apply the progress value when there is one. */
  function ApplyProgress(st: State, progress: Option<Value>): (r: State)
    ensures progress.None? ==> r == st
    ensures progress.Some? && progress.value.Str? ==> r.cueOutDuration.Some?
    ensures r.(cueOutDuration := st.cueOutDuration, cueOutElapsedtime := st.cueOutElapsedtime) == st
  {
    match progress
    case None => st
    case Some(p) => Progress(st, p)
  }

  /** Values given by name replace the progress value. */
  function Override(st: State, duration: Option<Value>, scte35: Option<Value>, elapsed: Option<Value>): (r: State)
    ensures r.cueOutDuration == if duration.Some? then duration else st.cueOutDuration
    ensures r.cueOutScte35 == if scte35.Some? then scte35 else st.cueOutScte35
    ensures r.cueOutElapsedtime == if elapsed.Some? then elapsed else st.cueOutElapsedtime
    ensures r.(cueOutDuration := st.cueOutDuration, cueOutScte35 := st.cueOutScte35,
               cueOutElapsedtime := st.cueOutElapsedtime) == st
  {
    st.(cueOutDuration := OrElse(duration, st.cueOutDuration),
        cueOutScte35 := OrElse(scte35, st.cueOutScte35),
        cueOutElapsedtime := OrElse(elapsed, st.cueOutElapsedtime))
  }

  /** The decoded attributes of a cue-out-cont line. */
  function CueOutContInfo(line: string, n: Numerics): Attrs {
    TypedAttributeList(line, Schemas.CueOutCont, Schemas.CueOutContSchema, n)
  }

  /** `#EXT-X-CUE-OUT-CONT` (m3u8/_m3u8_parser.c:1825-1883). */
  function ParseCueOutCont(line: string, st: State, n: Numerics): (r: State)
    ensures r.cueOut
    ensures r.(cueOut := st.cueOut, cueOutDuration := st.cueOutDuration,
               cueOutScte35 := st.cueOutScte35, cueOutElapsedtime := st.cueOutElapsedtime) == st
    ensures !HasAttributes(line) ==> r == st.(cueOut := true)
    ensures HasAttributes(line) ==>
      var info := CueOutContInfo(line, n);
      var progress := Get(info, "");
      var duration := Get(info, "duration");
      var scte35 := Get(info, "scte35");
      var elapsed := Get(info, "elapsedtime");
      (duration.Some? ==> r.cueOutDuration == duration)
      && r.cueOutScte35 == (if scte35.Some? then scte35 else st.cueOutScte35)
      && (elapsed.Some? ==> r.cueOutElapsedtime == elapsed)
      && (progress.None? ==>
            r.cueOutDuration == (if duration.Some? then duration else st.cueOutDuration)
            && r.cueOutElapsedtime == (if elapsed.Some? then elapsed else st.cueOutElapsedtime))
  {
    var s := st.(cueOut := true);
    if !HasAttributes(line) then s
    else
      var info := CueOutContInfo(line, n);
      Override(ApplyProgress(s, Get(info, "")), Get(info, "duration"), Get(info, "scte35"), Get(info, "elapsedtime"))
  }

  /** The value stored under the empty name is a string. */
  lemma CueOutContProgressIsText(line: string, n: Numerics)
    ensures var v := Get(CueOutContInfo(line, n), "");
      v.Some? ==> v.value.Str?
  {
    match AfterPrefix(line, Schemas.CueOutCont)
    case None =>
    case Some(c) =>
      TypedValueKind(Schemas.CueOutContSchema, n, c, "");
      assert KindOf(Schemas.CueOutContSchema, "") == StringKind;
  }

  /** `elapsed/duration` splits at the first '/'. */
  lemma ProgressOfSlash(st: State, e: string, d: string)
    requires '/' !in e
    ensures var r := Progress(st, Str(e + "/" + d));
      r.cueOutElapsedtime == Some(Str(Take(e, ElapsedBuffer - 1))) && r.cueOutDuration == Some(Str(d))
  {
    var p := e + "/" + d;
    assert p[|e|] == '/';
    assert p[..|e|] == e;
    assert IndexOf(p, '/') == Some(|e|);
    assert p[|e| + 1..] == d;
  }

  /** A cue-out-cont line whose payload is one bare word. */
  lemma CueOutContOfBare(p: string, n: Numerics)
    requires WellFormed(Token(p, Bare)) && !IsSpace(p[|p| - 1])
    ensures var line := Schemas.CueOutCont + ":" + p;
      HasAttributes(line) && CueOutContInfo(line, n) == [("", Str(p))]
  {
    ColonAfterTag(Schemas.CueOutCont, p);
    TypedAttributesOfBare(Schemas.CueOutContSchema, n, p);
  }

  /** `#EXT-X-CUE-OUT-CONT:<elapsed>/<duration>` sets both values, the
      elapsed time cut to 63 characters. */
  lemma CueOutContProgress(e: string, d: string, st: State, n: Numerics)
    requires WellFormed(Token(e + "/" + d, Bare)) && '/' !in e
    requires d == [] || !IsSpace(d[|d| - 1])
    ensures var r := ParseCueOutCont(Schemas.CueOutCont + ":" + e + "/" + d, st, n);
      r.cueOut && r.cueOutScte35 == st.cueOutScte35
      && r.cueOutElapsedtime == Some(Str(Take(e, ElapsedBuffer - 1)))
      && r.cueOutDuration == Some(Str(d))
  {
    var p := e + "/" + d;
    var line := Schemas.CueOutCont + ":" + p;
    assert Schemas.CueOutCont + ":" + e + "/" + d == line;
    assert p[|p| - 1] == (if d == [] then '/' else d[|d| - 1]);
    CueOutContOfBare(p, n);
    var info := CueOutContInfo(line, n);
    assert Get(info, "") == Some(Str(p));
    assert Get(info, "duration").None? && Get(info, "scte35").None? && Get(info, "elapsedtime").None?;
    var s := st.(cueOut := true);
    ProgressOfSlash(s, e, d);
  }
}

=== FILE: lines.dfy ===
/** Splitting a playlist into logical lines.

    Two walks exist in the parser: `build_stripped_splitlines`, which builds
    the list handed to the strict-mode validator, and the main loop of
    `m3u8_parse`, which numbers every physical line from 1, strips it and
    skips the blank ones. Both break at "\r\n", "\r" and "\n".
 */
module Lines {
  import opened Text

  predicate IsBreak(c: char) {
    c == '\n' || c == '\r'
  }

  predicate NoBreak(s: string) {
    forall i | 0 <= i < |s| :: !IsBreak(s[i])
  }

  /** Index of the first line-break character. */
  function FirstBreak(s: string): (r: Option<nat>)
    ensures r.None? ==> NoBreak(s)
    ensures r.Some? ==> r.value < |s| && IsBreak(s[r.value]) && NoBreak(s[..r.value])
  {
    if |s| == 0 then None
    else if IsBreak(s[0]) then Some(0)
    else match FirstBreak(s[1..])
      case None => None
      case Some(i) => Some(i + 1)
  }

  /** Length of the break sequence at `i`: "\r\n" counts as one break. */
  function BreakWidth(s: string, i: nat): (w: nat)
    requires i < |s| && IsBreak(s[i])
    ensures 1 <= w <= 2 && i + w <= |s|
  {
    if s[i] == '\r' && i + 1 < |s| && s[i + 1] == '\n' then 2 else 1
  }

  /** The pieces between breaks; a text ending in a break has an empty last
      piece, and the empty text is one empty piece. */
  function SplitLines(s: string): (r: seq<string>)
    ensures |r| >= 1
    ensures forall k | 0 <= k < |r| :: NoBreak(r[k])
    decreases |s|
  {
    match FirstBreak(s)
    case None => [s]
    case Some(i) => [s[..i]] + SplitLines(s[i + BreakWidth(s, i)..])
  }

  /** A break sequence the splitter recognises as one break: "\n", "\r\n",
      or a "\r" that `next` does not continue into "\r\n". */
  predicate SeparatorBefore(sep: string, next: string) {
    sep == "\n" || sep == "\r\n" || (sep == "\r" && (next == [] || next[0] != '\n'))
  }

  lemma {:induction false} FirstBreakAfter(a: string, c: string)
    requires NoBreak(a)
    ensures FirstBreak(a + c) == match FirstBreak(c) case None => None case Some(i) => Some(|a| + i)
    decreases |a|
  {
    if a == [] {
      assert a + c == c;
    } else {
      assert (a + c)[1..] == a[1..] + c;
      FirstBreakAfter(a[1..], c);
    }
  }

  /** The first line of `a + sep + rest` ends where `sep` starts, and the next
      line starts right after `sep`. */
  lemma BreakAt(a: string, sep: string, rest: string)
    requires NoBreak(a) && SeparatorBefore(sep, rest)
    ensures var s := a + sep + rest;
      FirstBreak(s) == Some(|a|) && BreakWidth(s, |a|) == |sep|
      && s[..|a|] == a && s[|a| + |sep|..] == rest
  {
    var s := a + sep + rest;
    assert s == a + (sep + rest);
    FirstBreakAfter(a, sep + rest);
    assert FirstBreak(sep + rest) == Some(0);
    assert s[|a|] == sep[0];
    if sep == "\r" && rest != [] {
      assert s[|a| + 1] == rest[0];
    }
    assert s[..|a|] == a;
    assert s[|a| + |sep|..] == rest;
  }

  /** A text without a break is one piece. */
  lemma SplitLinesOfNoBreak(a: string)
    requires NoBreak(a)
    ensures SplitLines(a) == [a]
  {
  }

  /** The splitter cuts at every "\n", "\r\n" and lone "\r", and nowhere
      else: "\r\n" is one break, not two. */
  lemma SplitLinesAtBreak(a: string, sep: string, rest: string)
    requires NoBreak(a) && SeparatorBefore(sep, rest)
    ensures SplitLines(a + sep + rest) == [a] + SplitLines(rest)
  {
    BreakAt(a, sep, rest);
  }

  function Concat(ls: seq<string>): string {
    if ls == [] then [] else ls[0] + Concat(ls[1..])
  }

  function DropBreaks(s: string): (r: string)
    ensures NoBreak(r)
  {
    if s == [] then []
    else if IsBreak(s[0]) then DropBreaks(s[1..])
    else [s[0]] + DropBreaks(s[1..])
  }

  lemma {:induction false} DropBreaksAppend(a: string, b: string)
    ensures DropBreaks(a + b) == DropBreaks(a) + DropBreaks(b)
    decreases |a|
  {
    if a == [] {
      assert a + b == b;
    } else {
      assert (a + b)[1..] == a[1..] + b;
      DropBreaksAppend(a[1..], b);
    }
  }

  lemma {:induction false} DropBreaksOfNoBreak(s: string)
    requires NoBreak(s)
    ensures DropBreaks(s) == s
    decreases |s|
  {
    if s != [] {
      DropBreaksOfNoBreak(s[1..]);
    }
  }

  lemma {:induction false} DropBreaksOfBreaks(s: string)
    requires forall i | 0 <= i < |s| :: IsBreak(s[i])
    ensures DropBreaks(s) == []
    decreases |s|
  {
    if s != [] {
      DropBreaksOfBreaks(s[1..]);
    }
  }

  /** Splitting loses only the break characters: gluing the pieces back
      together gives the text with every '\r' and '\n' removed. */
  lemma {:induction false} SplitLinesKeepsContent(s: string)
    ensures Concat(SplitLines(s)) == DropBreaks(s)
    decreases |s|
  {
    match FirstBreak(s)
    case None =>
      DropBreaksOfNoBreak(s);
      assert Concat([s]) == s + Concat([]);
    case Some(i) =>
      var w := BreakWidth(s, i);
      var rest := s[i + w..];
      SplitLinesKeepsContent(rest);
      assert s[..i] + s[i..] == s;
      assert s[i..] == s[i..i + w] + rest;
      DropBreaksAppend(s[..i], s[i..i + w] + rest);
      DropBreaksAppend(s[i..i + w], rest);
      DropBreaksOfNoBreak(s[..i]);
      DropBreaksOfBreaks(s[i..i + w]);
      var ls := SplitLines(s);
      assert ls == [s[..i]] + SplitLines(rest);
      assert ls[1..] == SplitLines(rest);
  }

  /** End of the first physical line: the first break, or the end of the text. */
  function LineEnd(s: string): (e: nat)
    ensures e <= |s| && NoBreak(s[..e])
    ensures e < |s| ==> IsBreak(s[e])
  {
    match FirstBreak(s)
    case None => |s|
    case Some(i) => i
  }

  /** Where the next physical line starts: past "\r\n", "\r" or "\n". */
  function NextLine(s: string): (rest: string)
    ensures |s| > 0 ==> |rest| < |s|
  {
    var e := LineEnd(s);
    if e < |s| then s[e + BreakWidth(s, e)..] else []
  }

  predicate StrippedLine(l: string) {
    l != [] && NoBreak(l) && !IsSpace(l[0]) && !IsSpace(l[|l| - 1])
  }

  lemma StripLineEnd(s: string)
    ensures var l := Strip(s[..LineEnd(s)]); l == [] || StrippedLine(l)
  {
    var p := s[..LineEnd(s)];
    StripIsMiddleSlice(p);
    var l := Strip(p);
    var i, j :| 0 <= i <= j <= |p| && l == p[i..j];
    assert forall k | 0 <= k < |l| :: l[k] == p[i + k];
  }

  /** The main loop of `m3u8_parse` (m3u8/_m3u8_parser.c:2014-2049) on an
      already trimmed text: each physical line gets the next number (the
      first line of `s` gets `last + 1`), is stripped, and is kept only when
      it is not blank. */
  function WalkLines(s: string, last: nat): (r: seq<(nat, string)>)
    ensures forall k | 0 <= k < |r| :: last < r[k].0 && StrippedLine(r[k].1)
    ensures forall k | 0 <= k < |r| - 1 :: r[k].0 < r[k + 1].0
    decreases |s|
  {
    if |s| == 0 then []
    else
      var line := Strip(s[..LineEnd(s)]);
      StripLineEnd(s);
      var head := if line == [] then [] else [(last + 1, line)];
      var tail := WalkLines(NextLine(s), last + 1);
      assert forall k | 0 <= k < |head| :: last < head[k].0 && StrippedLine(head[k].1);
      assert forall k | 0 <= k < |tail| :: last + 1 < tail[k].0;
      head + tail
  }

  /** The main loop numbers the line before a break `last + 1`, keeps it when
      it is not blank, and goes on with the next number after the break;
      "\r\n" counts as one break. */
  lemma WalkLinesAtBreak(a: string, sep: string, rest: string, last: nat)
    requires NoBreak(a) && SeparatorBefore(sep, rest)
    ensures WalkLines(a + sep + rest, last)
      == (if Strip(a) == [] then [] else [(last + 1, Strip(a))]) + WalkLines(rest, last + 1)
  {
    BreakAt(a, sep, rest);
  }

  /** A last line without a break is numbered `last + 1` and is the end of the walk. */
  lemma WalkLinesOfNoBreak(a: string, last: nat)
    requires NoBreak(a)
    ensures WalkLines(a, last) == if Strip(a) == [] then [] else [(last + 1, Strip(a))]
  {
    if a != [] {
      assert a[..LineEnd(a)] == a;
    }
  }

  /** Two stripped lines joined by one break are numbered one after the other. */
  lemma WalkTwoLines(a: string, sep: string, b: string, last: nat)
    requires StrippedLine(a) && StrippedLine(b) && SeparatorBefore(sep, b)
    ensures WalkLines(a + sep + b, last) == [(last + 1, a), (last + 2, b)]
  {
    StripOfStripped(a);
    StripOfStripped(b);
    WalkLinesAtBreak(a, sep, b, last);
    WalkLinesOfNoBreak(b, last + 1);
  }

  /** "a\r\nb" is two lines, numbered 1 and 2. */
  lemma WalkCrLf()
    ensures WalkLines("a\r\nb", 0) == [(1, "a"), (2, "b")]
  {
    assert "a\r\nb" == "a" + "\r\n" + "b";
    WalkTwoLines("a", "\r\n", "b", 0);
  }

  lemma StripOfStripped(s: string)
    requires s != [] && !IsSpace(s[0]) && !IsSpace(s[|s| - 1])
    ensures Strip(s) == s
  {
    assert TrimLeft(s) == s;
  }

  function StripAll(ls: seq<string>): (r: seq<string>)
    ensures |r| == |ls| && forall k | 0 <= k < |ls| :: r[k] == Strip(ls[k])
  {
    seq(|ls|, k requires 0 <= k < |ls| => Strip(ls[k]))
  }

  /** Number lines from `first`, dropping the empty ones but keeping their numbers. */
  function Numbered(ls: seq<string>, first: nat): (r: seq<(nat, string)>)
    ensures forall k | 0 <= k < |r| ::
      first <= r[k].0 < first + |ls| && r[k].1 == ls[r[k].0 - first] && r[k].1 != []
  {
    if ls == [] then []
    else
      var head := if ls[0] == [] then [] else [(first, ls[0])];
      var tail := Numbered(ls[1..], first + 1);
      assert forall k | 0 <= k < |tail| :: tail[k].1 == ls[tail[k].0 - first];
      head + tail
  }

  /** The main loop visits exactly the pieces of `SplitLines`, in order,
      numbering them 1, 2, ... and skipping the blank ones. */
  lemma {:induction false} WalkIsNumberedSplit(s: string, last: nat)
    ensures WalkLines(s, last) == Numbered(StripAll(SplitLines(s)), last + 1)
    decreases |s|
  {
    var ls := SplitLines(s);
    if |s| == 0 {
      assert ls == [s];
      assert Strip(s) == [];
      assert StripAll(ls)[1..] == [];
    } else {
      match FirstBreak(s)
      case None =>
        assert ls == [s];
        assert s[..LineEnd(s)] == s;
        assert StripAll(ls)[1..] == [];
      case Some(i) =>
        var rest := NextLine(s);
        WalkIsNumberedSplit(rest, last + 1);
        assert ls == [s[..i]] + SplitLines(rest);
        assert ls[1..] == SplitLines(rest);
        assert StripAll(ls)[1..] == StripAll(SplitLines(rest));
    }
  }

  /** The list `build_stripped_splitlines` (m3u8/_m3u8_parser.c:454-504)
      hands to the validator, as written: the whole text is trimmed, then
      split, and the last piece is always added, even when it is empty. */
  function SplitLinesAsWritten(content: string): seq<string> {
    SplitLines(Strip(content))
  }

  /** The same list as Python's `content.strip().splitlines()`, which the
      source comment names as the behaviour to match: no lines at all for a
      blank text. */
  function ValidatorLines(content: string): seq<string> {
    if Strip(content) == [] then [] else SplitLines(Strip(content))
  }

  /** As written, a blank playlist gives the validator one empty line although
      the main loop numbers no line at all. */
  lemma SplitLinesAsWrittenBlankInput()
    ensures SplitLinesAsWritten("") == [""]
    ensures WalkLines(Strip(""), 0) == []
  {
    assert Strip("") == "";
  }

  /** The corrected list is empty exactly for a blank text, and every line the
      main loop reports as number k is, once stripped, line k of that list. */
  lemma NumberedStripped(v: seq<string>)
    ensures var n := Numbered(StripAll(v), 1);
      forall k | 0 <= k < |n| :: 1 <= n[k].0 <= |v| && Strip(v[n[k].0 - 1]) == n[k].1
  {
    var st := StripAll(v);
    var n := Numbered(st, 1);
    forall k | 0 <= k < |n|
      ensures 1 <= n[k].0 <= |v| && Strip(v[n[k].0 - 1]) == n[k].1
    {
      var j := n[k].0 - 1;
      assert n[k].1 == st[j];
    }
  }

  lemma {:induction false} ValidatorLinesMatchLoop(content: string)
    ensures ValidatorLines(content) == [] <==> Strip(content) == []
    ensures var v := ValidatorLines(content);
      var w := WalkLines(Strip(content), 0);
      forall k | 0 <= k < |w| :: 1 <= w[k].0 <= |v| && Strip(v[w[k].0 - 1]) == w[k].1
  {
    var t := Strip(content);
    if t == [] {
      assert WalkLines(t, 0) == [];
    } else {
      WalkIsNumberedSplit(t, 0);
      NumberedStripped(SplitLines(t));
    }
  }
}

=== FILE: model.dfy ===
/** The two dictionaries the parser threads through a run: the result
    `data` it returns, and the `state` that carries values from one tag to
    the segment or playlist line they belong to.

    Python dicts with a fixed set of keys are records here. A key that may be
    absent is an `Option`; where the source stores `None` rather than leaving
    a key out, the field comment says so.
 */
module Model {
  import opened Text
  import opened AttrList
  import opened Scalars
  import opened Decoder

  /** A dict produced by the schema-aware decoder. */
  type Attrs = Assoc<Value>

  /** A dict of strings (the untyped tokenizer, possibly with quotes removed). */
  type RawAttrs = Assoc<string>

  /** `#EXT-X-BLACKOUT` with a payload stores it, without one stores `True`. */
  datatype Blackout = BlackoutFlag | BlackoutData(text: string)

  /** A partial segment (`#EXT-X-PART`). */
  datatype Part = Part(
    attrs: Attrs,
    programDateTime: Option<DateTime>,  // key absent when there is no current date
    dateranges: Option<seq<Attrs>>,     // None when no date range was pending
    gapTag: bool)                       // True or None

  /** The keys a segment collects from the tags before its URI line. */
  datatype Draft = Draft(
    duration: Option<Double>,
    title: Option<string>,
    byterange: Option<string>,
    bitrate: Option<int>,
    parts: Option<seq<Part>>)

  const EmptyDraft := Draft(None, None, None, None, None)

  /** The keys `parse_ts_chunk` adds when the URI line arrives. */
  datatype Finish = Finish(
    uri: string,
    programDateTime: Option<DateTime>,         // absent unless a date was pending
    currentProgramDateTime: Option<DateTime>,  // absent unless a running date exists
    cueIn: bool,
    cueOut: bool,
    cueOutStart: bool,
    cueOutExplicitlyDuration: bool,
    scte35: Option<Value>,                     // None when not pending
    oatclsScte35: Option<Value>,
    scte35Duration: Option<Value>,
    scte35Elapsedtime: Option<Value>,
    assetMetadata: Option<RawAttrs>,
    discontinuity: bool,
    key: Option<RawAttrs>,                     // absent for an unencrypted segment
    initSection: Option<Attrs>,                // absent unless the current map is non-empty
    dateranges: Option<seq<Attrs>>,            // None when none was pending
    gapTag: bool,                              // True or None
    blackout: Option<Blackout>)                // None when not pending

  /** A segment of `data["segments"]`: the drafted keys, and the finishing
      keys unless it is the unfinished segment appended at the end. */
  datatype Segment = Segment(draft: Draft, finish: Option<Finish>)

  /** An entry of `data["playlists"]`. */
  datatype VariantPlaylist = VariantPlaylist(uri: string, streamInfo: Attrs)

  /** An entry of `data["iframe_playlists"]` or `data["image_playlists"]`:
      the decoded attributes without their `uri`. */
  datatype StreamPlaylist = StreamPlaylist(uri: Value, info: Attrs)

  datatype Document = Document(
    mediaSequence: Option<int>,        // 0 at first, None once a variant stream is seen
    isVariant: bool,
    isEndlist: bool,
    isIFramesOnly: bool,
    isIndependentSegments: bool,
    isImagesOnly: bool,
    playlistType: Option<string>,      // None at first
    targetDuration: Option<int>,       // the optional keys are absent at first
    discontinuitySequence: Option<int>,
    version: Option<int>,
    allowCache: Option<string>,
    programDateTime: Option<DateTime>,
    start: Option<Attrs>,
    serverControl: Option<Attrs>,
    preloadHint: Option<Attrs>,
    contentSteering: Option<Attrs>,
    skip: Attrs,
    partInf: Attrs,
    playlists: seq<VariantPlaylist>,
    segments: seq<Segment>,
    iframePlaylists: seq<StreamPlaylist>,
    imagePlaylists: seq<StreamPlaylist>,
    tiles: seq<Attrs>,
    media: seq<Attrs>,
    keys: seq<Option<RawAttrs>>,       // None stands for an unencrypted stretch
    renditionReports: seq<Attrs>,
    sessionData: seq<Attrs>,
    sessionKeys: seq<RawAttrs>,
    segmentMap: seq<Attrs>)

  /** `init_parse_data` (m3u8/_m3u8_parser.c:515-578). */
  const InitDocument := Document(
    Some(0), false, false, false, false, false, None,
    None, None, None, None, None, None, None, None, None,
    [], [],
    [], [], [], [], [], [], [], [], [], [], [])

  datatype State = State(
    expectSegment: bool,
    expectPlaylist: bool,
    segment: Option<Draft>,
    programDateTime: Option<DateTime>,
    currentProgramDateTime: Option<DateTime>,
    cueIn: bool,
    cueOut: bool,
    cueOutStart: bool,
    cueOutExplicitlyDuration: bool,
    cueOutScte35: Option<Value>,
    cueOutOatclsScte35: Option<Value>,
    cueOutDuration: Option<Value>,
    cueOutElapsedtime: Option<Value>,
    assetMetadata: Option<RawAttrs>,
    discontinuity: bool,
    currentKey: Option<RawAttrs>,
    currentSegmentMap: Option<Attrs>,
    dateranges: Option<seq<Attrs>>,
    gap: bool,
    blackout: Option<Blackout>,
    streamInfo: Option<Attrs>)

  /** `init_parse_state` (m3u8/_m3u8_parser.c:588-603): only the two
      expectation flags, both false. */
  const InitState := State(
    false, false, None, None, None, false, false, false, false,
    None, None, None, None, None, false, None, None, None, false, None, None)

  /** Why a run stops with an exception. */
  datatype Cause =
    | InvalidDateTime     // datetime.fromisoformat raised
    | DateOverflow        // adding a duration to the running date raised
    | DurationNotFloat    // a part duration that is not a float (TypeError)
    | CustomParserRaised  // the custom tag parser raised, or its result has no truth value

  datatype Error =
    | ParseError(lineno: nat, line: string)  // strict mode: unknown tag, bad line, EXTINF without comma
    | Invalid(errors: seq<string>)           // strict mode: the validator reported errors
    | Raised(lineno: nat, cause: Cause)
}

=== FILE: parser.dfy ===
/** `m3u8_parse` (m3u8/_m3u8_parser.c:1899-2553): the validator in strict
    mode, the walk over the numbered lines, and the segment still being
    drafted when the lines run out.
 */
module Parser {
  import opened Text
  import opened Lines
  import opened AttrList
  import opened Scalars
  import opened Decoder
  import opened Model
  import opened Handlers
  import opened Dispatch
  import Schemas

  /** Lines as the main loop hands them on: numbered and not blank. */
  predicate LoopLines(lines: seq<(nat, string)>) {
    forall k | 0 <= k < |lines| :: lines[k].1 != []
  }

  /** The loop over the lines: each line in turn, stopping at the first
      error. An error belongs to one of the lines. */
  function Run(env: Env, doc: Document, st: State, lines: seq<(nat, string)>)
    : (r: Result<(Document, State), Error>)
    requires LoopLines(lines)
    ensures r.Err? ==>
      exists k | 0 <= k < |lines| :: LineError(r.error, env.strict, lines[k].0, lines[k].1)
    decreases |lines|
  {
    if lines == [] then Ok((doc, st))
    else
      match Step(env, doc, st, lines[0].0, lines[0].1)
      case Err(e) => Err(e)
      case Ok(next) =>
        var rest := lines[1..];
        var r := Run(env, next.0, next.1, rest);
        assert r.Err? ==> exists k | 0 <= k < |rest| :: LineError(r.error, env.strict, rest[k].0, rest[k].1);
        assert forall k | 0 <= k < |rest| :: rest[k] == lines[k + 1];
        r
  }

  /** The segment still being drafted at the end is appended without its
      finishing keys (m3u8/_m3u8_parser.c:2544-2549). */
  function Flush(doc: Document, st: State): (d: Document)
    ensures st.segment.None? ==> d == doc
    ensures st.segment.Some? ==>
      |d.segments| == |doc.segments| + 1 && d.segments[..|doc.segments|] == doc.segments
      && d.segments[|doc.segments|] == Segment(st.segment.value, None)
    ensures d.(segments := doc.segments) == doc
  {
    match st.segment
    case None => doc
    case Some(draft) => doc.(segments := doc.segments + [Segment(draft, None)])
  }

  /** The errors the validator reports, consulted in strict mode only. The
      validator sees the corrected list of lines, which differs from the
      list `build_stripped_splitlines` builds only for a blank text. */
  function Validation(env: Env, content: string): (r: seq<string>)
    ensures !env.strict ==> r == []
    ensures env.strict && Strip(content) != [] ==> r == env.validate(SplitLinesAsWritten(content))
    ensures env.strict && Strip(content) == [] ==> r == env.validate([])
  {
    if env.strict then env.validate(ValidatorLines(content)) else []
  }

  /** The lines of the text, as the main loop numbers and strips them. */
  function LinesOf(content: string): (lines: seq<(nat, string)>)
    ensures LoopLines(lines)
  {
    WalkLines(Strip(content), 0)
  }

  /** The run over the lines and the final append of a leftover draft. An
      error belongs to one of the lines. */
  function ParseLines(env: Env, content: string): (r: Result<Document, Error>)
    ensures r.Err? ==>
      exists k | 0 <= k < |LinesOf(content)| ::
        LineError(r.error, env.strict, LinesOf(content)[k].0, LinesOf(content)[k].1)
  {
    match Run(env, InitDocument, InitState, LinesOf(content))
    case Err(e) => Err(e)
    case Ok(r) => Ok(Flush(r.0, r.1))
  }

  /** `parse(content, strict, custom_tags_parser)`. */
  function Parse(env: Env, content: string): (r: Result<Document, Error>)
    ensures (r.Err? && r.error.Invalid?) <==> env.strict && env.validate(ValidatorLines(content)) != []
    ensures r.Err? && r.error.Invalid? ==> r.error.errors == env.validate(ValidatorLines(content))
    ensures r.Err? ==> r.error.Raised? || env.strict
  {
    var errors := Validation(env, content);
    if errors != [] then Err(Invalid(errors)) else ParseLines(env, content)
  }

  // ---------------------------------------------------------------------
  // Properties of a whole run

  lemma ExtendsTrans(a: seq<Segment>, b: seq<Segment>, c: seq<Segment>)
    requires Extends(a, b) && Extends(b, c)
    ensures Extends(a, c)
  {
    assert c[..|a|] == c[..|b|][..|a|];
    forall i | |a| <= i < |c| ensures c[i].finish.Some? {
      if i < |b| {
        assert c[i] == b[i] == b[|a|..][i - |a|];
      } else {
        assert c[i] == c[|b|..][i - |b|];
      }
    }
  }

  /** Without a custom tag parser, a run only appends segments, and only
      finished ones, and it never lists a key twice. */
  lemma {:induction false} RunExtends(env: Env, doc: Document, st: State, lines: seq<(nat, string)>)
    requires env.hook.None? && LoopLines(lines)
    ensures var r := Run(env, doc, st, lines);
      r.Ok? ==>
        Extends(doc.segments, r.value.0.segments)
        && (DistinctKeys(doc.keys) ==> DistinctKeys(r.value.0.keys))
    decreases |lines|
  {
    if lines != [] {
      match Step(env, doc, st, lines[0].0, lines[0].1)
      case Err(_) =>
      case Ok(next) =>
        var rest := lines[1..];
        RunExtends(env, next.0, next.1, rest);
        var r := Run(env, next.0, next.1, rest);
        if r.Ok? {
          ExtendsTrans(doc.segments, next.0.segments, r.value.0.segments);
        }
    } else {
      assert doc.segments[|doc.segments|..] == [];
    }
  }

  /** Without a custom tag parser, every segment of the result but the last
      has its finishing keys, the last lacks them exactly when a draft was
      left over, and the key list has no duplicates. */
  lemma ParseShape(env: Env, content: string)
    requires env.hook.None?
    ensures var r := Parse(env, content);
      r.Ok? ==>
        DistinctKeys(r.value.keys)
        && forall i | 0 <= i < |r.value.segments| - 1 :: r.value.segments[i].finish.Some?
  {
    if Validation(env, content) == [] {
      var lines := LinesOf(content);
      RunExtends(env, InitDocument, InitState, lines);
      var run := Run(env, InitDocument, InitState, lines);
      if run.Ok? {
        var segs := run.value.0.segments;
        assert segs[0..] == segs;
        FlushKeepsFinished(run.value.0, run.value.1);
      }
    }
  }

  lemma FlushKeepsFinished(doc: Document, st: State)
    requires Finished(doc.segments)
    ensures var d := Flush(doc, st);
      d.keys == doc.keys && forall i | 0 <= i < |d.segments| - 1 :: d.segments[i].finish.Some?
  {
    var d := Flush(doc, st);
    assert forall i | 0 <= i < |d.segments| - 1 :: d.segments[i] == doc.segments[i];
  }

  /** A parse error names a line of the list the validator saw: its number,
      counted from 1, and its text once stripped. An exception raised while
      parsing names a line too. */
  lemma ParseErrorLocated(env: Env, content: string)
    ensures var r := Parse(env, content);
      var v := ValidatorLines(content);
      r.Err? && r.error.ParseError? ==>
        env.strict && 1 <= r.error.lineno <= |v| && Strip(v[r.error.lineno - 1]) == r.error.line
    ensures var r := Parse(env, content);
      r.Err? && r.error.Raised? ==> 1 <= r.error.lineno <= |ValidatorLines(content)|
  {
    var r := Parse(env, content);
    if r.Err? && !r.error.Invalid? {
      assert r == ParseLines(env, content);
      ParseLinesErrorLocated(env, content);
    }
  }

  /** The same for the line loop alone, before validation is considered. */
  lemma ParseLinesErrorLocated(env: Env, content: string)
    ensures var r := ParseLines(env, content);
      r.Err? ==> ErrorLocated(r.error, env.strict, ValidatorLines(content))
  {
    var r := ParseLines(env, content);
    if r.Err? {
      LoopErrorLocated(content, r.error, env.strict);
    }
  }

  /** `e` names a line of `v` by its 1-based number, and a `ParseError`
      carries that line, stripped, and happens only in strict mode. */
  predicate ErrorLocated(e: Error, strict: bool, v: seq<string>) {
    !e.Invalid? && 1 <= e.lineno <= |v| && (e.ParseError? ==> strict && Strip(v[e.lineno - 1]) == e.line)
  }

  /** An error raised at some line of the loop is located in the validator's
      list of lines. */
  lemma LoopErrorLocated(content: string, e: Error, strict: bool)
    requires exists k | 0 <= k < |WalkLines(Strip(content), 0)| ::
      LineError(e, strict, WalkLines(Strip(content), 0)[k].0, WalkLines(Strip(content), 0)[k].1)
    ensures ErrorLocated(e, strict, ValidatorLines(content))
  {
    var lines := WalkLines(Strip(content), 0);
    var k :| 0 <= k < |lines| && LineError(e, strict, lines[k].0, lines[k].1);
    LoopLineLocated(content, k);
  }

  /** Line `k` of the loop is line `lines[k].0` of the validator's list. */
  lemma LoopLineLocated(content: string, k: nat)
    requires k < |WalkLines(Strip(content), 0)|
    ensures var v := ValidatorLines(content);
      var l := WalkLines(Strip(content), 0)[k];
      1 <= l.0 <= |v| && Strip(v[l.0 - 1]) == l.1
  {
    ValidatorLinesMatchLoop(content);
  }

  /** A blank playlist gives the initial document, unless strict mode's
      validator rejects the empty list of lines. */
  lemma BlankPlaylist(env: Env, content: string)
    requires Strip(content) == []
    ensures ValidatorLines(content) == []
    ensures Parse(env, content) ==
      if env.strict && env.validate([]) != [] then Err(Invalid(env.validate([])))
      else Ok(InitDocument)
  {
    assert LinesOf(content) == [];
  }

  // ---------------------------------------------------------------------
  // Properties of short line sequences

  /** The run over a non-empty list is its first step, then the run over
      the rest. */
  lemma RunFirst(env: Env, doc: Document, st: State, lines: seq<(nat, string)>)
    requires LoopLines(lines) && lines != []
    ensures var first := Step(env, doc, st, lines[0].0, lines[0].1);
      first.Ok? ==> Run(env, doc, st, lines) == Run(env, first.value.0, first.value.1, lines[1..])
  {
  }

  /** Two lines run one after the other. */
  lemma RunTwo(env: Env, doc: Document, st: State, a: (nat, string), b: (nat, string))
    requires a.1 != [] && b.1 != []
    ensures var first := Step(env, doc, st, a.0, a.1);
      first.Ok? ==> Run(env, doc, st, [a, b]) == Step(env, first.value.0, first.value.1, b.0, b.1)
  {
    var lines: seq<(nat, string)> := [a, b];
    var first := Step(env, doc, st, a.0, a.1);
    if first.Ok? {
      RunFirst(env, doc, st, lines);
      assert lines[1..] == [b];
      var d := first.value.0;
      var s := first.value.1;
      RunFirst(env, d, s, [b]);
      assert [b][1..] == [];
      var second := Step(env, d, s, b.0, b.1);
      if second.Ok? {
        assert Run(env, second.value.0, second.value.1, []) == Ok(second.value);
      }
    }
  }

  /** A line that is an integer tag with a payload sets that field to the
      parsed payload; a payload that does not parse changes nothing. */
  lemma NumberTagLine(env: Env, doc: Document, st: State, tag: string, v: string, k: nat)
    requires env.hook.None? && tag in NumberTags
    ensures var r := Step(env, doc, st, k, tag + ":" + v);
      r.Ok? && r.value.1 == st
      && (env.numerics.parseInt(v).None? ==> r.value.0 == doc)
      && (env.numerics.parseInt(v).Some? ==> NumberField(r.value.0, tag) == env.numerics.parseInt(v))
  {
    var line := tag + ":" + v;
    NumberTagOfLine(tag, v, doc, env.numerics);
    StepOfTagLine(env, doc, st, k, line);
    TagLineOfDocumentTag(env, doc, st, k, line);
  }

  /** An `#EXTINF` line drafts a segment with its title and duration and
      makes a URI expected. */
  lemma ExtinfLine(env: Env, doc: Document, st: State, d: string, t: string, k: nat)
    requires env.hook.None? && ',' !in d
    ensures var r := Step(env, doc, st, k, Schemas.ExtInf + ":" + d + "," + t);
      r.Ok? && r.value.0 == doc
      && var s := r.value.1;
      s.expectSegment && s.segment.Some? && s.currentProgramDateTime == st.currentProgramDateTime
      && s.segment.value.title == Some(t)
      && s.segment.value.duration == Some(OrZero(env.numerics.parseDouble(Take(d, DurationBuffer - 1))))
  {
    var line := Schemas.ExtInf + ":" + d + "," + t;
    assert line == Schemas.ExtInf + ":" + (d + "," + t);
    TagOfTagLine(Schemas.ExtInf, d + "," + t);
    ExtinfRoundTrip(d, t, st, env.numerics, env.strict, k);
    assert line[0] == '#';
    StepOfTagLine(env, doc, st, k, line);
    TagLineOfExtinf(env, doc, st, k, line);
  }

  /** `#EXTINF:<d>,<t>` followed by a URI gives a finished segment with that
      title, the duration read from `d`, and that URI. */
  lemma ExtinfThenUri(env: Env, doc: Document, st: State, d: string, t: string, uri: string, k: nat)
    requires env.hook.None? && ',' !in d && uri != [] && uri[0] != '#'
    requires st.currentProgramDateTime.None?
    ensures var lines := [(k, Schemas.ExtInf + ":" + d + "," + t), (k + 1, uri)];
      var r := Run(env, doc, st, lines);
      r.Ok?
      && var segs := r.value.0.segments;
      |segs| == |doc.segments| + 1 && segs[..|doc.segments|] == doc.segments
      && segs[|doc.segments|].draft.title == Some(t)
      && segs[|doc.segments|].draft.duration
         == Some(OrZero(env.numerics.parseDouble(Take(d, DurationBuffer - 1))))
      && segs[|doc.segments|].finish.Some? && segs[|doc.segments|].finish.value.uri == uri
  {
    var line := Schemas.ExtInf + ":" + d + "," + t;
    ExtinfLine(env, doc, st, d, t, k);
    var s1 := Step(env, doc, st, k, line).value.1;
    RunTwo(env, doc, st, (k, line), (k + 1, uri));
    assert Step(env, doc, s1, k + 1, uri) == UriLine(env, doc, s1, k + 1, uri);
    assert UriLine(env, doc, s1, k + 1, uri) == FinishSegment(uri, doc, s1, env.clock, k + 1);
  }

  /** `#EXT-X-STREAM-INF:<attributes>` followed by a URI, while no segment
      is expected, gives a variant playlist carrying the decoded attributes,
      and marks the playlist as a variant without a media sequence. */
  lemma StreamInfThenUri(env: Env, doc: Document, st: State, a: string, uri: string, k: nat)
    requires env.hook.None? && uri != [] && uri[0] != '#' && !st.expectSegment
    ensures var lines := [(k, Schemas.StreamInf + ":" + a), (k + 1, uri)];
      var r := Run(env, doc, st, lines);
      r.Ok?
      && var d := r.value.0;
      d.isVariant && d.mediaSequence.None? && d.segments == doc.segments
      && |d.playlists| == |doc.playlists| + 1
      && d.playlists[|doc.playlists|]
         == VariantPlaylist(uri, TypedAttributes(Schemas.StreamInfSchema, env.numerics, a))
      && !r.value.1.expectPlaylist && r.value.1.streamInfo.None?
  {
    var line := Schemas.StreamInf + ":" + a;
    TagOfTagLine(Schemas.StreamInf, a);
    ColonAfterTag(Schemas.StreamInf, a);
    assert line[0] == '#';
    TagLineOfStreamInf(env, doc, st, k, line);
    var s1 := StreamInfTag(line, doc, st, env.numerics);
    assert Step(env, doc, st, k, line) == Ok(s1);
    RunTwo(env, doc, st, (k, line), (k + 1, uri));
    assert Step(env, s1.0, s1.1, k + 1, uri) == UriLine(env, s1.0, s1.1, k + 1, uri);
    assert UriLine(env, s1.0, s1.1, k + 1, uri) == Ok(AddVariantPlaylist(uri, s1.0, s1.1));
  }
}

=== FILE: scalars.dfy ===
/** The host-language values the parser produces besides strings: C doubles,
    Python integers obtained from them, and datetimes.

    Parsing numbers and dates is done by the Python runtime
    (`PyLong_FromString`, `PyOS_string_to_double`, `datetime.fromisoformat`,
    adding a `timedelta`); the model receives those as functions in a
    `Numerics` or `Clock` record, and proves its results for every choice of
    them.
 */
module Scalars {
  import opened Text

  /** An IEEE double, with its value kept exactly when finite. */
  datatype Double = Finite(x: real) | Inf(negative: bool) | NaN

  /** `PyLong_FromDouble`: truncation toward zero; infinities and NaN have
      no integer value. */
  function Truncate(d: Double): (r: Option<int>)
    ensures r.Some? <==> d.Finite?
    ensures r.Some? && d.x >= 0.0 ==> 0 <= r.value && r.value as real <= d.x < r.value as real + 1.0
    ensures r.Some? && d.x < 0.0 ==> r.value <= 0 && r.value as real - 1.0 < d.x <= r.value as real
  {
    match d
    case Finite(x) => Some(if x >= 0.0 then x.Floor else -((-x).Floor))
    case _ => None
  }

  /** Truncation keeps integers and is symmetric about zero (unlike floor). */
  lemma TruncateProperties(n: int, x: real)
    ensures Truncate(Finite(n as real)) == Some(n)
    ensures Truncate(Finite(-x)).value == -Truncate(Finite(x)).value
  {
  }

  /** The parsing services of the Python runtime. Each answers `None` where
      the runtime raises and the parser clears the error. */
  datatype Numerics = Numerics(
    parseInt: string -> Option<int>,        // PyLong_FromString(s, NULL, 10)
    parseDouble: string -> Option<Double>)  // PyOS_string_to_double(s, NULL, NULL)

  /** A `datetime.datetime` object. */
  type DateTime(==)

  datatype Clock = Clock(
    fromIsoFormat: string -> Option<DateTime>,        // datetime.fromisoformat
    addSeconds: (DateTime, Double) -> Option<DateTime>)  // dt + timedelta(seconds=d)
}

=== FILE: schemas.dfy ===
/** Tag names (m3u8/_m3u8_parser.c:83-124) and the per-tag attribute
    schemas of the decoder (m3u8/_m3u8_parser.c:1121-1294). */
module Schemas {
  import opened Decoder

  const ExtM3U := "#EXTM3U"
  const TargetDuration := "#EXT-X-TARGETDURATION"
  const MediaSequence := "#EXT-X-MEDIA-SEQUENCE"
  const DiscontinuitySequence := "#EXT-X-DISCONTINUITY-SEQUENCE"
  const ProgramDateTime := "#EXT-X-PROGRAM-DATE-TIME"
  const Media := "#EXT-X-MEDIA"
  const PlaylistType := "#EXT-X-PLAYLIST-TYPE"
  const Key := "#EXT-X-KEY"
  const StreamInf := "#EXT-X-STREAM-INF"
  const Version := "#EXT-X-VERSION"
  const AllowCache := "#EXT-X-ALLOW-CACHE"
  const Endlist := "#EXT-X-ENDLIST"
  const ExtInf := "#EXTINF"
  const IFramesOnly := "#EXT-X-I-FRAMES-ONLY"
  const Asset := "#EXT-X-ASSET"
  const Bitrate := "#EXT-X-BITRATE"
  const Byterange := "#EXT-X-BYTERANGE"
  const IFrameStreamInf := "#EXT-X-I-FRAME-STREAM-INF"
  const Discontinuity := "#EXT-X-DISCONTINUITY"
  const CueOut := "#EXT-X-CUE-OUT"
  const CueOutCont := "#EXT-X-CUE-OUT-CONT"
  const CueIn := "#EXT-X-CUE-IN"
  const CueSpan := "#EXT-X-CUE-SPAN"
  const OatclsScte35 := "#EXT-OATCLS-SCTE35"
  const IndependentSegments := "#EXT-X-INDEPENDENT-SEGMENTS"
  const Map := "#EXT-X-MAP"
  const Start := "#EXT-X-START"
  const ServerControl := "#EXT-X-SERVER-CONTROL"
  const PartInf := "#EXT-X-PART-INF"
  const Part := "#EXT-X-PART"
  const RenditionReport := "#EXT-X-RENDITION-REPORT"
  const Skip := "#EXT-X-SKIP"
  const SessionData := "#EXT-X-SESSION-DATA"
  const SessionKey := "#EXT-X-SESSION-KEY"
  const PreloadHint := "#EXT-X-PRELOAD-HINT"
  const DateRange := "#EXT-X-DATERANGE"
  const Gap := "#EXT-X-GAP"
  const ContentSteering := "#EXT-X-CONTENT-STEERING"
  const ImageStreamInf := "#EXT-X-IMAGE-STREAM-INF"
  const ImagesOnly := "#EXT-X-IMAGES-ONLY"
  const Tiles := "#EXT-X-TILES"
  const Blackout := "#EXT-X-BLACKOUT"

  const StreamInfSchema: Schema := [
    ("codecs", QuotedKind), ("audio", QuotedKind), ("video", QuotedKind),
    ("video_range", QuotedKind), ("subtitles", QuotedKind), ("pathway_id", QuotedKind),
    ("stable_variant_id", QuotedKind), ("program_id", IntKind), ("bandwidth", BandwidthKind),
    ("average_bandwidth", IntKind), ("frame_rate", FloatKind), ("hdcp_level", StringKind)]

  const MediaSchema: Schema := [
    ("uri", QuotedKind), ("group_id", QuotedKind), ("language", QuotedKind),
    ("assoc_language", QuotedKind), ("name", QuotedKind), ("instream_id", QuotedKind),
    ("characteristics", QuotedKind), ("channels", QuotedKind),
    ("stable_rendition_id", QuotedKind), ("thumbnails", QuotedKind), ("image", QuotedKind)]

  const PartSchema: Schema := [
    ("uri", QuotedKind), ("duration", FloatKind), ("independent", StringKind),
    ("gap", StringKind), ("byterange", StringKind)]

  const RenditionReportSchema: Schema := [
    ("uri", QuotedKind), ("last_msn", IntKind), ("last_part", IntKind)]

  const SkipSchema: Schema := [
    ("recently_removed_dateranges", QuotedKind), ("skipped_segments", IntKind)]

  const ServerControlSchema: Schema := [
    ("can_block_reload", StringKind), ("hold_back", FloatKind), ("part_hold_back", FloatKind),
    ("can_skip_until", FloatKind), ("can_skip_dateranges", StringKind)]

  const PartInfSchema: Schema := [("part_target", FloatKind)]

  const PreloadHintSchema: Schema := [
    ("uri", QuotedKind), ("type", StringKind), ("byterange_start", IntKind),
    ("byterange_length", IntKind)]

  const DateRangeSchema: Schema := [
    ("id", QuotedKind), ("class", QuotedKind), ("start_date", QuotedKind),
    ("end_date", QuotedKind), ("duration", FloatKind), ("planned_duration", FloatKind),
    ("end_on_next", StringKind), ("scte35_cmd", StringKind), ("scte35_out", StringKind),
    ("scte35_in", StringKind)]

  const SessionDataSchema: Schema := [
    ("data_id", QuotedKind), ("value", QuotedKind), ("uri", QuotedKind), ("language", QuotedKind)]

  const ContentSteeringSchema: Schema := [("server_uri", QuotedKind), ("pathway_id", QuotedKind)]

  const MapSchema: Schema := [("uri", QuotedKind), ("byterange", QuotedKind)]

  const StartSchema: Schema := [("time_offset", FloatKind)]

  const TilesSchema: Schema := [
    ("uri", QuotedKind), ("resolution", StringKind), ("layout", StringKind),
    ("duration", FloatKind)]

  const ImageStreamInfSchema: Schema := [
    ("codecs", QuotedKind), ("uri", QuotedKind), ("pathway_id", QuotedKind),
    ("stable_variant_id", QuotedKind), ("program_id", IntKind), ("bandwidth", IntKind),
    ("average_bandwidth", IntKind), ("resolution", StringKind)]

  const IFrameStreamInfSchema: Schema := [
    ("codecs", QuotedKind), ("uri", QuotedKind), ("pathway_id", QuotedKind),
    ("stable_variant_id", QuotedKind), ("program_id", IntKind), ("bandwidth", IntKind),
    ("average_bandwidth", IntKind), ("hdcp_level", StringKind)]

  const CueOutContSchema: Schema := [
    ("duration", QuotedKind), ("elapsedtime", QuotedKind), ("scte35", QuotedKind)]

  const CueOutSchema: Schema := [("cue", QuotedKind)]
}

=== FILE: text.dfy ===
/** Character classes and small string operations shared by the whole parser.

    The parser works on C strings in the "C" locale, so whitespace is the six
    ASCII characters accepted by `isspace` and case mapping touches only the
    ASCII letters (`tolower`, `toupper`).
 */
module Text {

  datatype Option<+T> = None | Some(value: T)

  datatype Result<+T, +E> = Ok(value: T) | Err(error: E)

  /** `isspace` in the C locale: space, and \t \n \v \f \r (codes 9 to 13). */
  predicate IsSpace(c: char) {
    c == ' ' || 9 <= c as int <= 13
  }

  predicate IsUpperAscii(c: char) {
    'A' <= c <= 'Z'
  }

  function ToLower(c: char): (r: char)
    ensures !IsUpperAscii(r)
    ensures IsUpperAscii(c) ==> r as int == c as int + 32
    ensures !IsUpperAscii(c) ==> r == c
  {
    if IsUpperAscii(c) then (c as int + 32) as char else c
  }

  function ToUpper(c: char): (r: char)
    ensures !('a' <= r <= 'z')
    ensures 'a' <= c <= 'z' ==> r as int == c as int - 32
    ensures !('a' <= c <= 'z') ==> r == c
  {
    if 'a' <= c <= 'z' then (c as int - 32) as char else c
  }

  function Lower(s: string): (r: string)
    ensures |r| == |s|
    ensures forall i | 0 <= i < |s| :: r[i] == ToLower(s[i])
  {
    seq(|s|, i requires 0 <= i < |s| => ToLower(s[i]))
  }

  function Upper(s: string): (r: string)
    ensures |r| == |s|
    ensures forall i | 0 <= i < |s| :: r[i] == ToUpper(s[i])
  {
    seq(|s|, i requires 0 <= i < |s| => ToUpper(s[i]))
  }

  predicate AllSpace(s: string) {
    forall i | 0 <= i < |s| :: IsSpace(s[i])
  }

  /** Drop leading whitespace. Its properties are stated by `TrimLeftSpec`
      rather than as postconditions, so that a mention of `Strip` does not
      bring quantified facts into every proof. */
  function TrimLeft(s: string): string {
    if |s| > 0 && IsSpace(s[0]) then TrimLeft(s[1..]) else s
  }

  /** `o` when it holds a value, otherwise `d`. */
  function OrElse<T>(o: Option<T>, d: Option<T>): Option<T> {
    if o.Some? then o else d
  }

  /** `v` while `keep` holds, otherwise nothing. */
  function KeepIf<T>(keep: bool, v: Option<T>): Option<T> {
    if keep then v else None
  }

  /** The value held by `o`, or `d`. */
  function ValueOr<T>(o: Option<T>, d: T): T {
    if o.Some? then o.value else d
  }

  /** Drop trailing whitespace. */
  function TrimRight(s: string): string {
    if |s| > 0 && IsSpace(s[|s| - 1]) then TrimRight(s[..|s| - 1]) else s
  }

  /** `strip` (m3u8/_m3u8_parser.c:374): whitespace removed at both ends. */
  function Strip(s: string): (r: string)
    ensures |r| <= |s|
    ensures r == [] || (!IsSpace(r[0]) && !IsSpace(r[|r| - 1]))
  {
    var l := TrimLeft(s);
    TrimLeftSpec(s);
    TrimRightSpec(l);
    var r := TrimRight(l);
    assert r != [] ==> r[0] == l[0];
    r
  }

  lemma {:induction false} TrimLeftSpec(s: string)
    ensures var r := TrimLeft(s);
      |r| <= |s| && r == s[|s| - |r|..] && AllSpace(s[..|s| - |r|]) && (r == [] || !IsSpace(r[0]))
    decreases |s|
  {
    if |s| > 0 && IsSpace(s[0]) {
      TrimLeftSpec(s[1..]);
      var r := TrimLeft(s);
      var n := |s| - |r|;
      assert forall i | 1 <= i < n :: s[i] == s[1..][..n - 1][i - 1];
    }
  }

  lemma {:induction false} TrimRightSpec(s: string)
    ensures var r := TrimRight(s);
      |r| <= |s| && r == s[..|r|] && AllSpace(s[|r|..]) && (r == [] || !IsSpace(r[|r| - 1]))
    decreases |s|
  {
    if |s| > 0 && IsSpace(s[|s| - 1]) {
      var p := s[..|s| - 1];
      TrimRightSpec(p);
      var r := TrimRight(s);
      assert r == TrimRight(p);
      assert forall i | |r| <= i < |s| - 1 :: s[i] == p[|r|..][i - |r|];
    }
  }

  /** Strip keeps a contiguous middle slice and removes only whitespace around it. */
  lemma StripIsMiddleSlice(s: string)
    ensures var r := Strip(s);
      exists i, j :: 0 <= i <= j <= |s| && r == s[i..j] && AllSpace(s[..i]) && AllSpace(s[j..])
    ensures var r := Strip(s); r == [] || (!IsSpace(r[0]) && !IsSpace(r[|r| - 1]))
  {
    var l := TrimLeft(s);
    TrimLeftSpec(s);
    TrimRightSpec(l);
    var r := TrimRight(l);
    var i := |s| - |l|;
    var j := i + |r|;
    assert r == s[i..j];
    assert s[j..] == l[|r|..];
  }

  lemma StripIdempotent(s: string)
    ensures Strip(Strip(s)) == Strip(s)
  {
    StripIsMiddleSlice(s);
    var r := Strip(s);
    assert TrimLeft(r) == r;
    assert TrimRight(r) == r;
  }

  function Min(a: int, b: int): int {
    if a <= b then a else b
  }

  /** The first `n` characters, or all of them if there are fewer: the effect of
      copying a string into a fixed buffer of `n + 1` bytes. */
  function Take(s: string, n: nat): (r: string)
    ensures |r| == Min(|s|, n) && r == s[..|r|]
  {
    if |s| <= n then s else s[..n]
  }

  predicate StartsWith(s: string, prefix: string) {
    |prefix| <= |s| && s[..|prefix|] == prefix
  }

  /** `strstr(s, pat) != NULL`. */
  predicate Contains(s: string, pat: string) {
    StartsWith(s, pat) || (|s| > 0 && Contains(s[1..], pat))
  }

  /** `strchr(s, c)` as an index: the first occurrence of `c`. */
  function IndexOf(s: string, c: char): (r: Option<nat>)
    ensures r.None? <==> c !in s
    ensures r.Some? ==> r.value < |s| && s[r.value] == c && c !in s[..r.value]
  {
    if |s| == 0 then None
    else if s[0] == c then Some(0)
    else match IndexOf(s[1..], c)
      case None => None
      case Some(i) => Some(i + 1)
  }
}

=== FILE: tokenizer.dfy ===
/** The attribute-list tokenizer shared by every tag with a `KEY=value,...`
    payload (`parse_attribute_list_raw`, m3u8/_m3u8_parser.c:716-815, and the
    identical walk inside `parse_attributes_with_schema`).

    A payload is a run of tokens separated by whitespace and commas. A token
    is a key (the text up to the next '=' or ','), then either '=' and a
    value, or nothing. A value that opens with a quote runs to the next
    occurrence of the same quote, with no escapes; any other value runs to the
    next comma and loses its trailing whitespace. A token without '=' is
    stored under the empty name with its own text as the value.
 */
module Tokenizer {
  import opened Text
  import opened AttrList

  predicate IsSeparator(c: char) {
    IsSpace(c) || c == ','
  }

  predicate IsQuote(c: char) {
    c == '"' || c == '\''
  }

  predicate IsKeyStop(c: char) {
    c == '=' || c == ','
  }

  /** The test "is the character `c`", as a value that `FirstWhere` takes. */
  function Is(c: char): char -> bool {
    x => x == c
  }

  /** Position of the first character satisfying `stop`, or the length. */
  function FirstWhere(s: string, stop: char -> bool): (e: nat)
    ensures e <= |s|
    ensures forall i | 0 <= i < e :: !stop(s[i])
    ensures e < |s| ==> stop(s[e])
  {
    if s == [] then 0
    else if stop(s[0]) then 0
    else 1 + FirstWhere(s[1..], stop)
  }

  /** The postconditions of `FirstWhere` determine it: a pointer advanced
      while `!stop` ends exactly there. */
  lemma FirstWhereUnique(s: string, stop: char -> bool, e: nat)
    requires e <= |s|
    requires forall i | 0 <= i < e :: !stop(s[i])
    requires e < |s| ==> stop(s[e])
    ensures e == FirstWhere(s, stop)
  {
    var f := FirstWhere(s, stop);
    assert f < |s| ==> stop(s[f]);
  }

  /** `create_normalized_key` (m3u8/_m3u8_parser.c:644-690) without the
      whitespace trimming: '-' becomes '_', every other character goes through
      `tolower`. */
  function KeyChars(s: string): (r: string)
    ensures |r| == |s|
    ensures forall i | 0 <= i < |s| :: r[i] == if s[i] == '-' then '_' else ToLower(s[i])
  {
    seq(|s|, i requires 0 <= i < |s| => if s[i] == '-' then '_' else ToLower(s[i]))
  }

  /** `create_normalized_key`: leading whitespace skipped, characters mapped,
      trailing whitespace dropped. */
  function NormalizeKey(s: string): (r: string)
    ensures |r| <= |s| && NormalKey(r)
  {
    NormalKeyOfTrimmed(s);
    TrimRight(KeyChars(TrimLeft(s)))
  }

  predicate NormalKey(k: string) {
    (forall i | 0 <= i < |k| :: k[i] != '-' && !IsUpperAscii(k[i]))
    && (k == [] || (!IsSpace(k[0]) && !IsSpace(k[|k| - 1])))
  }

  lemma KeyCharsSpace(s: string, i: nat)
    requires i < |s|
    ensures IsSpace(KeyChars(s)[i]) <==> IsSpace(s[i])
  {
  }

  lemma NormalKeyOfTrimmed(s: string)
    ensures var k := TrimRight(KeyChars(TrimLeft(s)));
      |k| <= |s| && NormalKey(k)
  {
    var l := TrimLeft(s);
    TrimLeftSpec(s);
    var m := KeyChars(l);
    var k := TrimRight(m);
    TrimRightSpec(m);
    assert k == m[..|k|];
    forall i | 0 <= i < |k| ensures k[i] != '-' && !IsUpperAscii(k[i]) {
      assert k[i] == m[i];
    }
    if k != [] {
      assert k[0] == m[0];
      KeyCharsSpace(l, 0);
      assert !IsSpace(k[0]);
    }
  }

  /** A normalized key has no '-', no upper-case letter and no whitespace at
      either end, and normalizing it again changes nothing. */
  lemma NormalizeKeyShape(s: string)
    ensures NormalKey(NormalizeKey(s))
    ensures NormalizeKey(NormalizeKey(s)) == NormalizeKey(s)
  {
    NormalKeyFixed(NormalizeKey(s));
  }

  lemma NormalKeyFixed(k: string)
    requires NormalKey(k)
    ensures NormalizeKey(k) == k
  {
    assert TrimLeft(k) == k;
    var m := KeyChars(k);
    assert m == k;
    assert TrimRight(m) == m;
  }

  /** An attribute name written in capitals, as the tags write them, is
      stored under its lower-case form. */
  lemma NormalizeKeyOfCapitals(k: string)
    requires forall i | 0 <= i < |k| :: IsUpperAscii(k[i])
    ensures NormalizeKey(k) == Lower(k)
  {
    assert TrimLeft(k) == k;
    assert KeyChars(k) == Lower(k);
    assert TrimRight(Lower(k)) == Lower(k);
  }

  /** `remove_quotes` (m3u8/_m3u8_parser.c:693-702). */
  function RemoveQuotes(s: string): (r: string)
    ensures r == s || (|s| >= 2 && IsQuote(s[0]) && s == [s[0]] + r + [s[0]])
  {
    if |s| >= 2 && ((s[0] == '"' && s[|s| - 1] == '"') || (s[0] == '\'' && s[|s| - 1] == '\''))
    then s[1..|s| - 1]
    else s
  }

  /** Removing quotes undoes quoting with either quote character, and leaves
      a text alone unless both of its ends hold the same quote. */
  lemma RemoveQuotesInverse(q: char, x: string, s: string)
    requires IsQuote(q)
    ensures RemoveQuotes([q] + x + [q]) == x
    ensures (|s| < 2 || s[0] != s[|s| - 1] || !IsQuote(s[0])) ==> RemoveQuotes(s) == s
  {
    var t := [q] + x + [q];
    assert t[1..|t| - 1] == x;
  }

  datatype TokenValue =
    | Quoted(quote: char, inner: string, closed: bool)
    | Unquoted(text: string)
    | Bare

  /** One token: the key text as it stands in the line (up to '=' or ','),
      and what followed it. */
  datatype Token = Token(keyText: string, value: TokenValue)

  function SkipSeparators(s: string): (r: string)
    ensures |r| <= |s|
    ensures r == [] || !IsSeparator(r[0])
  {
    if s != [] && IsSeparator(s[0]) then SkipSeparators(s[1..]) else s
  }

  /** The value after '=': a quoted run, or an unquoted run up to ','. Returns
      the value and the text that follows it. */
  function ScanValue(v: string): (r: (TokenValue, string))
    ensures |r.1| <= |v|
  {
    if v != [] && IsQuote(v[0]) then
      var q := v[0];
      var body := v[1..];
      var c := FirstWhere(body, Is(q));
      if c < |body| then (Quoted(q, body[..c], true), body[c + 1..])
      else (Quoted(q, body, false), [])
    else
      var c := FirstWhere(v, Is(','));
      (Unquoted(TrimRight(v[..c])), v[c..])
  }

  /** A quoted value runs from its opening quote to the next copy of that
      quote, commas included, or to the end of the text when it is never
      closed; an unquoted value stops before the first comma and loses its
      trailing whitespace. */
  lemma ScanValueShape(v: string)
    ensures var (value, rest) := ScanValue(v);
      match value
      case Quoted(q, inner, closed) =>
        v != [] && q == v[0] && IsQuote(q) && NoChar(inner, q)
        && (closed ==> v == [q] + inner + [q] + rest)
        && (!closed ==> v == [q] + inner && rest == [])
      case Unquoted(text) =>
        NoChar(text, ',') && (text == [] || !IsSpace(text[|text| - 1]))
        && (rest == [] || rest[0] == ',')
      case Bare => false
  {
    if v != [] && IsQuote(v[0]) {
      var q := v[0];
      var body := v[1..];
      var c := FirstWhere(body, Is(q));
      if c < |body| {
        assert v == [q] + body[..c] + [q] + body[c + 1..];
      } else {
        assert v == [q] + body;
      }
    } else {
      var c := FirstWhere(v, Is(','));
      TrimRightSpec(v[..c]);
    }
  }

  /** One token from a text that starts at a non-separator, and the rest. */
  function NextToken(s: string): (r: (Token, string))
    requires s != [] && !IsSeparator(s[0])
    ensures |r.1| < |s|
    ensures |r.0.keyText| <= |s| && s[..|r.0.keyText|] == r.0.keyText
    ensures NoChar(r.0.keyText, '=') && NoChar(r.0.keyText, ',')
    ensures r.0.value.Bare? <==> |r.0.keyText| == |s| || s[|r.0.keyText|] == ','
    ensures r.0.value.Bare? ==> r.1 == s[|r.0.keyText|..]
  {
    var e := FirstWhere(s, IsKeyStop);
    if e < |s| && s[e] == '=' then
      var (v, rest) := ScanValue(s[e + 1..]);
      (Token(s[..e], v), rest)
    else
      (Token(s[..e], Bare), s[e..])
  }

  function Tokens(s: string): (r: seq<Token>)
    ensures |r| <= |s|
    ensures forall i | 0 <= i < |r| :: NoChar(r[i].keyText, '=') && NoChar(r[i].keyText, ',')
    decreases |s|
  {
    var t := SkipSeparators(s);
    if t == [] then []
    else
      var (tok, rest) := NextToken(t);
      [tok] + Tokens(rest)
  }

  /** The dict key a token is stored under. */
  function Name(t: Token): string {
    if t.value.Bare? then "" else NormalizeKey(t.keyText)
  }

  /** The string value `parse_attribute_list_raw` stores: a quoted value
      keeps its quotes (the closing one only if present), a bare token keeps
      its text without trailing whitespace. */
  function RawValue(t: Token): string {
    match t.value
    case Quoted(q, inner, closed) => [q] + inner + (if closed then [q] else [])
    case Unquoted(text) => text
    case Bare => TrimRight(t.keyText)
  }

  function Entries(ts: seq<Token>): (r: Assoc<string>)
    ensures |r| == |ts|
    ensures forall i | 0 <= i < |ts| :: r[i] == (Name(ts[i]), RawValue(ts[i]))
  {
    seq(|ts|, i requires 0 <= i < |ts| => (Name(ts[i]), RawValue(ts[i])))
  }

  /** `parse_attribute_list_raw` on a whole payload. */
  function RawAttributes(s: string): (r: Assoc<string>)
    ensures UniqueKeys(r) && Keys(r) == FirstOccurrences(Keys(Entries(Tokens(s))))
  {
    var es := Entries(Tokens(s));
    PutAllUnique(es);
    PutAllKeyOrder(es);
    PutAll(es)
  }

  /** What follows `prefix` in `line`, past one optional ':'; `None` when the
      line does not start with `prefix`. */
  function AfterPrefix(line: string, prefix: string): (r: Option<string>)
    ensures r.Some? <==> StartsWith(line, prefix)
    ensures r.Some? ==> |r.value| <= |line| - |prefix| && r.value == line[|line| - |r.value|..]
  {
    if StartsWith(line, prefix) then
      var c := line[|prefix|..];
      Some(if c != [] && c[0] == ':' then c[1..] else c)
    else None
  }

  /** `parse_attribute_list` (m3u8/_m3u8_parser.c:825-845): an empty dict
      when the prefix does not match. */
  function AttributeList(line: string, prefix: string): (r: Assoc<string>)
    ensures !StartsWith(line, prefix) ==> r == []
  {
    match AfterPrefix(line, prefix)
    case None => []
    case Some(c) => RawAttributes(c)
  }

  // ---------------------------------------------------------------------
  // Properties of the tokenizer

  /** Every stored key is the empty name of a bare token or a normalized key,
      no key is stored twice, and a repeated name keeps its last value. */
  lemma RawAttributesShape(s: string, k: string)
    ensures UniqueKeys(RawAttributes(s))
    ensures forall i | 0 <= i < |RawAttributes(s)| ::
      RawAttributes(s)[i].0 == "" || NormalKey(RawAttributes(s)[i].0)
    ensures Get(RawAttributes(s), k) == LastValue(Entries(Tokens(s)), k)
  {
    var es := Entries(Tokens(s));
    PutAllUnique(es);
    PutAllLastWins(es, k);
    PutAllKeyOrder(es);
    var r := RawAttributes(s);
    forall i | 0 <= i < |r| ensures r[i].0 == "" || NormalKey(r[i].0) {
      assert Keys(r)[i] == r[i].0;
      FirstOccurrencesFrom(Keys(es), i);
      var j :| 0 <= j < |es| && Keys(es)[j] == r[i].0;
      var t := Tokens(s)[j];
      assert es[j].0 == Name(t);
      if !t.value.Bare? {
        NormalizeKeyShape(t.keyText);
      }
    }
  }

  /** Every name kept by `FirstOccurrences` is one of the input names. */
  lemma {:induction false} FirstOccurrencesFrom(names: seq<string>, i: nat)
    requires i < |FirstOccurrences(names)|
    ensures exists j | 0 <= j < |names| :: names[j] == FirstOccurrences(names)[i]
    decreases |names|
  {
    var init := names[..|names| - 1];
    var p := FirstOccurrences(init);
    var last := names[|names| - 1];
    if i < |p| {
      FirstOccurrencesFrom(init, i);
      var j :| 0 <= j < |init| && init[j] == p[i];
      assert names[j] == p[i];
    } else {
      assert FirstOccurrences(names)[i] == last;
    }
  }

  // ---------------------------------------------------------------------
  // Rendering tokens back to text: the tokenizer is its left inverse.

  predicate NoChar(s: string, c: char) {
    forall i | 0 <= i < |s| :: s[i] != c
  }

  /** A token that the tokenizer reads back unchanged once written out. */
  predicate WellFormed(t: Token) {
    NoChar(t.keyText, '=') && NoChar(t.keyText, ',')
    && (t.keyText == [] || !IsSeparator(t.keyText[0]))
    && match t.value
       case Quoted(q, inner, closed) => IsQuote(q) && NoChar(inner, q) && closed
       case Unquoted(text) =>
         NoChar(text, ',') && (text == [] || (!IsQuote(text[0]) && !IsSpace(text[|text| - 1])))
       case Bare => t.keyText != []
  }

  function RenderToken(t: Token): string {
    match t.value
    case Bare => t.keyText
    case _ => t.keyText + "=" + RawValue(t)
  }

  /** Tokens written one after the other, each followed by a comma. */
  function Render(ts: seq<Token>): string {
    if ts == [] then [] else RenderToken(ts[0]) + "," + Render(ts[1..])
  }

  lemma SkipComma(r: string)
    ensures Tokens("," + r) == Tokens(r)
  {
    var s := "," + r;
    assert s[1..] == r;
    assert SkipSeparators(s) == SkipSeparators(r);
  }

  lemma ScanQuotedRender(q: char, inner: string, r: string)
    requires IsQuote(q) && NoChar(inner, q)
    ensures ScanValue([q] + inner + [q] + "," + r) == (Quoted(q, inner, true), "," + r)
  {
    var v := [q] + inner + [q] + "," + r;
    var body := v[1..];
    assert body == inner + ([q] + "," + r);
    FirstWhereUnique(body, Is(q), |inner|);
    assert body[..|inner|] == inner;
    assert body[|inner| + 1..] == "," + r;
  }

  lemma ScanUnquotedRender(text: string, r: string)
    requires NoChar(text, ',') && (text == [] || (!IsQuote(text[0]) && !IsSpace(text[|text| - 1])))
    ensures ScanValue(text + "," + r) == (Unquoted(text), "," + r)
  {
    var v := text + "," + r;
    FirstWhereUnique(v, Is(','), |text|);
    assert v[..|text|] == text;
    assert v[|text|..] == "," + r;
  }

  lemma ScanValueRender(t: Token, r: string)
    requires WellFormed(t) && !t.value.Bare?
    ensures ScanValue(RawValue(t) + "," + r) == (t.value, "," + r)
  {
    match t.value
    case Quoted(q, inner, closed) =>
      ScanQuotedRender(q, inner, r);
    case Unquoted(text) =>
      ScanUnquotedRender(text, r);
  }

  lemma NextTokenRender(t: Token, r: string)
    requires WellFormed(t)
    ensures var s := RenderToken(t) + "," + r;
      s != [] && !IsSeparator(s[0]) && NextToken(s) == (t, "," + r)
  {
    if t.value.Bare? {
      NextTokenRenderBare(t.keyText, r);
    } else {
      NextTokenRenderKeyed(t, r);
    }
  }

  lemma NextTokenRenderBare(k: string, r: string)
    requires WellFormed(Token(k, Bare))
    ensures var s := k + "," + r;
      s != [] && !IsSeparator(s[0]) && NextToken(s) == (Token(k, Bare), "," + r)
  {
    var s := k + "," + r;
    assert s == k + ("," + r);
    FirstWhereUnique(s, IsKeyStop, |k|);
    assert s[..|k|] == k;
    assert s[|k|..] == "," + r;
  }

  lemma NextTokenRenderKeyed(t: Token, r: string)
    requires WellFormed(t) && !t.value.Bare?
    ensures var s := t.keyText + "=" + RawValue(t) + "," + r;
      s != [] && !IsSeparator(s[0]) && NextToken(s) == (t, "," + r)
  {
    var k := t.keyText;
    var v := RawValue(t) + "," + r;
    var s := k + "=" + RawValue(t) + "," + r;
    assert s == k + ("=" + v);
    FirstWhereUnique(s, IsKeyStop, |k|);
    assert s[..|k|] == k;
    assert s[|k| + 1..] == v;
    ScanValueRender(t, r);
  }

  /** Reading back written tokens gives the same tokens. */
  lemma {:induction false} TokensRender(ts: seq<Token>)
    requires forall i | 0 <= i < |ts| :: WellFormed(ts[i])
    ensures Tokens(Render(ts)) == ts
    decreases |ts|
  {
    if ts != [] {
      var r := Render(ts[1..]);
      var s := RenderToken(ts[0]) + "," + r;
      assert Render(ts) == s;
      NextTokenRender(ts[0], r);
      assert SkipSeparators(s) == s;
      TokensRender(ts[1..]);
      SkipComma(r);
      assert Tokens(s) == [ts[0]] + Tokens("," + r);
    }
  }

  /** A last `key=value` pair with an unquoted value and no comma after it
      is read as that one token. */
  lemma TokensOfLastUnquoted(k: string, text: string)
    requires WellFormed(Token(k, Unquoted(text)))
    ensures Tokens(k + "=" + text) == [Token(k, Unquoted(text))]
  {
    var s := k + "=" + text;
    FirstWhereUnique(s, IsKeyStop, |k|);
    assert s[..|k|] == k;
    assert s[|k| + 1..] == text;
    FirstWhereUnique(text, Is(','), |text|);
    assert text[..|text|] == text;
    TrimRightSpec(text);
  }

  /** Two tokens joined by one comma, the second an unquoted pair that ends
      the payload, are read back as those two tokens. */
  lemma TokensOfPair(t: Token, k: string, text: string)
    requires WellFormed(t) && !t.value.Bare? && WellFormed(Token(k, Unquoted(text)))
    ensures Tokens(RenderToken(t) + "," + k + "=" + text) == [t, Token(k, Unquoted(text))]
  {
    var r := k + "=" + text;
    var s := RenderToken(t) + "," + r;
    assert RenderToken(t) + "," + k + "=" + text == s;
    NextTokenRenderKeyed(t, r);
    assert SkipSeparators(s) == s;
    SkipComma(r);
    TokensOfLastUnquoted(k, text);
  }

  /** `k1="u",k2=d`: a double-quoted pair and a final unquoted pair are read
      back as those two tokens. */
  lemma TokensOfQuotedPair(k1: string, u: string, k2: string, d: string)
    requires WellFormed(Token(k1, Quoted('"', u, true))) && WellFormed(Token(k2, Unquoted(d)))
    ensures Tokens(k1 + "=\"" + u + "\"," + k2 + "=" + d)
            == [Token(k1, Quoted('"', u, true)), Token(k2, Unquoted(d))]
  {
    var t1 := Token(k1, Quoted('"', u, true));
    assert RenderToken(t1) + "," + k2 + "=" + d == k1 + "=\"" + u + "\"," + k2 + "=" + d;
    TokensOfPair(t1, k2, d);
  }

  /** A payload of one bare word is read as that word alone. */
  lemma TokensOfBare(k: string)
    requires WellFormed(Token(k, Bare))
    ensures Tokens(k) == [Token(k, Bare)]
  {
    FirstWhereUnique(k, IsKeyStop, |k|);
    assert k[..|k|] == k;
    assert SkipSeparators(k) == k;
    assert NextToken(k) == (Token(k, Bare), []);
  }

  // ---------------------------------------------------------------------
  // The pointer walk of `parse_attribute_list_raw`, as a loop.

  lemma TokensSkip(s: string, p: nat)
    requires p < |s| && IsSeparator(s[p])
    ensures Tokens(s[p..]) == Tokens(s[p + 1..])
  {
    assert s[p..][1..] == s[p + 1..];
  }

  /** Advance a pointer from `p0` while `stop` does not hold. */
  method ScanTo(s: string, p0: nat, stop: char -> bool) returns (p: nat)
    requires p0 <= |s|
    ensures p0 <= p <= |s| && p - p0 == FirstWhere(s[p0..], stop)
  {
    p := p0;
    while p < |s| && !stop(s[p])
      invariant p0 <= p <= |s|
      invariant forall i | p0 <= i < p :: !stop(s[i])
    {
      p := p + 1;
    }
    var t := s[p0..];
    assert forall i | 0 <= i < p - p0 :: t[i] == s[p0 + i];
    FirstWhereUnique(t, stop, p - p0);
  }

  /** Move an end pointer back over whitespace. */
  method TrimEnd(s: string, lo: nat, hi: nat) returns (e: nat)
    requires lo <= hi <= |s|
    ensures lo <= e <= hi && s[lo..e] == TrimRight(s[lo..hi])
  {
    e := hi;
    while e > lo && IsSpace(s[e - 1])
      invariant lo <= e <= hi
      invariant TrimRight(s[lo..e]) == TrimRight(s[lo..hi])
    {
      assert s[lo..e][..e - lo - 1] == s[lo..e - 1];
      e := e - 1;
    }
  }

  /** The value after '=', read from `p0` on. */
  method ReadValue(s: string, p0: nat) returns (value: TokenValue, val: string, p: nat)
    requires p0 <= |s|
    ensures p0 <= p <= |s| && ScanValue(s[p0..]) == (value, s[p..])
    ensures !value.Bare? && val == RawValue(Token("", value))
  {
    var v := s[p0..];
    if p0 < |s| && IsQuote(s[p0]) {
      var q := s[p0];
      var innerEnd := ScanTo(s, p0 + 1, Is(q));
      assert v[1..] == s[p0 + 1..];
      var closed := innerEnd < |s|;
      p := if closed then innerEnd + 1 else innerEnd;
      value := Quoted(q, s[p0 + 1..innerEnd], closed);
      val := s[p0..p];
      assert val == [q] + s[p0 + 1..innerEnd] + (if closed then [q] else []);
      var body := v[1..];
      assert body == s[p0 + 1..];
      var c := FirstWhere(body, Is(q));
      assert c == innerEnd - p0 - 1;
      if closed {
        assert body[..c] == s[p0 + 1..innerEnd];
        assert body[c + 1..] == s[p..];
        assert ScanValue(v) == (Quoted(q, body[..c], true), body[c + 1..]);
      } else {
        assert s[p..] == [];
        assert body == s[p0 + 1..innerEnd];
        assert ScanValue(v) == (Quoted(q, body, false), []);
      }
    } else {
      var valEnd := ScanTo(s, p0, Is(','));
      p := valEnd;
      var e := TrimEnd(s, p0, valEnd);
      value := Unquoted(s[p0..e]);
      val := s[p0..e];
      assert v[..valEnd - p0] == s[p0..valEnd];
      assert v[valEnd - p0..] == s[valEnd..];
    }
  }

  /** One token read from `p0`, which holds a non-separator. */
  method ReadToken(s: string, p0: nat) returns (tok: Token, name: string, val: string, p: nat)
    requires p0 < |s| && !IsSeparator(s[p0])
    ensures p0 < p <= |s| && NextToken(s[p0..]) == (tok, s[p..])
    ensures name == Name(tok) && val == RawValue(tok)
  {
    var keyEnd := ScanTo(s, p0, IsKeyStop);
    if keyEnd < |s| && s[keyEnd] == '=' {
      tok, name, val, p := ReadKeyedToken(s, p0, keyEnd);
    } else {
      var end := TrimEnd(s, p0, keyEnd);
      tok := Token(s[p0..keyEnd], Bare);
      name := "";
      val := s[p0..end];
      p := keyEnd;
      NextTokenBare(s, p0, keyEnd);
    }
  }

  /** The rest of a token whose name ends at the `=` in position `keyEnd`. */
  method ReadKeyedToken(s: string, p0: nat, keyEnd: nat) returns (tok: Token, name: string, val: string, p: nat)
    requires p0 <= keyEnd < |s| && !IsSeparator(s[p0]) && s[keyEnd] == '='
    requires keyEnd - p0 == FirstWhere(s[p0..], IsKeyStop)
    ensures p0 < p <= |s| && NextToken(s[p0..]) == (tok, s[p..])
    ensures name == Name(tok) && val == RawValue(tok)
  {
    var value;
    value, val, p := ReadValue(s, keyEnd + 1);
    tok := Token(s[p0..keyEnd], value);
    name := NormalizeKey(s[p0..keyEnd]);
    NextTokenKeyed(s, p0, keyEnd, p);
    RawValueOfValue(s[p0..keyEnd], value);
  }

  /** The raw text of a valued token does not depend on its name. */
  lemma RawValueOfValue(k: string, value: TokenValue)
    requires !value.Bare?
    ensures RawValue(Token(k, value)) == RawValue(Token("", value))
  {
  }

  /** The token at `p0` whose name ends at an `=` in position `keyEnd`. */
  lemma NextTokenKeyed(s: string, p0: nat, keyEnd: nat, p: nat)
    requires p0 <= keyEnd < |s| && !IsSeparator(s[p0]) && s[keyEnd] == '='
    requires keyEnd - p0 == FirstWhere(s[p0..], IsKeyStop)
    requires keyEnd < p <= |s| && ScanValue(s[keyEnd + 1..]).1 == s[p..]
    ensures NextToken(s[p0..]) == (Token(s[p0..keyEnd], ScanValue(s[keyEnd + 1..]).0), s[p..])
  {
    var t := s[p0..];
    var e := keyEnd - p0;
    assert t[..e] == s[p0..keyEnd];
    assert t[e + 1..] == s[keyEnd + 1..];
  }

  /** The token at `p0` that has no `=` after its name. */
  lemma NextTokenBare(s: string, p0: nat, keyEnd: nat)
    requires p0 < |s| && !IsSeparator(s[p0]) && p0 <= keyEnd <= |s|
    requires keyEnd - p0 == FirstWhere(s[p0..], IsKeyStop)
    requires !(keyEnd < |s| && s[keyEnd] == '=')
    ensures NextToken(s[p0..]) == (Token(s[p0..keyEnd], Bare), s[keyEnd..])
  {
    var t := s[p0..];
    var e := keyEnd - p0;
    assert t[..e] == s[p0..keyEnd];
    assert t[e..] == s[keyEnd..];
  }

  /** Advance a pointer over whitespace and commas; the tokens ahead stay
      the same. */
  method SkipSeparatorsAt(s: string, p0: nat) returns (p: nat)
    requires p0 <= |s|
    ensures p0 <= p <= |s| && (p < |s| ==> !IsSeparator(s[p]))
    ensures Tokens(s[p..]) == Tokens(s[p0..])
  {
    p := p0;
    while p < |s| && IsSeparator(s[p])
      invariant p0 <= p <= |s|
      invariant Tokens(s[p..]) == Tokens(s[p0..])
    {
      TokensSkip(s, p);
      p := p + 1;
    }
  }

  lemma TokensStep(s: string, p: nat, tok: Token, next: nat)
    requires p < |s| && !IsSeparator(s[p]) && next <= |s|
    requires NextToken(s[p..]) == (tok, s[next..])
    ensures Tokens(s[p..]) == [tok] + Tokens(s[next..])
  {
    assert SkipSeparators(s[p..]) == s[p..];
  }

  lemma EntriesCons(tok: Token, ts: seq<Token>)
    ensures Entries([tok] + ts) == [(Name(tok), RawValue(tok))] + Entries(ts)
  {
  }

  /** `parse_attribute_list_raw` as written: a pointer advanced over
      separators, then over one token, storing each token as it is read. */
  method ScanAttributes(s: string) returns (attrs: Assoc<string>)
    ensures attrs == RawAttributes(s)
  {
    attrs := [];
    var p := SkipSeparatorsAt(s, 0);
    assert s[0..] == s;
    PutEachIsPutAll([], Entries(Tokens(s)));
    assert [] + Entries(Tokens(s)) == Entries(Tokens(s));
    while p < |s|
      invariant 0 <= p <= |s| && (p < |s| ==> !IsSeparator(s[p]))
      invariant PutEach(attrs, Entries(Tokens(s[p..]))) == RawAttributes(s)
      decreases |s| - p
    {
      var tok, name, val, next := ReadToken(s, p);
      TokensStep(s, p, tok, next);
      EntriesCons(tok, Tokens(s[next..]));
      attrs := Put(attrs, name, val);
      p := SkipSeparatorsAt(s, next);
    }
    assert s[p..] == [];
  }
}
